=== FILE: README.md ===
# A verified model of the VulkanRenderingTemplate core

This project models the sequential logic underneath a small Vulkan
renderer, and proves properties of it in Dafny.

GPU objects are opaque handles. A `Vulkan.Device` keeps the set of handles
that are alive. Every `vkCreate*` or `vkAllocate*` adds a fresh non-null
handle, and every `vkDestroy*` or `vkFree*` removes one. Anything the
driver, the window or the swapchain reports is passed in as a parameter:
- creation results and `memoryTypeBits` (`DriverAnswers`);
- acquire and present results, whether submit succeeded, the window sizes polled, and the extent and image count of a rebuilt swapchain (`FrameAnswers`);
- the result of `DescriptorWriter::build`.

The modules follow the program:

| module | file | what it models |
|---|---|---|
| `Vulkan` | vulkan.dfy | handles, `VkResult`, usage and memory-property bits, `VK_WHOLE_SIZE`, the errors the code throws, the device's live handles |
| `Scene` | scene.dfy | `RenderObject` and `getSortKey`, in unsigned 64-bit arithmetic |
| `Buffers` | buffer.dfy | `vks::Buffer`: `findMemoryType`, constructor, `map`/`unmap`/`writeToBuffer`, `descriptorInfo`, destructor; the buffer's memory is a byte array |
| `Geometry` | geometry.dfy | the integer part of `geometry::createSphere`, and the vertex binding and attribute descriptions |
| `Pipelines` | pipelines.dfy | `vks::GraphicsPipeline`: the three name-keyed maps, the lookups, `createPipelines`, `recreate`, the destructor, and the fixed configuration of the "base" and "sphere" pipelines |
| `Materials` | material.dfy | the `vks::Material` constructor protocol and its getters |
| `Models` | model.dfy | `Model::createSphere` (counts, sizes, the two uploads) and `createBufferFromData` (the staging upload) |
| `Recording` | recording.dfy | `BasicCommandBuffers::recordCommands`: the sorted copy, and the loop that binds only on change, pushes and draws |
| `App` | application.dfy | `Application::drawFrame`, `recreateSwapChain`, `buildScene`, the camera-set step of `loadAssets`, the getters and initial state |

`recordCommands` is a method over a `seq<Command>` of recorded `vkCmd*`
calls. The method returns exactly what the function `Recording.Record`
gives for the sorted order it walked. The lemmas about `Record` count the
draws, pipeline binds, global-set binds, material-set binds and push
constants.

`drawFrame` is a method on the `Application` class. Its new state and the
foreign calls it logs equal what the function `App.Frame` gives. Lemmas
about `Frame` state the frame-counter, fence-table, resize-flag, submit
and present rules.

Three places where the code behaves differently from what a reader might expect:
- The scene list is sorted with `std::sort`, which promises no stability. The model promises only sorted and permuted.
- A transform is pushed only for an object that has a model, not for every object.
- The comment at src/Basic/BasicCommandBuffers.cpp:84 says the global camera set (set 0) is bound once. With a non-null camera set and a non-empty list, the code binds it before the loop and again at every pipeline change.

## Model

| member | source | states |
|---|---|---|
| Scene.SortKey | include/vks/Application.hpp:47-52 | getSortKey: with a material key below 2^32, the low 32 bits of the key are the material key and the high 32 bits the pipeline key mod 2^32 |
| Scene.KeyUnderBound | include/vks/Application.hpp:51 | for a material key below 2^32, `(p << 32) \| m` equals (p mod 2^32)·2^32 + m |
| Scene.SortKeyDropsHighBits | include/vks/Application.hpp:49-51 | pipeline keys that agree mod 2^32 give equal sort keys: the bits above bit 31 are discarded by the shift |
| Scene.SortKeyOrder | include/vks/Application.hpp:47-52 | under the bound, a < b on sort keys exactly when (pipeline key mod 2^32, material key) is lexicographically smaller |
| Scene.SortKeyOverlap | include/vks/Application.hpp:49-51 | without the bound the halves overlap: a concrete object with the lower pipeline key sorts after one with a higher pipeline key |
| Scene.SortKeyGroupsByMaterialNotName | include/vks/Application.hpp:49 | two materials naming the same pipeline whose name copies lie at addresses differing mod 2^32 get different keys: the key reads the address, never the string |
| Scene.SortKeySplitsPipeline | include/vks/Application.hpp:47-52 | a concrete case where an object of the "base" pipeline sorts between two objects of the "sphere" pipeline |
| Scene.BitOrBelow | include/vks/Application.hpp:51 | or-ing two k-bit numbers gives a k-bit number, so the key stays a uint64_t |
| Scene.BitOrDisjoint | include/vks/Application.hpp:51 | or-ing a number below 2^k into a multiple of 2^k is adding it |
| Scene.ShiftLeft32Keeps32 | include/vks/Application.hpp:51 | a uint64_t shifted left by 32 keeps only its low 32 bits, moved up |
| Scene.Translation | src/Application.cpp:113 | the translation matrix carries x, y, z in entries 12 to 14 of its 16 |
| App.Application.constructor | include/vks/Application.hpp:115-125 | currentFrame starts at 0, the resize flag is clear, the scene list is empty and the camera set is null |
| App.Application.GetRenderObjects | include/vks/Application.hpp:73 | returns the stored scene list |
| App.Application.GetCameraDescriptorSet | include/vks/Application.hpp:74 | returns the stored camera set |
| Pipelines.Lookup | src/GraphicsPipeline.cpp:52-87 | `at` succeeds exactly for a registered name and returns its stored value; otherwise the error names the registry and the missing key |
| Pipelines.GraphicsPipeline.GetPipeline | src/GraphicsPipeline.cpp:52-63 | the pipeline lookup, failing with an error naming the missing pipeline |
| Pipelines.GraphicsPipeline.GetLayout | src/GraphicsPipeline.cpp:65-75 | the layout lookup, failing with an error naming the missing layout |
| Pipelines.GraphicsPipeline.GetDescriptorSetLayout | src/GraphicsPipeline.cpp:77-87 | the set-layout lookup, failing with an error naming the missing set layout |
| Pipelines.GraphicsPipeline.constructor | src/GraphicsPipeline.cpp:25-34 | the registry is valid: pipeline and layout keys are {"base","sphere"}, the set layouts are exactly global and material, each pipeline has its configuration; the owned pipeline and layout handles are new and are exactly what the device gained |
| Pipelines.GraphicsPipeline.CreatePipelines | src/GraphicsPipeline.cpp:111-132 | from empty maps: the two set layouts, then "base" and "sphere", leaving a valid registry whose pipeline and layout handles are exactly the device's new ones |
| Pipelines.GraphicsPipeline.CreatePipeline | src/GraphicsPipeline.cpp:134-270 | the name gets a new pipeline and a new layout, distinct from each other, and the configuration given; the shader modules are destroyed, so the device gains exactly those two handles; other names are untouched |
| Pipelines.GraphicsPipeline.Recreate | src/GraphicsPipeline.cpp:89-109 | every old pipeline and layout is destroyed, the three key sets are the same afterwards, and the device's live set is the old one without the old pipeline and layout handles plus the new ones |
| Pipelines.GraphicsPipeline.Destroy | src/GraphicsPipeline.cpp:36-50 | every pipeline and layout handle in the maps leaves the device's live set and the set-layout map is cleared |
| Pipelines.BaseConfigFacts | src/GraphicsPipeline.cpp:154-233 | base pipeline: no vertex bindings or attributes, no set layouts, no push-constant ranges, depth test and write off, clockwise front face |
| Pipelines.SphereConfigFacts | src/GraphicsPipeline.cpp:297-389 | sphere pipeline: set layouts [global, material] in that order, one vertex-stage push range at offset 0 of 64 bytes, depth test and write on with LESS, counter-clockwise, the 32-byte vertex stride and three attributes |
| Pipelines.SharedConfig | src/GraphicsPipeline.cpp:160-204 | both pipelines: triangle list, scissor = swapchain extent, back-face culling, one sample, blending off |
| Buffers.FindMemoryType | src/Buffer.cpp:53-67 | returns the smallest i below the type count whose filter bit is set and whose flags contain every requested bit; fails with the memory-type error exactly when no such i exists |
| Buffers.Buffer.Init | include/vks/Buffer.hpp:74-80 | a new buffer records its size, has null buffer and memory handles and is unmapped |
| Buffers.Buffer.Create | src/Buffer.cpp:5-41 | throws exactly the first failure among create, memory-type search, allocate and bind; on success the buffer is unmapped with the given size, usage and properties, owns two new distinct handles, and its memory type is the first match; a failed constructor leaves 0, 1 or 2 handles alive, since no destructor runs |
| Buffers.Buffer.AllocateMemory | src/Buffer.cpp:23-40 | memory-type search, allocate and bind fail in that order; memory stays null unless allocation succeeded, and then the device gained exactly that handle |
| Buffers.LeakCount | src/Buffer.cpp:19-40 | the handles a failed constructor leaves alive number 0 when vkCreateBuffer failed, 2 when the bind failed and 1 otherwise |
| Buffers.Buffer.Map | src/Buffer.cpp:69-72 | only an unmapped buffer may be mapped; afterwards it is mapped at the given offset |
| Buffers.Buffer.Unmap | src/Buffer.cpp:74-78 | only a mapped buffer may be unmapped; afterwards it is unmapped |
| Buffers.Buffer.WriteToBuffer | src/Buffer.cpp:80-90 | on a mapped buffer, the leading bytes of data replace the bytes from the write position on, and every other byte is unchanged; VK_WHOLE_SIZE uses the corrected length, which runs to the end of the buffer (see Findings and Left out) |
| Buffers.SplicedReadsBack | src/Buffer.cpp:87-89 | after the copy, the written range reads back as the data, every other byte is unchanged, and the length is unchanged |
| Buffers.Buffer.DescriptorInfo | src/Buffer.cpp:92-98 | returns the buffer handle with the offset and range given, VK_WHOLE_SIZE passed through unresolved |
| Buffers.Buffer.Destroy | src/Buffer.cpp:43-51 | unmaps first if still mapped, then releases both the buffer and its memory |
| Buffers.WholeSizeWriteOverruns | src/Buffer.cpp:83-89 | as written, a VK_WHOLE_SIZE write that starts past byte 0 runs past the end of the buffer |
| Buffers.IntendedLengthFits | src/Buffer.cpp:83-89 | the corrected length of a VK_WHOLE_SIZE write ends exactly at the end of the buffer, and agrees with the written one for writes at 0 |
| Materials.Material.Init | include/vks/Material.hpp:42-44 | the pipeline name is the one passed in and the descriptor set starts null |
| Materials.Material.Create | include/vks/Material.hpp:36-73 | fails with the lookup error when "material" is missing, with the buffer's error when it cannot be created, and with the build error when the writer fails; on success: the set layout is the registry's "material" layout whatever the pipeline name, the 16-byte host-visible coherent uniform buffer is unmapped and holds the colour, uboData is the colour, the only write is the buffer at binding 0, and the device gained the buffer, its memory and the new set |
| Materials.Material.View | include/vks/Material.hpp:94-100 | returns the pipeline name, where it is stored and the descriptor set |
| Models.Model.constructor | include/vks/Model.hpp:59-63 | a default model has no buffers and zero vertex and index counts |
| Models.Model.CreateSphere | src/Model.cpp:8-42 | both counts are the generated array sizes mod 2^32; the vertex buffer (vertex usage) and then the index buffer (index usage) hold the first 32·vertexCount and 4·indexCount bytes of the two arrays; an upload failure is reported, the vertex one first |
| Models.SphereData | src/Model.cpp:15-34 | the counts are the sizes of the generated arrays as uint32_t, the byte sizes are sizeof(element) times those counts and never exceed the bytes available, and every index fits in uint32_t |
| Models.UploadSize | src/Model.cpp:24 | a uint32_t count times an element size of at most 32 bytes is that product as a VkDeviceSize |
| Models.TruncatedSize | src/Model.cpp:20-24 | truncating a count to uint32_t never makes the byte size larger |
| Models.SphereCounts | src/Model.cpp:18-21 | when the counts fit, the stored counts are (stacks+1)·(sectors+1) and 6·sectors·(stacks−1) (none below two stacks) |
| Models.Model.UploadBoth | src/Model.cpp:23-41 | the vertex upload, then, only if it succeeded, the index upload; each buffer holds its bytes with its usage |
| Models.Model.UploadVertices | src/Model.cpp:23-31 | m_vertexBuffer becomes a new device-local buffer with usage TRANSFER_DST \| VERTEX holding the vertex bytes |
| Models.Model.UploadIndices | src/Model.cpp:33-41 | m_indexBuffer becomes a new device-local buffer with usage TRANSFER_DST \| INDEX holding the index bytes |
| Models.CreateBufferFromData | src/Model.cpp:44-83 | fails with the staging error, else the destination's; on success the new device-local buffer with usage TRANSFER_DST \| usage holds the first `size` bytes of data, is unmapped, and the staging buffer is gone (the device gained exactly the new buffer's two handles) |
| Models.Stage | src/Model.cpp:52-64 | the staging buffer is created transfer-source and host-visible, mapped, filled with data[..size] and unmapped |
| Models.CopyToDevice | src/Model.cpp:66-83 | the destination has usage TRANSFER_DST \| usage, device-local memory and the staging buffer's size and bytes; the staging buffer is released also when the destination's constructor throws |
| Models.CopyBuffer | src/Model.cpp:75-82 | the copy region's bytes of the source replace those at the destination offset; all other destination bytes are unchanged |
| Models.Replace | src/Model.cpp:68-73 | on success the old buffer, if any, is unmapped and its two handles leave the live set after the new buffer's two handles have joined it; on failure the old buffer is untouched and nothing is released |
| Models.Model.GetVertexBuffer | include/vks/Model.hpp:42 | the owned vertex buffer's handle, which requires the buffer to exist |
| Models.Model.GetIndexBuffer | include/vks/Model.hpp:43 | the owned index buffer's handle, which requires the buffer to exist |
| Models.Model.View | include/vks/Model.hpp:42-44 | the vertex buffer, index buffer and index count that recording reads |
| Models.Le32RoundTrip | src/Model.cpp:34-38 | the four little-endian bytes of a uint32_t index decode back to it |
| Models.IndexBytesAt | src/Model.cpp:34-38 | index k of the array sits at bytes 4k to 4k+4 of the upload |
| Models.IndicesBelow | src/Geometry.cpp:86-106 | every index of a triangle list over fewer than 2^32 vertices is below the vertex count |
| Geometry.VertexBinding | src/Geometry.cpp:13-20 | binding 0, stride sizeof(Vertex), per-vertex rate |
| Geometry.VertexAttributes | src/Geometry.cpp:22-45 | exactly three attributes, all on binding 0, at locations 0, 1, 2 |
| Geometry.AttributesTileStride | src/Geometry.cpp:22-45 | the attributes start at 0 and each starts where the previous one ends (3-float, 3-float, 2-float), ending at the 32-byte stride |
| Geometry.CreateSphere | src/Geometry.cpp:48-109 | from cleared arrays, the vertices are the (stacks+1)×(sectors+1) grid row by row and the indices are the triangles of every row |
| Geometry.AppendRow | src/Geometry.cpp:68-83 | the inner vertex loop appends the sectors+1 points of row i in order |
| Geometry.AppendRowIndices | src/Geometry.cpp:86-107 | the inner index loop, advancing k1 and k2 together, appends each cell's (k1,k2,k1+1) unless in the top row and (k1+1,k2,k2+1) unless in the bottom row |
| Geometry.SphereVertices | src/Geometry.cpp:62-84 | the vertex array has (stacks+1)·(sectors+1) entries, with vertex (i,j) at i·(sectors+1)+j |
| Geometry.IndexCount | src/Geometry.cpp:86-108 | the index array has 6·sectors·(stacks−1) entries for stacks ≥ 2 and none otherwise |
| Geometry.SphereIndicesLength | src/Geometry.cpp:86-108 | the first m rows give 3·sectors·(triangles per sector) indices |
| Geometry.RowIndicesLength | src/Geometry.cpp:92-107 | a row gives one triangle per cell in the top or bottom row and two elsewhere |
| Geometry.TrianglesPerSectorTotal | src/Geometry.cpp:94-106 | over all rows, 2·(stacks−1) triangles per sector for stacks ≥ 2, none otherwise |
| Geometry.SphereTriangles | src/Geometry.cpp:89-106 | every triple of the index array is three distinct vertices inside the vertex array, and the count is a multiple of 3 |
| Geometry.CellTriangles | src/Geometry.cpp:94-106 | each cell's triangles use distinct in-range vertices |
| Geometry.TrianglesLength | src/Geometry.cpp:94-106 | a triangle list has a multiple of three entries |
| Recording.CommandBuffers.constructor | src/Basic/BasicCommandBuffers.cpp:26-28 | one empty command buffer per framebuffer |
| Recording.CommandBuffers.Recreate | src/Basic/BasicCommandBuffers.cpp:21-24 | the buffers are replaced by one empty buffer per framebuffer |
| Recording.CommandBuffers.RecordCommands | src/Basic/BasicCommandBuffers.cpp:48-154 | walks a sorted permutation of the scene list; succeeds exactly when begin and end succeed and every object's pipeline name is registered; the chosen buffer then holds what Record gives; failures report Record's error; no other buffer changes, and a failed begin changes none |
| Recording.SortBy | src/Basic/BasicCommandBuffers.cpp:79-82 | the array ends sorted by the key and is a permutation of what it was |
| Recording.Insert | src/Basic/BasicCommandBuffers.cpp:79-82 | one insertion pass extends the sorted prefix by one, as a permutation |
| Recording.SortedCopy | src/Basic/BasicCommandBuffers.cpp:75-82 | a sorted permutation of the list, the list itself left as it is |
| Recording.WalkSorted | src/Basic/BasicCommandBuffers.cpp:95-146 | succeeds exactly when every name resolves, and then appends what Walk gives; otherwise it fails with the first object's lookup error |
| Recording.Emit | src/Basic/BasicCommandBuffers.cpp:104-145 | one iteration appends that step's commands and moves lastPipeline to the pipeline and lastMaterialSet to a non-null material set |
| Recording.RecordPass | src/Basic/BasicCommandBuffers.cpp:72-149 | the commands from the render-pass begin to its end are what Record gives for a begun and ended buffer |
| Recording.RecordEnded | src/Basic/BasicCommandBuffers.cpp:151-153 | a failing vkEndCommandBuffer turns an otherwise successful recording into the recording error |
| Recording.RecordSucceeds | src/Basic/BasicCommandBuffers.cpp:48-154 | recording succeeds exactly when begin and end succeed and every name resolves; with a begun buffer and an unresolved name the error names one of the objects' pipelines |
| Recording.RecordEmpty | src/Basic/BasicCommandBuffers.cpp:72-149 | an empty list records only begin and end render pass |
| Recording.Record | src/Basic/BasicCommandBuffers.cpp:48-154 | recordCommands as a function of the scene list, the registry, the camera set and the begin/end results: a successful recording starts with BeginRenderPass of the image and ends with EndRenderPass |
| Recording.RecordDraws | src/Basic/BasicCommandBuffers.cpp:133-145 | exactly one draw per object in list order: indexed with the model's index count when the object has a model, 3 vertices otherwise |
| Recording.RecordBinds | src/Basic/BasicCommandBuffers.cpp:85-123 | pipeline binds = changes of pipeline handle starting from null; global-set binds = 1 + pipeline binds with a camera set and a non-empty list, else 0; material binds = non-null sets differing from the last bound |
| Recording.RecordPushes | src/Basic/BasicCommandBuffers.cpp:127-130 | the push constants are exactly one per object with a model |
| Recording.PushesCount | src/Basic/BasicCommandBuffers.cpp:127-130 | every push is a 64-byte vertex-stage push at offset 0, and there are as many as objects with a model |
| Recording.WalkDraws | src/Basic/BasicCommandBuffers.cpp:133-145 | the loop's draws are one per step, in order |
| Recording.WalkPipelineBinds | src/Basic/BasicCommandBuffers.cpp:95-108 | the loop binds a pipeline exactly at each change of pipeline handle |
| Recording.WalkGlobalBinds | src/Basic/BasicCommandBuffers.cpp:110-114 | the loop re-binds the camera set at each pipeline change, only when the set is non-null |
| Recording.WalkMaterialBinds | src/Basic/BasicCommandBuffers.cpp:117-123 | the loop binds a material set exactly when it is non-null and differs from the last one bound |
| Recording.WalkPushes | src/Basic/BasicCommandBuffers.cpp:127-130 | the loop's pushes are one per meshed step, in order |
| Recording.ResolvesPermutation | src/Basic/BasicCommandBuffers.cpp:99-102 | whether every name resolves does not depend on the list's order |
| Recording.WalkFailureNone | src/Basic/BasicCommandBuffers.cpp:99-102 | the walk fails exactly when some object's name does not resolve |
| Recording.FailingObject | src/Basic/BasicCommandBuffers.cpp:99-102 | a failing walk's error is a lookup error naming one of the objects' pipelines |
| Recording.FirstFailure | src/Basic/BasicCommandBuffers.cpp:99-102 | the walk fails with the lookup error of the first object whose name does not resolve |
| Recording.PrefixFailure | src/Basic/BasicCommandBuffers.cpp:100-102 | after a resolving prefix, a missing pipeline is reported before a missing layout |
| Recording.Resolve | src/Basic/BasicCommandBuffers.cpp:100-102 | each step carries its object with the pipeline and layout registered under its material's pipeline name |
| Recording.WalkAppend | src/Basic/BasicCommandBuffers.cpp:99-146 | one more object appends its step's commands and moves the remembered pipeline and material set on |
| App.PollFramebufferSize | src/Application.cpp:294-299 | goes on with the first non-zero size the window reports, having polled past only zero sizes |
| App.Frame | src/Application.cpp:177-263 | drawFrame as a function of the state and the answers: every frame first waits on its in-flight fence and acquires, and the frame state stays valid |
| App.FrameCounter | src/Application.cpp:262 | currentFrame moves to the next frame mod 2 exactly when the frame reached present and did not throw |
| App.AcquireOutOfDate | src/Application.cpp:186-188 | an out-of-date acquire recreates and returns: no uniform update, recording, submit or present; frame and fence table unchanged; the flag left set; the image count is the new swapchain's |
| App.AcquireFails | src/Application.cpp:189-191 | any other failing acquire throws and changes nothing |
| App.FenceHandoff | src/Application.cpp:197-202 | the image's old fence is waited on exactly when non-null, and the image then holds the frame's fence |
| App.ResetBeforeSubmit | src/Application.cpp:232-237 | every submit, accepted or not, uses the frame's fence and comes immediately after that fence's reset |
| App.SubmitIffRecorded | src/Application.cpp:206-252 | vkQueueSubmit is called exactly when an image was acquired and recorded; vkQueuePresentKHR exactly when that submit was also accepted |
| App.SubmittedActions | src/Application.cpp:193-260 | an acquired and recorded frame makes one submit, right after the reset, with no submit or present before it; the present follows only an accepted submit |
| App.SubmitFails | src/Application.cpp:234-237 | a rejected submit is the frame's last call: drawFrame throws and leaves currentFrame unchanged |
| App.PresentOutcome | src/Application.cpp:252-260 | out-of-date, suboptimal or the flag recreates the swapchain, then the sync objects, and clears the flag; any other failing present throws without moving the frame |
| App.ResizeOutlivesAcquire | src/Application.cpp:291-292 | after an acquire-triggered recreation the flag stays set, so the next frame that reaches present recreates again |
| App.SceneObjects | src/Application.cpp:108-122 | buildScene as a function of the model and material registries: it succeeds exactly when it appends two objects, all on the "sphere" model |
| App.SceneObjectsFacts | src/Application.cpp:108-122 | buildScene succeeds exactly when the three names exist, appending the red then the blue sphere on model "sphere" at x = 0 and x = 2; a failure names a missing key and leaves at most the red sphere |
| App.Application.BuildScene | src/Application.cpp:108-122 | appends to the scene list what SceneObjects gives and reports its result |
| App.Application.CreateCameraSet | src/Application.cpp:70-76 | looks up the "global" set layout; the camera set is a new handle when the writer builds, else it is unchanged |
| App.Application.RecreateSwapChainFor | src/Application.cpp:291-311 | sets the flag, waits for a non-zero size, waits for the device to go idle, then logs swapchain, render pass, pipelines, command buffers, interface, then cleans up the old render pass and swapchain; the pipelines are rebuilt for the new swapchain's extent with the same names, their old handles leave the device's live set, the new ones are fresh and every other live handle stays, and the command buffers are one per new image |
| App.Application.DrawFrame | src/Application.cpp:177-263 | the new frame, flag, sync objects, the calls made and the result are those Frame gives; recording succeeds exactly when both command-buffer calls do and every name resolves; the acquired image's buffer then holds Record's commands for a sorted permutation of the scene, no other buffer changes, and the registry and the device's live set are as before; unless a recreation ran, which replaces the old pipeline and layout handles by fresh ones at the new extent, keeps every other live handle and leaves one empty buffer per new image |
| App.Application.DrawAcquired | src/Application.cpp:193-263 | the rest of the frame once an image was acquired, as AfterAcquire gives it; the image's buffer holds Record's commands for the sorted order walked, no other buffer changes and the registry and the device's live set are as before, unless present triggered a recreation, which rebuilds pipelines and buffers for the new swapchain with the live-set change of a recreation |
| App.Application.RecordObjects | src/Application.cpp:206 | recordCommands on the scene list succeeds exactly when begin and end succeed and every name resolves; the image's buffer then holds Record's commands for a sorted permutation of the scene, and no other buffer changes |
| App.Application.RecordAcquired | src/Application.cpp:193-206 | the image is handed the frame's fence and the uniform-update, wait and record calls are logged, as Handed and RecordCalls give them; the image's buffer then holds Record's commands for a sorted permutation of the scene, no other buffer changes, and the registry and the device's live set are untouched |
| App.Application.HandOver | src/Application.cpp:197-202 | waits on the image's previous fence if non-null, then hands the image the frame's fence |
| App.Application.SubmitAndPresentFrame | src/Application.cpp:207-262 | reset, submit, present and the frame switch, as SubmitAndPresent gives them; the command buffers, the registry and the device's live set are untouched unless present triggers a recreation, which rebuilds pipelines and buffers for the new swapchain, replacing the old pipeline and layout handles by fresh ones and keeping every other live handle |
| App.Application.RecreateAfterPresent | src/Application.cpp:252-256 | the swapchain is recreated, then the sync objects for the new image count, and the flag is cleared; the pipelines take the new extent, their old handles leave the device's live set, the new ones are fresh and every other live handle stays, and there is one empty command buffer per new image |

## Left out

- App.Application.DrawAcquired: the per-frame rewrite of the first two objects' transforms by updateUBOs (src/Application.cpp:156-159, called at 195) is not modelled, so the pushed transforms are the ones buildScene stored.
- Every Vulkan, GLFW and ImGui call is a recorded value or a handle. What these calls do on the GPU is not modelled.
- Fence and semaphore semantics and the GPU work they guard are concurrency, and are not modelled. Only the CPU-side table and flag updates of drawFrame are.
- Floating point is not modelled: sphere positions, normals and UVs, the camera matrices of `updateUBOs`, viewports and clear colours. A vertex's 32 bytes come from a function parameter, and transforms are opaque matrices.
- The ImGui overlay (`drawImGui`), `mainLoop`, `run`, and instance, device, window and debug-messenger construction are not modelled.
- Shader modules and their bytecode are not modelled. Their creation and destruction appear only as handles.
- Pipelines.GraphicsPipeline: the two descriptor set layouts are values (their bindings), not handles. createPipelines builds two DescriptorSetLayout objects, each creating a VkDescriptorSetLayout (src/GraphicsPipeline.cpp:116-125), and `m_descriptorSetLayouts.clear()` destroys them (:49, :102). Those two handles are outside the model's live-set accounting.
- Pipelines.GraphicsPipeline.constructor: "what the device gained" counts the pipeline and layout handles only, not the two set-layout handles.
- Pipelines.GraphicsPipeline.CreatePipelines: the device's new handles are the pipelines and layouts only; the two set-layout handles it also creates are not counted.
- Pipelines.GraphicsPipeline.Recreate: the live-set equation leaves out the two old set-layout handles released by `clear()` and the two new ones createPipelines makes.
- Pipelines.GraphicsPipeline.Destroy: the live-set equation leaves out the release of the two set-layout handles.
- App.Application.RecreateSwapChainFor: the live-set change it states (and DrawFrame, DrawAcquired, SubmitAndPresentFrame and RecreateAfterPresent carry up) has the same set-layout gap, since it is the registry's Recreate equation.
- `DescriptorPool` and `DescriptorWriter` are not modelled. Only the writer's build result is modelled, as a parameter; their internals are not part of this model.
- `SyncObjects` internals are not modelled. What it hands back after `recreate` is a parameter.
- `loadAssets` is not modelled as one operation. Its parts are:
  - the camera set step (`App.Application.CreateCameraSet`);
  - `Models.Model.CreateSphere`;
  - `Materials.Material.Create`.
  The camera uniform buffer and the descriptor pool are left out.
- `Application::getInstance()` and the command pool are not modelled. The one-shot command is taken to run the copy.
- Non-copyability and movability of Buffer, Model and Material are not modelled. These are C++ ownership rules with no counterpart here.
- The window resize callback that sets the flag is not modelled. The flag is a field that the model reads and writes.
- Pipelines.GraphicsPipeline.CreatePipeline: takes every vkCreate* call for shaders, layouts and pipelines to succeed. The source's throws on those failures are not modelled.
- Buffers.Buffer.Map: takes vkMapMemory to succeed, and returns Success.
- App.Application.RecreateSwapChainFor: requires the window to report a non-zero size eventually (`Settles`). A window that never does would keep the source polling forever.
- Recording.SortBy: models `std::sort` by an insertion sort. Its contract promises only sorted by key and permutation, as `std::sort` does; it does not capture the relative order `std::sort` would give equal keys.
- Recording.CommandBuffers.RecordCommands: after an exception in the middle of recording, the content of the image's command buffer is not specified.
- Geometry.CreateSphere: requires (stacks+1)·(sectors+1) < 2^32. At the product 2^32, for example stacks = 2^32 − 1 with sectors = 0, the source's uint32_t loop counter wraps at `i <= stacks` and the loop never ends. Beyond that its indices wrap too. The model does not follow either.
- Models.Model.CreateSphere: requires the same strict bound as Geometry.CreateSphere. The stored counts are still taken mod 2^32, as the source's casts do.
- Buffers.Buffer.WriteToBuffer: for VK_WHOLE_SIZE the model copies from the write position to the end of the buffer, the corrected length under Findings. The source copies the whole buffer size from that position. The two agree whenever the write starts at byte 0.
- Buffers.Buffer.Map: drops its size argument. The model bounds a write by the buffer rather than by the mapped range.
- App.Answerable: takes the acquired image index to lie inside SyncObjects' per-image fence table as well as the swapchain. After an out-of-date acquire, recreateSwapChain may change the image count while `syncObjects.recreate` is not called, so the table keeps its old length. An index beyond it would be out of range in the source, and the model does not follow that case. SyncObjects is not part of this model.

## Findings

| source | as written | input that shows it | evidently intended | confidence | as-written member | corrected member |
|---|---|---|---|---|---|---|
| src/Buffer.cpp:83-89 | a size of VK_WHOLE_SIZE becomes the whole buffer size, and the copy then starts `offset` bytes into the mapping | a 16-byte buffer mapped at 0 and `writeToBuffer(data, VK_WHOLE_SIZE, 4)`: 16 bytes are copied into bytes 4 to 20 of a 16-byte buffer | copy from the write position to the end of the buffer | not executed | Buffers.WholeSizeWriteOverruns | Buffers.IntendedLengthFits |

`Buffers.Buffer.WriteToBuffer` uses the corrected length (`Buffers.IntendedLength`). The two lengths agree for every write that starts at byte 0. That includes every call the renderer makes.

=== FILE: application.dfy ===
/**
 * vks::Application: the scene list, the camera descriptor set and the
 * per-frame bookkeeping of drawFrame and recreateSwapChain.  The Vulkan
 * and GLFW calls these make are recorded as Action values in `log`; what
 * those calls report (acquire and present results, the window's size,
 * whether submit succeeded, what SyncObjects hands back) is supplied by
 * the caller as FrameAnswers.
 */
module App {
  import opened Vulkan
  import opened Scene
  import Recording
  import Pipelines

  /** MAX_FRAMES_IN_FLIGHT. */
  const MAX_FRAMES_IN_FLIGHT: nat := 2

  /**
   * The part of SyncObjects drawFrame reads and writes: one in-flight fence
   * per frame, and for each swapchain image the fence of the frame that
   * last used it (VK_NULL_HANDLE when none did).
   */
  datatype SyncState = SyncState(inFlightFences: seq<Handle>, imagesInFlight: seq<Handle>)

  /**
   * currentFrame, the window's framebufferResized flag, the number of
   * images of the current swapchain, and the sync state.
   */
  datatype FrameState = FrameState(currentFrame: nat, resized: bool, imageCount: nat, sync: SyncState)

  /** currentFrame + 1, mod MAX_FRAMES_IN_FLIGHT. */
  function NextFrame(frame: nat): nat {
    (frame + 1) % MAX_FRAMES_IN_FLIGHT
  }

  predicate FrameValid(s: FrameState) {
    s.currentFrame < MAX_FRAMES_IN_FLIGHT && |s.sync.inFlightFences| == MAX_FRAMES_IN_FLIGHT
  }

  /** The foreign calls of a frame, in the order they are made. */
  datatype Action =
    | WaitFrameFence(fence: Handle)
    | Acquire(frame: nat)
    | UpdateUniforms(frame: nat)
    | WaitImageFence(fence: Handle)
    | RecordScene(image: nat)
    | RecordInterface(image: nat)
    | ResetFence(fence: Handle)
    | Submit(image: nat, fence: Handle)
    | Present(image: nat)
    | WaitDeviceIdle
    | RecreateSwapChain(windowSize: Extent)
    | RecreateRenderPass
    | RecreatePipelines
    | RecreateCommandBuffers
    | RecreateInterface
    | CleanupOldRenderPass
    | CleanupOldSwapChain
    | RecreateSync(imageCount: nat)

  // ---------------------------------------------------------------------
  // recreateSwapChain.

  /** The sizes successive framebufferSize calls report; the window is eventually non-zero. */
  predicate Settles(sizes: seq<Extent>) {
    exists k :: 0 <= k < |sizes| && IsNonZero(sizes[k])
  }

  /** The index of the first non-zero size. */
  function FirstNonZero(sizes: seq<Extent>): (k: nat)
    requires Settles(sizes)
    ensures k < |sizes| && IsNonZero(sizes[k])
    ensures forall j :: 0 <= j < k ==> !IsNonZero(sizes[j])
    decreases |sizes|
  {
    if IsNonZero(sizes[0]) then 0
    else
      assert Settles(sizes[1..]) by {
        var k :| 0 <= k < |sizes| && IsNonZero(sizes[k]);
        assert sizes[1..][k - 1] == sizes[k];
      }
      var k := FirstNonZero(sizes[1..]);
      assert forall j :: 1 <= j <= k ==> sizes[j] == sizes[1..][j - 1];
      1 + k
  }

  /** The extent recreateSwapChain goes on with. */
  function Settled(sizes: seq<Extent>): Extent
    requires Settles(sizes)
  {
    sizes[FirstNonZero(sizes)]
  }

  /**
   * What recreateSwapChain does once the size is non-zero, in order: wait
   * for the device to go idle, then rebuild and clean up.
   */
  function Recreation(extent: Extent): seq<Action> {
    [WaitDeviceIdle, RecreateSwapChain(extent), RecreateRenderPass, RecreatePipelines, RecreateCommandBuffers,
     RecreateInterface, CleanupOldRenderPass, CleanupOldSwapChain]
  }

  /** The size poll: read the size, and while either side is zero wait for events and read it again. */
  method PollFramebufferSize(sizes: seq<Extent>) returns (extent: Extent, polls: nat)
    requires Settles(sizes)
    ensures polls < |sizes| && extent == sizes[polls] && IsNonZero(extent)
    ensures forall j :: 0 <= j < polls ==> !IsNonZero(sizes[j])
    ensures extent == Settled(sizes)
  {
    ghost var first := FirstNonZero(sizes);
    polls := 0;
    extent := sizes[0];
    while !IsNonZero(extent)
      invariant polls <= first && extent == sizes[polls]
      invariant forall j :: 0 <= j < polls ==> !IsNonZero(sizes[j])
      decreases first - polls
    {
      polls := polls + 1;
      extent := sizes[polls];
    }
  }

  // ---------------------------------------------------------------------
  // drawFrame.

  /**
   * What a swapchain recreation is told: the successive window sizes the
   * poll reads, and the extent and image count of the rebuilt swapchain.
   */
  datatype SwapchainAnswers = SwapchainAnswers(sizes: seq<Extent>, extent: Extent, imageCount: nat)

  /**
   * Everything outside the model that one drawFrame call consults:
   * vkAcquireNextImageKHR's result and image, the command buffer's
   * begin/end results, vkQueueSubmit, vkQueuePresentKHR, the window
   * during either recreation, and the SyncObjects rebuilt after present.
   */
  datatype FrameAnswers = FrameAnswers(
    acquire: VkResult, imageIndex: nat, acquireSwapchain: SwapchainAnswers,
    began: bool, ended: bool, submitted: bool,
    present: VkResult, presentSwapchain: SwapchainAnswers, sync: SyncState)

  predicate Acquired(r: VkResult) {
    r == Success || r == Suboptimal
  }

  /** The condition after present that sends drawFrame into recreation. */
  predicate PresentRecreates(r: VkResult, resized: bool) {
    r == ErrorOutOfDate || r == Suboptimal || resized
  }

  /**
   * What the environment guarantees: vkAcquireNextImageKHR hands back an
   * image of the current swapchain, the window settles whenever a
   * recreation polls it, and SyncObjects keeps one fence per frame in
   * flight.  The acquired index is also taken to lie inside SyncObjects'
   * per-image fence table, which an acquire-triggered recreation does not
   * resize (see AcquireOutOfDate).
   */
  predicate Answerable(s: FrameState, a: FrameAnswers) {
    && (a.acquire == ErrorOutOfDate ==> Settles(a.acquireSwapchain.sizes))
    && (Acquired(a.acquire) ==> a.imageIndex < s.imageCount && a.imageIndex < |s.sync.imagesInFlight|)
    && (Acquired(a.acquire) && PresentRecreates(a.present, s.resized) ==> Settles(a.presentSwapchain.sizes))
    && |a.sync.inFlightFences| == MAX_FRAMES_IN_FLIGHT
  }

  datatype Outcome = Outcome(state: FrameState, actions: seq<Action>, result: Result<()>)

  /**
   * One drawFrame call from state s: the new state, the calls it makes
   * and whether it returns or throws.  `recording` is what
   * recordCommands reported.
   */
  function Frame(s: FrameState, a: FrameAnswers, recording: Result<()>): (o: Outcome)
    requires FrameValid(s) && Answerable(s, a)
    ensures FrameValid(o.state)
    ensures |o.actions| >= 2
    ensures o.actions[..2] == [WaitFrameFence(s.sync.inFlightFences[s.currentFrame]), Acquire(s.currentFrame)]
  {
    var head := [WaitFrameFence(s.sync.inFlightFences[s.currentFrame]), Acquire(s.currentFrame)];
    if a.acquire == ErrorOutOfDate then
      Outcome(s.(resized := true, imageCount := a.acquireSwapchain.imageCount),
              head + Recreation(Settled(a.acquireSwapchain.sizes)), Ok(()))
    else if !Acquired(a.acquire) then
      Outcome(s, head, Err(AcquireFailed))
    else
      var o := AfterAcquire(s, a, recording);
      Outcome(o.state, head + o.actions, o.result)
  }

  /** The rest of a frame once an image was acquired. */
  function AfterAcquire(s: FrameState, a: FrameAnswers, recording: Result<()>): Outcome
    requires FrameValid(s) && Answerable(s, a) && Acquired(a.acquire)
  {
    var handed := Handed(s, a);
    var recorded := RecordCalls(s, a);
    if recording.Err? then Outcome(handed, recorded, recording)
    else
      var o := SubmitAndPresent(handed, a);
      Outcome(o.state, recorded + o.actions, o.result)
  }

  /** The frame state once the acquired image holds the current frame's fence. */
  function Handed(s: FrameState, a: FrameAnswers): FrameState
    requires FrameValid(s) && Answerable(s, a) && Acquired(a.acquire)
  {
    var fence := s.sync.inFlightFences[s.currentFrame];
    s.(sync := s.sync.(imagesInFlight := s.sync.imagesInFlight[a.imageIndex := fence]))
  }

  /** The calls from the uniform update up to recording the scene. */
  function RecordCalls(s: FrameState, a: FrameAnswers): seq<Action>
    requires FrameValid(s) && Answerable(s, a) && Acquired(a.acquire)
  {
    var previous := s.sync.imagesInFlight[a.imageIndex];
    [UpdateUniforms(s.currentFrame)]
    + (if previous != NULL_HANDLE then [WaitImageFence(previous)] else [])
    + [RecordScene(a.imageIndex)]
  }

  /** The rest of a recorded frame, from state h in which the image already holds the frame's fence. */
  function SubmitAndPresent(h: FrameState, a: FrameAnswers): Outcome
    requires FrameValid(h) && Answerable(h, a) && Acquired(a.acquire)
  {
    var fence := h.sync.inFlightFences[h.currentFrame];
    var image := a.imageIndex;
    var submitted := [RecordInterface(image), ResetFence(fence), Submit(image, fence)];
    if !a.submitted then Outcome(h, submitted, Err(SubmitFailed))
    else
      var presented := submitted + [Present(image)];
      var next := NextFrame(h.currentFrame);
      if PresentRecreates(a.present, h.resized) then
        Outcome(FrameState(next, false, a.presentSwapchain.imageCount, a.sync),
                presented + Recreation(Settled(a.presentSwapchain.sizes)) + [RecreateSync(a.presentSwapchain.imageCount)],
                Ok(()))
      else if a.present != Success then Outcome(h, presented, Err(PresentFailed))
      else Outcome(h.(currentFrame := next), presented, Ok(()))
  }

  /**
   * The pipeline and layout handles a GraphicsPipeline holds by name, the
   * extent it was built for, and the handles live on its device.
   */
  datatype Resources = Resources(pipelines: map<string, Handle>, layouts: map<string, Handle>, extent: Extent, live: set<Handle>)

  /** Whether the frame got as far as vkQueuePresentKHR. */
  predicate ReachesPresent(a: FrameAnswers, recording: Result<()>) {
    Acquired(a.acquire) && recording.Ok? && a.submitted
  }

  /**
   * The command buffers after recording into `image`: as many as before,
   * every other buffer untouched and, when recording succeeded, the
   * image's buffer holding the command list `expected` gives.
   */
  predicate RecordedInto(before: seq<seq<Recording.Command>>, after: seq<seq<Recording.Command>>, image: nat,
                         recording: Result<()>, expected: Result<seq<Recording.Command>>)
  {
    && |after| == |before|
    && (forall k :: 0 <= k < |after| && k != image ==> after[k] == before[k])
    && (recording.Ok? ==> image < |after| && expected == Ok(after[image]))
  }

  // ---------------------------------------------------------------------
  // Properties of one frame.

  /**
   * currentFrame stays below MAX_FRAMES_IN_FLIGHT, and it moves on
   * (to the next frame mod 2) exactly when the frame reached present and
   * did not throw.
   */
  lemma FrameCounter(s: FrameState, a: FrameAnswers, recording: Result<()>)
    requires FrameValid(s) && Answerable(s, a)
    ensures var o := Frame(s, a, recording);
      o.state.currentFrame != s.currentFrame <==> ReachesPresent(a, recording) && o.result.Ok?
    ensures var o := Frame(s, a, recording);
      ReachesPresent(a, recording) && o.result.Ok? ==> o.state.currentFrame == NextFrame(s.currentFrame)
  {
  }

  /**
   * An out-of-date acquire recreates the swapchain and returns: no
   * uniform update, no recording, no submit, no present, currentFrame and
   * the fence table unchanged, and the resize flag left set.  The
   * swapchain now has the new image count, while the per-image fence table
   * keeps its old length: syncObjects.recreate is not called on this path.
   */
  lemma AcquireOutOfDate(s: FrameState, a: FrameAnswers, recording: Result<()>)
    requires FrameValid(s) && Answerable(s, a)
    requires a.acquire == ErrorOutOfDate
    ensures var o := Frame(s, a, recording);
      && o.result == Ok(())
      && o.state == s.(resized := true, imageCount := a.acquireSwapchain.imageCount)
      && o.actions[2..] == Recreation(Settled(a.acquireSwapchain.sizes))
      && forall k :: 0 <= k < |o.actions| ==>
           !o.actions[k].UpdateUniforms? && !o.actions[k].RecordScene? && !o.actions[k].Submit? && !o.actions[k].Present?
  {
  }

  /** Any other acquire result but success and suboptimal throws, and nothing changes. */
  lemma AcquireFails(s: FrameState, a: FrameAnswers, recording: Result<()>)
    requires FrameValid(s) && Answerable(s, a)
    requires a.acquire != ErrorOutOfDate && !Acquired(a.acquire)
    ensures Frame(s, a, recording).result == Err(AcquireFailed)
    ensures Frame(s, a, recording).state == s
  {
  }

  /**
   * After an acquire the image's old fence is waited on exactly when it is
   * non-null, and the image is then handed the current frame's fence;
   * unless a present-triggered recreation replaces the sync objects, the
   * table keeps that entry and every other one.
   */
  lemma FenceHandoff(s: FrameState, a: FrameAnswers, recording: Result<()>)
    requires FrameValid(s) && Answerable(s, a)
    requires Acquired(a.acquire)
    ensures var o := Frame(s, a, recording);
      var previous := s.sync.imagesInFlight[a.imageIndex];
      WaitImageFence(previous) in o.actions <==> previous != NULL_HANDLE
    ensures var o := Frame(s, a, recording);
      !(ReachesPresent(a, recording) && PresentRecreates(a.present, s.resized)) ==>
        o.state.sync.imagesInFlight == s.sync.imagesInFlight[a.imageIndex := s.sync.inFlightFences[s.currentFrame]]
        && o.state.sync.inFlightFences == s.sync.inFlightFences
  {
    var o := Frame(s, a, recording);
    var previous := s.sync.imagesInFlight[a.imageIndex];
    if previous != NULL_HANDLE {
      assert o.actions[3] == WaitImageFence(previous);
    } else {
      assert forall k :: 0 <= k < |o.actions| ==> !o.actions[k].WaitImageFence?;
    }
  }

  /**
   * The frame's fence is reset immediately before the submit that signals
   * it: every submit uses the current frame's fence and directly follows
   * that fence's reset, whether the queue accepts it or not.
   */
  lemma ResetBeforeSubmit(s: FrameState, a: FrameAnswers, recording: Result<()>)
    requires FrameValid(s) && Answerable(s, a)
    ensures var o := Frame(s, a, recording);
      forall k :: 0 <= k < |o.actions| && o.actions[k].Submit? ==>
        && 0 < k
        && o.actions[k].fence == s.sync.inFlightFences[s.currentFrame]
        && o.actions[k - 1] == ResetFence(o.actions[k].fence)
  {
    var o := Frame(s, a, recording);
    if Acquired(a.acquire) && recording.Ok? {
      var fence := s.sync.inFlightFences[s.currentFrame];
      var reset, tail := SubmittedActions(s, a, recording);
      forall k | 0 <= k < |o.actions|
        ensures o.actions[k].Submit? ==> k == |reset|
      {
        SubmitOnlyAt(reset, tail, a.imageIndex, fence, k);
      }
      assert o.actions[|reset|] == Submit(a.imageIndex, fence);
      assert o.actions[|reset| - 1] == reset[|reset| - 1];
    } else {
      assert forall k :: 0 <= k < |o.actions| ==> !o.actions[k].Submit?;
    }
  }

  /** In reset + [submit] + tail with no submit in reset or tail, the one submit sits at |reset|. */
  lemma SubmitOnlyAt(reset: seq<Action>, tail: seq<Action>, image: nat, fence: Handle, k: int)
    requires forall j :: 0 <= j < |reset| ==> !reset[j].Submit?
    requires forall j :: 0 <= j < |tail| ==> !tail[j].Submit?
    requires 0 <= k < |reset| + 1 + |tail|
    ensures (reset + [Submit(image, fence)] + tail)[k].Submit? ==> k == |reset|
  {
    var acts := reset + [Submit(image, fence)] + tail;
    if k < |reset| {
      assert acts[k] == reset[k];
    } else if k > |reset| {
      assert acts[k] == tail[k - |reset| - 1];
    }
  }

  /**
   * vkQueueSubmit is called exactly when an image was acquired and both
   * command buffers were recorded, and vkQueuePresentKHR exactly when that
   * submit was also accepted.
   */
  lemma SubmitIffRecorded(s: FrameState, a: FrameAnswers, recording: Result<()>)
    requires FrameValid(s) && Answerable(s, a)
    ensures (exists k :: 0 <= k < |Frame(s, a, recording).actions| && Frame(s, a, recording).actions[k].Submit?)
      <==> Acquired(a.acquire) && recording.Ok?
    ensures (exists k :: 0 <= k < |Frame(s, a, recording).actions| && Frame(s, a, recording).actions[k].Present?)
      <==> ReachesPresent(a, recording)
  {
    var o := Frame(s, a, recording);
    if Acquired(a.acquire) && recording.Ok? {
      var reset, tail := SubmittedActions(s, a, recording);
      assert o.actions[|reset|].Submit?;
      if a.submitted {
        assert o.actions[|reset| + 1].Present?;
      } else {
        assert o.actions == reset + [Submit(a.imageIndex, s.sync.inFlightFences[s.currentFrame])];
        assert forall k :: 0 <= k < |o.actions| ==> !o.actions[k].Present?;
      }
    } else {
      assert forall k :: 0 <= k < |o.actions| ==> !o.actions[k].Submit? && !o.actions[k].Present?;
    }
  }

  /**
   * The calls of a frame that was acquired and recorded: one submit, right
   * after the reset, with no submit and no present before it; after it
   * comes the present only when the queue accepted the submit, followed by
   * the recreation a present may trigger.
   */
  lemma SubmittedActions(s: FrameState, a: FrameAnswers, recording: Result<()>) returns (reset: seq<Action>, tail: seq<Action>)
    requires FrameValid(s) && Answerable(s, a)
    requires Acquired(a.acquire) && recording.Ok?
    ensures var fence := s.sync.inFlightFences[s.currentFrame];
      && Frame(s, a, recording).actions == reset + [Submit(a.imageIndex, fence)] + tail
      && |reset| > 0 && reset[|reset| - 1] == ResetFence(fence)
      && (forall k :: 0 <= k < |reset| ==> !reset[k].Submit? && !reset[k].Present?)
      && (forall k :: 0 <= k < |tail| ==> !tail[k].Submit?)
      && (!a.submitted ==> tail == [])
      && (a.submitted ==> |tail| > 0 && tail[0] == Present(a.imageIndex)
                          && forall k :: 0 < k < |tail| ==> !tail[k].Present?)
  {
    var fence := s.sync.inFlightFences[s.currentFrame];
    var image := a.imageIndex;
    var head := [WaitFrameFence(fence), Acquire(s.currentFrame)];
    var recorded := RecordCalls(s, a);
    var interface := [RecordInterface(image), ResetFence(fence)];
    var submit := [Submit(image, fence)];
    reset := CallsBeforeSubmit(s, a);
    var handed := Handed(s, a);
    var sp := SubmitAndPresent(handed, a);
    tail := SubmitCalls(handed, a);
    assert AfterAcquire(s, a, recording).actions == recorded + sp.actions;
    assert Frame(s, a, recording).actions == head + (recorded + sp.actions);
    assert head + (recorded + (interface + submit + tail)) == reset + submit + tail by {
      Associative(head, recorded, interface + submit + tail);
      Associative(head + recorded, interface + submit, tail);
      Associative(head + recorded, interface, submit);
    }
  }

  /** The calls of an acquired frame up to the reset of its fence: no submit and no present among them. */
  lemma CallsBeforeSubmit(s: FrameState, a: FrameAnswers) returns (reset: seq<Action>)
    requires FrameValid(s) && Answerable(s, a) && Acquired(a.acquire)
    ensures var fence := s.sync.inFlightFences[s.currentFrame];
      && reset == [WaitFrameFence(fence), Acquire(s.currentFrame)] + RecordCalls(s, a) + [RecordInterface(a.imageIndex), ResetFence(fence)]
      && |reset| > 0 && reset[|reset| - 1] == ResetFence(fence)
      && (forall k :: 0 <= k < |reset| ==> !reset[k].Submit? && !reset[k].Present?)
  {
    var fence := s.sync.inFlightFences[s.currentFrame];
    var recorded := RecordCalls(s, a);
    reset := [WaitFrameFence(fence), Acquire(s.currentFrame)] + recorded + [RecordInterface(a.imageIndex), ResetFence(fence)];
    assert forall k :: 0 <= k < |recorded| ==> !recorded[k].Submit? && !recorded[k].Present?;
  }

  /**
   * The calls from recording the interface on: the reset, the submit, and
   * after it the present (only when the queue accepted the submit) and the
   * recreation a present may trigger.
   */
  lemma SubmitCalls(h: FrameState, a: FrameAnswers) returns (tail: seq<Action>)
    requires FrameValid(h) && Answerable(h, a) && Acquired(a.acquire)
    ensures var fence := h.sync.inFlightFences[h.currentFrame];
      SubmitAndPresent(h, a).actions == [RecordInterface(a.imageIndex), ResetFence(fence)] + [Submit(a.imageIndex, fence)] + tail
    ensures tail == if !a.submitted then []
                    else [Present(a.imageIndex)]
                         + if PresentRecreates(a.present, h.resized)
                           then Recreation(Settled(a.presentSwapchain.sizes)) + [RecreateSync(a.presentSwapchain.imageCount)]
                           else []
  {
    var after := if PresentRecreates(a.present, h.resized)
                 then Recreation(Settled(a.presentSwapchain.sizes)) + [RecreateSync(a.presentSwapchain.imageCount)]
                 else [];
    tail := if a.submitted then [Present(a.imageIndex)] + after else [];
    var fence := h.sync.inFlightFences[h.currentFrame];
    var submitted := [RecordInterface(a.imageIndex), ResetFence(fence)] + [Submit(a.imageIndex, fence)];
    if a.submitted {
      Associative(submitted, [Present(a.imageIndex)], after);
    }
  }

  /** A submit the queue rejects is still a call made, and it is the frame's last: drawFrame throws. */
  lemma SubmitFails(s: FrameState, a: FrameAnswers, recording: Result<()>)
    requires FrameValid(s) && Answerable(s, a)
    requires Acquired(a.acquire) && recording.Ok? && !a.submitted
    ensures Frame(s, a, recording).result == Err(SubmitFailed)
    ensures Frame(s, a, recording).state.currentFrame == s.currentFrame
    ensures var acts := Frame(s, a, recording).actions;
      acts[|acts| - 1] == Submit(a.imageIndex, s.sync.inFlightFences[s.currentFrame])
  {
  }

  /**
   * A present that reports out-of-date or suboptimal, or a set resize
   * flag, recreates the swapchain and then the sync objects, and clears
   * the flag; any other failing present throws without moving the frame.
   */
  lemma PresentOutcome(s: FrameState, a: FrameAnswers, recording: Result<()>)
    requires FrameValid(s) && Answerable(s, a)
    requires ReachesPresent(a, recording)
    ensures var o := Frame(s, a, recording);
      PresentRecreates(a.present, s.resized) ==>
        && o.result == Ok(())
        && !o.state.resized && o.state.sync == a.sync
        && o.actions[|o.actions| - 9..] == Recreation(Settled(a.presentSwapchain.sizes)) + [RecreateSync(a.presentSwapchain.imageCount)]
    ensures var o := Frame(s, a, recording);
      !PresentRecreates(a.present, s.resized) && a.present != Success ==>
        o.result == Err(PresentFailed) && o.state.currentFrame == s.currentFrame
  {
  }

  /**
   * An acquire-triggered recreation leaves the resize flag set, so the
   * next frame that reaches present recreates again, even when present
   * itself succeeds.
   */
  lemma ResizeOutlivesAcquire(s: FrameState, a1: FrameAnswers, a2: FrameAnswers, r2: Result<()>)
    requires FrameValid(s) && Answerable(s, a1)
    requires a1.acquire == ErrorOutOfDate
    requires Answerable(Frame(s, a1, Ok(())).state, a2)
    requires ReachesPresent(a2, r2)
    ensures var o := Frame(Frame(s, a1, Ok(())).state, a2, r2);
      && RecreateSync(a2.presentSwapchain.imageCount) in o.actions
      && !o.state.resized
  {
    AcquireOutOfDate(s, a1, Ok(()));
    var o := Frame(Frame(s, a1, Ok(())).state, a2, r2);
    assert o.actions[|o.actions| - 1] == RecreateSync(a2.presentSwapchain.imageCount);
  }

  // ---------------------------------------------------------------------
  // buildScene.

  datatype SceneBuild = SceneBuild(appended: seq<RenderObject>, result: Result<()>)

  /**
   * buildScene against the model and material registries: the red sphere
   * at the origin, then the blue sphere at (2, 0, 0), both on the
   * "sphere" model; each std::map::at throws on a missing name, after
   * whatever was already appended.
   */
  function SceneObjects(models: map<string, MeshView>, materials: map<string, MaterialView>): (b: SceneBuild)
    ensures b.result.Ok? <==> |b.appended| == 2
    ensures forall k :: 0 <= k < |b.appended| ==> "sphere" in models && b.appended[k].mesh == Some(models["sphere"])
  {
    if "sphere" !in models then SceneBuild([], Err(NotFound(Models, "sphere")))
    else if "red_sphere" !in materials then SceneBuild([], Err(NotFound(Materials, "red_sphere")))
    else
      var red := RenderObject(Some(models["sphere"]), materials["red_sphere"], Translation(0.0, 0.0, 0.0));
      if "blue_sphere" !in materials then SceneBuild([red], Err(NotFound(Materials, "blue_sphere")))
      else SceneBuild([red, RenderObject(Some(models["sphere"]), materials["blue_sphere"], Translation(2.0, 0.0, 0.0))], Ok(()))
  }

  /**
   * buildScene succeeds exactly when the three names are registered; it
   * then appends two meshed objects on the "sphere" model, red first, at
   * x = 0 and x = 2.  A failure names a missing key and leaves at most the
   * red sphere appended.
   */
  lemma SceneObjectsFacts(models: map<string, MeshView>, materials: map<string, MaterialView>)
    ensures var b := SceneObjects(models, materials);
      b.result.Ok? <==> "sphere" in models && "red_sphere" in materials && "blue_sphere" in materials
    ensures var b := SceneObjects(models, materials);
      b.result.Ok? ==>
        && |b.appended| == 2
        && b.appended[0].mesh == Some(models["sphere"]) && b.appended[1].mesh == Some(models["sphere"])
        && b.appended[0].material == materials["red_sphere"] && b.appended[1].material == materials["blue_sphere"]
        && b.appended[0].transform.entries[12..15] == [0.0, 0.0, 0.0]
        && b.appended[1].transform.entries[12..15] == [2.0, 0.0, 0.0]
    ensures var b := SceneObjects(models, materials);
      b.result.Err? ==>
        && |b.appended| <= 1
        && b.result.error.NotFound?
        && ((b.result.error.registry == Models && b.result.error.name !in models)
            || (b.result.error.registry == Materials && b.result.error.name !in materials))
  {
  }

  lemma Associative(x: seq<Action>, y: seq<Action>, z: seq<Action>)
    ensures (x + y) + z == x + (y + z)
  {
  }

  class Application {
    const registry: Pipelines.GraphicsPipeline
    const commandBuffers: Recording.CommandBuffers
    var currentFrame: nat
    /** The window's framebufferResized flag, which drawFrame receives by reference. */
    var framebufferResized: bool
    /** swapChain.numImages(): one command buffer is kept per image. */
    var imageCount: nat
    var sync: SyncState
    var renderObjects: seq<RenderObject>
    var cameraSet: Handle
    /** The foreign calls made so far. */
    var log: seq<Action>

    ghost predicate Valid()
      reads this, registry, registry.device, commandBuffers
    {
      && registry.Valid() && registry.device.Valid()
      && currentFrame < MAX_FRAMES_IN_FLIGHT
      && |sync.inFlightFences| == MAX_FRAMES_IN_FLIGHT
      && |commandBuffers.buffers| == imageCount
    }

    function State(): (s: FrameState)
      reads this
      ensures s.currentFrame == currentFrame && s.resized == framebufferResized
      ensures s.imageCount == imageCount && s.sync == sync
    {
      FrameState(currentFrame, framebufferResized, imageCount, sync)
    }

    /**
     * What a swapchain recreation leaves behind: pipelines built for the new
     * swapchain's extent in place of the `owned` handles, which leave the
     * device's `live` set while every other live handle stays, and one
     * empty command buffer per new image.
     */
    ghost predicate Rebuilt(sw: SwapchainAnswers, live: set<Handle>, owned: set<Handle>)
      reads this, registry, registry.device, commandBuffers
    {
      && registry.extent == sw.extent
      && registry.Owned() !! (live - owned)
      && registry.device.live == live - owned + registry.Owned()
      && commandBuffers.buffers == seq(sw.imageCount, _ => [])
    }

    /**
     * The pipeline registry's maps and extent, and the device's live
     * handles: two equal values mean nothing was created or released.
     */
    ghost function Held(): Resources
      reads this, registry, registry.device
    {
      Resources(registry.pipelines, registry.layouts, registry.extent, registry.device.live)
    }

    /** The member initialisers: frame 0, no scene, a null camera set. */
    constructor (registry: Pipelines.GraphicsPipeline, commandBuffers: Recording.CommandBuffers, sync: SyncState)
      requires registry.Valid() && registry.device.Valid()
      requires |sync.inFlightFences| == MAX_FRAMES_IN_FLIGHT
      ensures Valid()
      ensures this.registry == registry && this.commandBuffers == commandBuffers && this.sync == sync
      ensures imageCount == |commandBuffers.buffers|
      ensures currentFrame == 0 && !framebufferResized
      ensures renderObjects == [] && cameraSet == NULL_HANDLE && log == []
    {
      this.registry := registry;
      this.commandBuffers := commandBuffers;
      this.sync := sync;
      imageCount := |commandBuffers.buffers|;
      currentFrame := 0;
      framebufferResized := false;
      renderObjects := [];
      cameraSet := NULL_HANDLE;
      log := [];
    }

    /** getRenderObjects. */
    function GetRenderObjects(): (objs: seq<RenderObject>)
      reads this
      ensures objs == renderObjects
    {
      renderObjects
    }

    /** getCameraDescriptorSet. */
    function GetCameraDescriptorSet(): (h: Handle)
      reads this
      ensures h == cameraSet
    {
      cameraSet
    }

    /**
     * loadAssets' camera step: look up the "global" set layout and build
     * the camera descriptor set.  The writer's result is not checked, so a
     * failed build leaves the set null.
     */
    method CreateCameraSet(built: bool)
      requires Valid()
      modifies this`cameraSet, registry.device
      ensures Valid()
      ensures "global" in registry.setLayouts
      ensures built ==> cameraSet != NULL_HANDLE && cameraSet !in old(registry.device.live)
                        && registry.device.live == old(registry.device.live) + {cameraSet}
      ensures !built ==> cameraSet == old(cameraSet) && registry.device.live == old(registry.device.live)
    {
      var layout := registry.GetDescriptorSetLayout("global");
      if built {
        cameraSet := registry.device.Create();
      }
    }

    /** buildScene. */
    method BuildScene(models: map<string, MeshView>, materials: map<string, MaterialView>) returns (r: Result<()>)
      modifies this`renderObjects
      ensures renderObjects == old(renderObjects) + SceneObjects(models, materials).appended
      ensures r == SceneObjects(models, materials).result
    {
      var model := Pipelines.Lookup(models, Models, "sphere");
      if model.Err? {
        return Err(model.error);
      }
      var red := Pipelines.Lookup(materials, Materials, "red_sphere");
      if red.Err? {
        return Err(red.error);
      }
      renderObjects := renderObjects + [RenderObject(Some(model.value), red.value, Translation(0.0, 0.0, 0.0))];
      var blue := Pipelines.Lookup(materials, Materials, "blue_sphere");
      if blue.Err? {
        return Err(blue.error);
      }
      renderObjects := renderObjects + [RenderObject(Some(model.value), blue.value, Translation(2.0, 0.0, 0.0))];
      return Ok(());
    }

    /**
     * recreateSwapChain: raise the resize flag, wait until the window has a
     * non-zero size, then rebuild swapchain, render pass, pipelines (for
     * the new swapchain's extent), command buffers (one per new image) and
     * interface, and clean up the old render pass and swapchain.
     */
    method RecreateSwapChainFor(sw: SwapchainAnswers)
      requires Valid() && Settles(sw.sizes)
      modifies this`framebufferResized, this`imageCount, this`log, registry, registry.device, commandBuffers
      ensures Valid()
      ensures framebufferResized && imageCount == sw.imageCount
      ensures log == old(log) + Recreation(Settled(sw.sizes))
      ensures Rebuilt(sw, old(registry.device.live), old(registry.Owned()))
      ensures registry.pipelines.Keys == old(registry.pipelines.Keys) && registry.layouts.Keys == old(registry.layouts.Keys)
    {
      framebufferResized := true;
      var windowSize, _ := PollFramebufferSize(sw.sizes);
      commandBuffers.Recreate(sw.imageCount);
      imageCount := sw.imageCount;
      registry.Recreate(sw.extent);
      log := log + Recreation(windowSize);
    }

    /**
     * drawFrame: the new frame state, the calls made and the result are
     * those Frame gives, with `recording` what recordCommands reported;
     * recording succeeds exactly when both command-buffer calls do and
     * every object's pipeline name is registered.  The acquired image's
     * command buffer then holds what Record gives for the sorted order
     * walked, unless a present-triggered recreation replaced every buffer;
     * either recreation leaves the pipelines and buffers Rebuilt.
     */
    method DrawFrame(a: FrameAnswers) returns (r: Result<()>, ghost recording: Result<()>, ghost order: seq<RenderObject>)
      requires Valid() && Answerable(State(), a)
      modifies this`currentFrame, this`framebufferResized, this`imageCount, this`sync, this`log,
               registry, registry.device, commandBuffers
      ensures Valid()
      ensures Acquired(a.acquire) ==>
        (recording.Ok? <==> a.began && a.ended && Recording.Resolves(renderObjects, old(registry.pipelines), old(registry.layouts)))
      ensures State() == Frame(old(State()), a, recording).state
      ensures log == old(log) + Frame(old(State()), a, recording).actions && r == Frame(old(State()), a, recording).result
      ensures a.acquire == ErrorOutOfDate ==> Rebuilt(a.acquireSwapchain, old(registry.device.live), old(registry.Owned()))
      ensures a.acquire != ErrorOutOfDate && !Acquired(a.acquire) ==>
        && commandBuffers.buffers == old(commandBuffers.buffers)
        && Held() == old(Held())
      ensures Acquired(a.acquire) ==>
        Recording.SortedBy(order, Recording.KeyOf) && multiset(order) == multiset(renderObjects)
      ensures Acquired(a.acquire) && ReachesPresent(a, recording) && PresentRecreates(a.present, old(framebufferResized)) ==>
        Rebuilt(a.presentSwapchain, old(registry.device.live), old(registry.Owned()))
      ensures Acquired(a.acquire) && !(ReachesPresent(a, recording) && PresentRecreates(a.present, old(framebufferResized))) ==>
        && RecordedInto(old(commandBuffers.buffers), commandBuffers.buffers, a.imageIndex, recording,
                        Recording.Record(order, old(registry.pipelines), old(registry.layouts), cameraSet, a.imageIndex, a.began, a.ended))
        && Held() == old(Held())
    {
      recording := Ok(());
      order := [];
      var fence := sync.inFlightFences[currentFrame];
      var head := [WaitFrameFence(fence), Acquire(currentFrame)];
      log := log + head;
      if a.acquire == ErrorOutOfDate {
        RecreateSwapChainFor(a.acquireSwapchain);
        Associative(old(log), head, Recreation(Settled(a.acquireSwapchain.sizes)));
        return Ok(()), recording, order;
      } else if !Acquired(a.acquire) {
        return Err(AcquireFailed), recording, order;
      }
      r, recording, order := DrawAcquired(a);
      Associative(old(log), head, AfterAcquire(old(State()), a, recording).actions);
    }

    /**
     * commandBuffers.recordCommands(imageIndex) on the scene list and the
     * camera set; it succeeds exactly when both command-buffer calls do and
     * every object's pipeline name is registered, and the image's buffer
     * then holds what Record gives for the sorted order walked.  No other
     * buffer changes.
     */
    method RecordObjects(image: nat, began: bool, ended: bool) returns (recorded: Result<()>, ghost order: seq<RenderObject>)
      requires image < |commandBuffers.buffers|
      modifies commandBuffers
      ensures recorded.Ok? <==> began && ended && Recording.Resolves(renderObjects, registry.pipelines, registry.layouts)
      ensures Recording.SortedBy(order, Recording.KeyOf) && multiset(order) == multiset(renderObjects)
      ensures RecordedInto(old(commandBuffers.buffers), commandBuffers.buffers, image, recorded,
                           Recording.Record(order, registry.pipelines, registry.layouts, cameraSet, image, began, ended))
    {
      recorded, order := commandBuffers.RecordCommands(image, renderObjects, cameraSet, registry, began, ended);
    }

    /**
     * Wait on the fence of the frame that last used the image, if any, and
     * hand the image the current frame's fence.
     */
    method HandOver(image: nat, fence: Handle) returns (wait: seq<Action>)
      requires image < |sync.imagesInFlight|
      modifies this`sync
      ensures var previous := old(sync.imagesInFlight[image]);
        wait == if previous != NULL_HANDLE then [WaitImageFence(previous)] else []
      ensures sync == old(sync).(imagesInFlight := old(sync.imagesInFlight)[image := fence])
    {
      wait := [];
      if sync.imagesInFlight[image] != NULL_HANDLE {
        wait := [WaitImageFence(sync.imagesInFlight[image])];
      }
      sync := sync.(imagesInFlight := sync.imagesInFlight[image := fence]);
    }

    /** drawFrame from the uniform update on, once an image was acquired. */
    method DrawAcquired(a: FrameAnswers) returns (r: Result<()>, ghost recording: Result<()>, ghost order: seq<RenderObject>)
      requires Valid() && Answerable(State(), a) && Acquired(a.acquire)
      modifies this`currentFrame, this`framebufferResized, this`imageCount, this`sync, this`log,
               registry, registry.device, commandBuffers
      ensures Valid()
      ensures recording.Ok? <==> a.began && a.ended && Recording.Resolves(renderObjects, old(registry.pipelines), old(registry.layouts))
      ensures State() == AfterAcquire(old(State()), a, recording).state
      ensures log == old(log) + AfterAcquire(old(State()), a, recording).actions && r == AfterAcquire(old(State()), a, recording).result
      ensures Recording.SortedBy(order, Recording.KeyOf) && multiset(order) == multiset(renderObjects)
      ensures ReachesPresent(a, recording) && PresentRecreates(a.present, old(framebufferResized)) ==>
        Rebuilt(a.presentSwapchain, old(registry.device.live), old(registry.Owned()))
      ensures !(ReachesPresent(a, recording) && PresentRecreates(a.present, old(framebufferResized))) ==>
        && RecordedInto(old(commandBuffers.buffers), commandBuffers.buffers, a.imageIndex, recording,
                        Recording.Record(order, old(registry.pipelines), old(registry.layouts), cameraSet, a.imageIndex, a.began, a.ended))
        && Held() == old(Held())
    {
      var recorded;
      recorded, order := RecordAcquired(a);
      recording := recorded;
      if recorded.Err? {
        return recorded, recording, order;
      }
      ghost var handed := State();
      r := SubmitAndPresentFrame(a);
      Associative(old(log), RecordCalls(old(State()), a), SubmitAndPresent(handed, a).actions);
    }

    /**
     * drawFrame from the uniform update to recordCommands: hand the image
     * the frame's fence (waiting on the one it held), then record the scene
     * into the image's command buffer.
     */
    method RecordAcquired(a: FrameAnswers) returns (recorded: Result<()>, ghost order: seq<RenderObject>)
      requires Valid() && Answerable(State(), a) && Acquired(a.acquire)
      modifies this`sync, this`log, commandBuffers
      ensures Valid() && Answerable(State(), a)
      ensures State() == Handed(old(State()), a) && log == old(log) + RecordCalls(old(State()), a)
      ensures Held() == old(Held()) && registry.Owned() == old(registry.Owned())
      ensures recorded.Ok? <==> a.began && a.ended && Recording.Resolves(renderObjects, registry.pipelines, registry.layouts)
      ensures Recording.SortedBy(order, Recording.KeyOf) && multiset(order) == multiset(renderObjects)
      ensures RecordedInto(old(commandBuffers.buffers), commandBuffers.buffers, a.imageIndex, recorded,
                           Recording.Record(order, registry.pipelines, registry.layouts, cameraSet, a.imageIndex, a.began, a.ended))
    {
      var fence := sync.inFlightFences[currentFrame];
      var image := a.imageIndex;
      var wait := HandOver(image, fence);
      log := log + ([UpdateUniforms(currentFrame)] + wait + [RecordScene(image)]);
      recorded, order := RecordObjects(image, a.began, a.ended);
    }

    /** drawFrame from recording the interface on: submit, present and the frame switch. */
    method SubmitAndPresentFrame(a: FrameAnswers) returns (r: Result<()>)
      requires Valid() && Answerable(State(), a) && Acquired(a.acquire)
      modifies this`currentFrame, this`framebufferResized, this`imageCount, this`sync, this`log,
               registry, registry.device, commandBuffers
      ensures Valid()
      ensures State() == SubmitAndPresent(old(State()), a).state
      ensures log == old(log) + SubmitAndPresent(old(State()), a).actions && r == SubmitAndPresent(old(State()), a).result
      ensures a.submitted && PresentRecreates(a.present, old(framebufferResized)) ==>
        Rebuilt(a.presentSwapchain, old(registry.device.live), old(registry.Owned()))
      ensures !(a.submitted && PresentRecreates(a.present, old(framebufferResized))) ==>
        && commandBuffers.buffers == old(commandBuffers.buffers)
        && Held() == old(Held())
    {
      var fence := sync.inFlightFences[currentFrame];
      var image := a.imageIndex;
      var calls := [RecordInterface(image), ResetFence(fence), Submit(image, fence)];
      if !a.submitted {
        log := log + calls;
        return Err(SubmitFailed);
      }
      calls := calls + [Present(image)];
      log := log + calls;
      if PresentRecreates(a.present, framebufferResized) {
        RecreateAfterPresent(a.presentSwapchain, a.sync);
        Associative(old(log), calls, Recreation(Settled(a.presentSwapchain.sizes)) + [RecreateSync(a.presentSwapchain.imageCount)]);
      } else if a.present != Success {
        return Err(PresentFailed);
      }
      currentFrame := NextFrame(currentFrame);
      return Ok(());
    }

    /**
     * The recreation a present triggers: recreateSwapChain, then
     * syncObjects.recreate for the new image count, then the resize flag
     * is cleared.
     */
    method RecreateAfterPresent(sw: SwapchainAnswers, newSync: SyncState)
      requires Valid() && Settles(sw.sizes) && |newSync.inFlightFences| == MAX_FRAMES_IN_FLIGHT
      modifies this`framebufferResized, this`imageCount, this`sync, this`log, registry, registry.device, commandBuffers
      ensures Valid()
      ensures !framebufferResized && imageCount == sw.imageCount && sync == newSync
      ensures Rebuilt(sw, old(registry.device.live), old(registry.Owned()))
      ensures log == old(log) + (Recreation(Settled(sw.sizes)) + [RecreateSync(sw.imageCount)])
    {
      RecreateSwapChainFor(sw);
      sync := newSync;
      log := log + [RecreateSync(sw.imageCount)];
      framebufferResized := false;
      Associative(old(log), Recreation(Settled(sw.sizes)), [RecreateSync(sw.imageCount)]);
    }
  }
}

=== FILE: buffer.dfy ===
/**
 * vks::Buffer: a VkBuffer together with the VkDeviceMemory bound to it,
 * created in one go, mapped and written from the host, and released by
 * its destructor.  The bytes of the bound memory are an array, so that a
 * write through the mapping changes them in place.
 */
module Buffers {
  import opened Vulkan

  /**
   * Memory type i is acceptable to findMemoryType: bit i of the buffer's
   * memoryTypeBits is set and the type has every requested property.
   */
  predicate MemoryTypeMatches(types: seq<bv32>, typeFilter: bv32, properties: bv32, i: nat)
    requires i < |types| <= MAX_MEMORY_TYPES
  {
    && typeFilter & ((1 as bv32) << i) != 0
    && types[i] & properties == properties
  }

  /** No memory type below n is acceptable. */
  predicate NoMatchBelow(types: seq<bv32>, typeFilter: bv32, properties: bv32, n: nat)
    requires n <= |types| <= MAX_MEMORY_TYPES
  {
    forall i :: 0 <= i < n ==> !MemoryTypeMatches(types, typeFilter, properties, i)
  }

  /**
   * Buffer::findMemoryType: the first acceptable memory type, or an error
   * when there is none.
   */
  method FindMemoryType(types: seq<bv32>, typeFilter: bv32, properties: bv32) returns (r: Result<nat>)
    requires |types| <= MAX_MEMORY_TYPES
    ensures r.Ok? ==> r.value < |types| && MemoryTypeMatches(types, typeFilter, properties, r.value)
    ensures r.Ok? ==> NoMatchBelow(types, typeFilter, properties, r.value)
    ensures r.Err? <==> NoMatchBelow(types, typeFilter, properties, |types|)
    ensures r.Err? ==> r.error == NoSuitableMemoryType
  {
    var i := 0;
    while i < |types|
      invariant 0 <= i <= |types|
      invariant NoMatchBelow(types, typeFilter, properties, i)
    {
      if typeFilter & ((1 as bv32) << i) != 0 && types[i] & properties == properties {
        assert MemoryTypeMatches(types, typeFilter, properties, i);
        return Ok(i);
      }
      i := i + 1;
    }
    return Err(NoSuitableMemoryType);
  }

  /**
   * The driver's side of buffer creation: whether vkCreateBuffer,
   * vkAllocateMemory and vkBindBufferMemory succeed, and the memoryTypeBits
   * that vkGetBufferMemoryRequirements reports.
   */
  datatype DriverAnswers = DriverAnswers(
    bufferCreated: bool,
    memoryTypeBits: bv32,
    memoryAllocated: bool,
    memoryBound: bool)

  /** The exception the constructor throws, checked in the constructor's order. */
  function CreationFailure(types: seq<bv32>, properties: bv32, answers: DriverAnswers): (e: Option<Error>)
    requires |types| <= MAX_MEMORY_TYPES
  {
    if !answers.bufferCreated then Some(BufferCreationFailed)
    else MemoryFailure(types, properties, answers)
  }

  /** The exception the memory half of the constructor throws, once the VkBuffer exists. */
  function MemoryFailure(types: seq<bv32>, properties: bv32, answers: DriverAnswers): (e: Option<Error>)
    requires |types| <= MAX_MEMORY_TYPES
  {
    if NoMatchBelow(types, answers.memoryTypeBits, properties, |types|) then Some(NoSuitableMemoryType)
    else if !answers.memoryAllocated then Some(MemoryAllocationFailed)
    else if !answers.memoryBound then Some(MemoryBindFailed)
    else None
  }

  /**
   * How many handles a failed constructor leaves alive: the C++ destructor
   * does not run for an object whose constructor threw, so a VkBuffer (and,
   * once allocated, the VkDeviceMemory) created before the failing call is
   * never released.
   */
  function LeakedHandles(e: Error): (n: nat)
  {
    match e
    case BufferCreationFailed => 0
    case MemoryBindFailed => 2
    case _ => 1
  }

  /** The number of bytes writeToBuffer copies, as written: VK_WHOLE_SIZE means the buffer's size. */
  function AsWrittenLength(bufferSize: DeviceSize, size: DeviceSize): nat {
    if size == WHOLE_SIZE then bufferSize else size
  }

  /**
   * The number of bytes writeToBuffer evidently means to copy: VK_WHOLE_SIZE
   * means everything from the write position to the end of the buffer.
   */
  function IntendedLength(bufferSize: DeviceSize, start: nat, size: DeviceSize): nat
    requires start <= bufferSize
  {
    if size == WHOLE_SIZE then bufferSize - start else size
  }

  /** As written, a VK_WHOLE_SIZE write at any position but 0 runs past the end of the buffer. */
  lemma WholeSizeWriteOverruns(bufferSize: DeviceSize, start: nat)
    requires 0 < start <= bufferSize
    ensures start + AsWrittenLength(bufferSize, WHOLE_SIZE) > bufferSize
  {
  }

  /** The intended length always fits, and agrees with the written one whenever the write starts at 0. */
  lemma IntendedLengthFits(bufferSize: DeviceSize, start: nat, size: DeviceSize)
    requires start <= bufferSize
    ensures size == WHOLE_SIZE ==> start + IntendedLength(bufferSize, start, size) == bufferSize
    ensures start == 0 ==> IntendedLength(bufferSize, start, size) == AsWrittenLength(bufferSize, size)
  {
  }

  /** s with the bytes from position at onward replaced by d. */
  function Spliced(s: seq<byte>, at: nat, d: seq<byte>): (r: seq<byte>)
    requires at + |d| <= |s|
  {
    s[..at] + d + s[at + |d|..]
  }

  /** Reading back the written range yields the data; every other byte is as before. */
  lemma SplicedReadsBack(s: seq<byte>, at: nat, d: seq<byte>)
    requires at + |d| <= |s|
    ensures |Spliced(s, at, d)| == |s|
    ensures Spliced(s, at, d)[at..at + |d|] == d
    ensures forall k :: 0 <= k < |s| && !(at <= k < at + |d|) ==> Spliced(s, at, d)[k] == s[k]
  {
  }

  /**
   * The live handles a failed constructor leaves behind: none when
   * vkCreateBuffer failed, the buffer and its memory when the bind failed,
   * the buffer alone otherwise.
   */
  lemma LeakCount(before: set<Handle>, after: set<Handle>, buffer: Handle, memory: Handle, e: Error)
    requires e == BufferCreationFailed ==> after == before
    requires e == MemoryBindFailed ==> after == before + {buffer, memory} && buffer != memory
    requires e != BufferCreationFailed && e != MemoryBindFailed ==> after == before + {buffer}
    requires buffer !in before && memory !in before
    ensures |after - before| == LeakedHandles(e)
  {
    if e == BufferCreationFailed {
      assert after - before == {};
    } else if e == MemoryBindFailed {
      assert after - before == {buffer, memory};
    } else {
      assert after - before == {buffer};
    }
  }

  /** VkDescriptorBufferInfo. */
  datatype DescriptorBufferInfo = DescriptorBufferInfo(buffer: Handle, offset: DeviceSize, range: DeviceSize)

  class Buffer {
    const device: Device
    const size: DeviceSize
    ghost const usage: bv32
    ghost const memoryProperties: bv32
    /** The bytes of the bound device memory. */
    const contents: array<byte>
    var handle: Handle
    var memory: Handle
    ghost var memoryType: nat
    /** m_mapped != nullptr, and the offset it was mapped at. */
    var mapped: bool
    var mappedOffset: DeviceSize

    ghost predicate Valid()
      reads this
    {
      && contents.Length == size
      && (mapped ==> mappedOffset <= size)
    }

    /** The member initialisers: null handles, nothing mapped. */
    constructor Init(device: Device, size: DeviceSize, usage: bv32, memoryProperties: bv32)
      ensures Valid() && fresh(contents)
      ensures this.device == device && this.size == size
      ensures this.usage == usage && this.memoryProperties == memoryProperties
      ensures handle == NULL_HANDLE && memory == NULL_HANDLE && !mapped
    {
      this.device := device;
      this.size := size;
      this.usage := usage;
      this.memoryProperties := memoryProperties;
      contents := new byte[size];
      handle := NULL_HANDLE;
      memory := NULL_HANDLE;
      memoryType := 0;
      mapped := false;
      mappedOffset := 0;
    }

    /**
     * The constructor Buffer(device, size, usage, properties): create the
     * buffer, pick the first suitable memory type, allocate and bind.
     */
    static method Create(device: Device, size: DeviceSize, usage: bv32, memoryProperties: bv32, answers: DriverAnswers)
      returns (r: Result<Buffer>)
      requires device.Valid()
      modifies device
      ensures device.Valid()
      ensures r.Err? <==> CreationFailure(device.memoryTypes, memoryProperties, answers).Some?
      ensures r.Err? ==> r.error == CreationFailure(device.memoryTypes, memoryProperties, answers).value
      ensures r.Err? ==> old(device.live) <= device.live
      ensures r.Err? ==> |device.live - old(device.live)| == LeakedHandles(r.error)
      ensures r.Ok? ==> var b := r.value;
        && fresh(b) && fresh(b.contents) && b.Valid()
        && b.device == device && b.size == size
        && b.usage == usage && b.memoryProperties == memoryProperties
        && !b.mapped
        && b.handle != NULL_HANDLE && b.memory != NULL_HANDLE && b.handle != b.memory
        && b.handle !in old(device.live) && b.memory !in old(device.live)
        && device.live == old(device.live) + {b.handle, b.memory}
        && b.memoryType < |device.memoryTypes|
        && MemoryTypeMatches(device.memoryTypes, answers.memoryTypeBits, memoryProperties, b.memoryType)
        && NoMatchBelow(device.memoryTypes, answers.memoryTypeBits, memoryProperties, b.memoryType)
    {
      var b := new Buffer.Init(device, size, usage, memoryProperties);
      if !answers.bufferCreated {
        LeakCount(old(device.live), device.live, NULL_HANDLE, NULL_HANDLE, BufferCreationFailed);
        return Err(BufferCreationFailed);
      }
      b.handle := device.Create();
      var bound := b.AllocateMemory(memoryProperties, answers);
      if bound.Err? {
        LeakCount(old(device.live), device.live, b.handle, b.memory, bound.error);
        return Err(bound.error);
      }
      return Ok(b);
    }

    /**
     * The rest of the constructor once the VkBuffer exists: pick the first
     * memory type with the requested properties among the reported
     * memoryTypeBits, allocate the
     * memory and bind it.  Memory allocated before a failed bind stays alive.
     */
    method AllocateMemory(properties: bv32, answers: DriverAnswers) returns (r: Result<()>)
      requires Valid() && device.Valid() && properties == memoryProperties
      requires handle in device.live && memory == NULL_HANDLE
      modifies this`memory, this`memoryType, device
      ensures Valid() && device.Valid()
      ensures r.Err? <==> MemoryFailure(device.memoryTypes, properties, answers).Some?
      ensures r.Err? ==> r.error == MemoryFailure(device.memoryTypes, properties, answers).value
      ensures r.Err? && r.error != MemoryBindFailed ==> memory == NULL_HANDLE && device.live == old(device.live)
      ensures memory != NULL_HANDLE ==> memory !in old(device.live) && device.live == old(device.live) + {memory}
      ensures r.Ok? || r.error == MemoryBindFailed <==> memory != NULL_HANDLE
      ensures r.Ok? ==>
        && memoryType < |device.memoryTypes|
        && MemoryTypeMatches(device.memoryTypes, answers.memoryTypeBits, properties, memoryType)
        && NoMatchBelow(device.memoryTypes, answers.memoryTypeBits, properties, memoryType)
    {
      var t := FindMemoryType(device.memoryTypes, answers.memoryTypeBits, properties);
      if t.Err? {
        return Err(t.error);
      }
      if !answers.memoryAllocated {
        return Err(MemoryAllocationFailed);
      }
      memory := device.Create();
      memoryType := t.value;
      if !answers.memoryBound {
        return Err(MemoryBindFailed);
      }
      return Ok(());
    }

    /** Buffer::map: only an unmapped buffer may be mapped. */
    method Map(size: DeviceSize := WHOLE_SIZE, offset: DeviceSize := 0) returns (result: VkResult)
      requires Valid() && !mapped
      requires offset <= this.size
      modifies this`mapped, this`mappedOffset
      ensures Valid() && mapped && mappedOffset == offset
      ensures result == Success
    {
      mapped := true;
      mappedOffset := offset;
      result := Success;
    }

    /** Buffer::unmap: only a mapped buffer may be unmapped. */
    method Unmap()
      requires Valid() && mapped
      modifies this`mapped
      ensures Valid() && !mapped
    {
      mapped := false;
    }

    /**
     * Buffer::writeToBuffer: copies the leading bytes of data into the
     * mapped memory, offset bytes past the start of the mapping.  A size of
     * VK_WHOLE_SIZE copies up to the end of the buffer; the range must lie
     * inside the buffer, which the source leaves to its callers.
     */
    method WriteToBuffer(data: seq<byte>, size: DeviceSize := WHOLE_SIZE, offset: DeviceSize := 0)
      requires Valid() && mapped
      requires mappedOffset + offset <= this.size
      requires mappedOffset + offset + IntendedLength(this.size, mappedOffset + offset, size) <= this.size
      requires IntendedLength(this.size, mappedOffset + offset, size) <= |data|
      modifies contents
      ensures contents[..] == Spliced(old(contents[..]), mappedOffset + offset,
                                      data[..IntendedLength(this.size, mappedOffset + offset, size)])
    {
      var start := mappedOffset + offset;
      var n := IntendedLength(this.size, start, size);
      var k := 0;
      while k < n
        invariant 0 <= k <= n
        invariant forall m :: 0 <= m < contents.Length ==>
          contents[m] == if start <= m < start + k then data[m - start] else old(contents[m])
      {
        contents[start + k] := data[k];
        k := k + 1;
      }
      assert contents[..] == Spliced(old(contents[..]), start, data[..n]);
    }

    /** Buffer::descriptorInfo: the buffer handle with the given range, VK_WHOLE_SIZE passed through. */
    function DescriptorInfo(size: DeviceSize := WHOLE_SIZE, offset: DeviceSize := 0): (info: DescriptorBufferInfo)
      reads this
      ensures info.buffer == handle
      ensures info.offset == offset && info.range == size
    {
      DescriptorBufferInfo(handle, offset, size)
    }

    /** The destructor: unmap if still mapped, then destroy the buffer and free its memory. */
    method Destroy()
      requires Valid() && device.Valid()
      modifies this`mapped, device
      ensures device.Valid() && !mapped
      ensures device.live == old(device.live) - {handle, memory}
    {
      if mapped {
        Unmap();
      }
      device.Destroy(handle);
      device.Destroy(memory);
    }
  }
}

=== FILE: geometry.dfy ===
/**
 * vks::geometry: the vertex layout the pipelines consume, and the integer
 * topology of the UV sphere built by createSphere.  The floating-point
 * positions, normals and texture coordinates are not modelled; a vertex is
 * the grid point (stack, sector) they are computed from.
 */
module Geometry {
  import opened Vulkan

  /** The grid point whose position, normal and texture coordinate createSphere computes. */
  datatype GridVertex = GridVertex(stack: nat, sector: nat)

  // ---------------------------------------------------------------------
  // Vertex layout: three float vectors, packed without padding.

  const FLOAT_SIZE: nat := 4
  const POS_OFFSET: nat := 0
  const NORMAL_OFFSET: nat := POS_OFFSET + 3 * FLOAT_SIZE
  const UV_OFFSET: nat := NORMAL_OFFSET + 3 * FLOAT_SIZE
  /** sizeof(Vertex): pos[3], normal[3], uv[2]. */
  const VERTEX_SIZE: nat := UV_OFFSET + 2 * FLOAT_SIZE

  datatype Format = R32G32B32Sfloat | R32G32Sfloat

  /** The number of bytes one attribute of this format occupies. */
  function FormatSize(f: Format): nat {
    match f
    case R32G32B32Sfloat => 3 * FLOAT_SIZE
    case R32G32Sfloat => 2 * FLOAT_SIZE
  }

  datatype InputRate = PerVertex | PerInstance

  datatype BindingDescription = BindingDescription(binding: nat, stride: nat, inputRate: InputRate)

  datatype AttributeDescription = AttributeDescription(binding: nat, location: nat, format: Format, offset: nat)

  /** Vertex::getBindingDescription. */
  function VertexBinding(): (d: BindingDescription)
    ensures d.binding == 0 && d.inputRate == PerVertex
    ensures d.stride == VERTEX_SIZE
  {
    BindingDescription(0, VERTEX_SIZE, PerVertex)
  }

  /** Vertex::getAttributeDescriptions: position, normal and texture coordinate. */
  function VertexAttributes(): (a: seq<AttributeDescription>)
    ensures |a| == 3
    ensures forall k :: 0 <= k < |a| ==> a[k].binding == VertexBinding().binding && a[k].location == k
  {
    [ AttributeDescription(0, 0, R32G32B32Sfloat, POS_OFFSET),
      AttributeDescription(0, 1, R32G32B32Sfloat, NORMAL_OFFSET),
      AttributeDescription(0, 2, R32G32Sfloat, UV_OFFSET) ]
  }

  /**
   * The attributes tile one vertex exactly: the first starts at 0, each
   * starts where the previous ends, and the last ends at the stride.
   */
  lemma AttributesTileStride()
    ensures VertexAttributes()[0].offset == 0
    ensures forall k :: 0 < k < |VertexAttributes()| ==>
      VertexAttributes()[k].offset == VertexAttributes()[k - 1].offset + FormatSize(VertexAttributes()[k - 1].format)
    ensures VertexAttributes()[2].offset + FormatSize(VertexAttributes()[2].format) == VertexBinding().stride
    ensures VertexBinding().stride == 32
  {
  }

  // ---------------------------------------------------------------------
  // Vertices: stacks + 1 rows of sectors + 1 grid points each.

  /** Where vertex (i, j) lands in the vertex array. */
  function Pos(i: nat, j: nat, sectors: nat): nat {
    i * (sectors + 1) + j
  }

  /** The first n grid points of row i. */
  function Row(i: nat, n: nat): seq<GridVertex> {
    if n == 0 then [] else Row(i, n - 1) + [GridVertex(i, n - 1)]
  }

  /** The first m rows, one after the other. */
  function Grid(m: nat, sectors: nat): seq<GridVertex> {
    if m == 0 then [] else Grid(m - 1, sectors) + Row(m - 1, sectors + 1)
  }

  lemma {:induction false} RowAt(i: nat, n: nat)
    ensures |Row(i, n)| == n
    ensures forall b :: 0 <= b < n ==> Row(i, n)[b] == GridVertex(i, b)
  {
    if n > 0 {
      RowAt(i, n - 1);
    }
  }

  /** m rows hold m * (sectors + 1) vertices, vertex (a, b) at position a * (sectors + 1) + b. */
  lemma GridAt(m: nat, sectors: nat)
    ensures |Grid(m, sectors)| == m * (sectors + 1)
    ensures forall a, b :: 0 <= a < m && 0 <= b <= sectors ==>
      Pos(a, b, sectors) < |Grid(m, sectors)| && Grid(m, sectors)[Pos(a, b, sectors)] == GridVertex(a, b)
  {
    GridLength(m, sectors);
    forall a, b | 0 <= a < m && 0 <= b <= sectors
      ensures Pos(a, b, sectors) < |Grid(m, sectors)| && Grid(m, sectors)[Pos(a, b, sectors)] == GridVertex(a, b)
    {
      GridPoint(m, sectors, a, b);
    }
  }

  lemma {:induction false} GridLength(m: nat, sectors: nat)
    ensures |Grid(m, sectors)| == m * (sectors + 1)
  {
    if m > 0 {
      GridLength(m - 1, sectors);
      RowAt(m - 1, sectors + 1);
      NextRow(m - 1, sectors);
    }
  }

  lemma {:induction false} GridPoint(m: nat, sectors: nat, a: nat, b: nat)
    requires a < m && b <= sectors
    ensures Pos(a, b, sectors) < |Grid(m, sectors)| && Grid(m, sectors)[Pos(a, b, sectors)] == GridVertex(a, b)
  {
    GridLength(m, sectors);
    GridLength(m - 1, sectors);
    PosBelow(a, b, m, sectors);
    RowAt(m - 1, sectors + 1);
    var g := Grid(m - 1, sectors);
    assert Grid(m, sectors) == g + Row(m - 1, sectors + 1);
    if a < m - 1 {
      GridPoint(m - 1, sectors, a, b);
      PosBelow(a, b, m - 1, sectors);
    } else {
      assert Pos(a, b, sectors) == |g| + b;
    }
  }

  /** Row a + 1 starts where row a ends. */
  lemma NextRow(a: nat, sectors: nat)
    ensures (a + 1) * (sectors + 1) == a * (sectors + 1) + sectors + 1
  {
  }

  /** A grid point of the first m rows lies below m * (sectors + 1). */
  lemma PosBelow(a: nat, b: nat, m: nat, sectors: nat)
    requires a < m && b <= sectors
    ensures Pos(a, b, sectors) < m * (sectors + 1)
  {
    NextRow(a, sectors);
    MulLe(a + 1, m, sectors + 1);
  }

  // ---------------------------------------------------------------------
  // Indices: per cell (i, j) with k1 = i * (sectors + 1) + j and
  // k2 = k1 + sectors + 1, the triangle (k1, k2, k1 + 1) unless i is the
  // top row and the triangle (k1 + 1, k2, k2 + 1) unless i is the bottom row.

  function CellIndices(i: nat, j: nat, sectors: nat, stacks: nat): seq<nat> {
    var k1 := Pos(i, j, sectors);
    var k2 := k1 + sectors + 1;
    (if i != 0 then [k1, k2, k1 + 1] else [])
    + (if i != stacks - 1 then [k1 + 1, k2, k2 + 1] else [])
  }

  /** The indices of the first n cells of row i. */
  function RowIndices(i: nat, n: nat, sectors: nat, stacks: nat): seq<nat> {
    if n == 0 then [] else RowIndices(i, n - 1, sectors, stacks) + CellIndices(i, n - 1, sectors, stacks)
  }

  /** The indices of the first m rows. */
  function SphereIndices(m: nat, sectors: nat, stacks: nat): seq<nat> {
    if m == 0 then [] else SphereIndices(m - 1, sectors, stacks) + RowIndices(m - 1, sectors, sectors, stacks)
  }

  /**
   * geometry::createSphere, integer part: both arrays start empty; the
   * vertex loop visits stacks + 1 rows of sectors + 1 points, the index loop
   * stacks rows of sectors cells while advancing k1 and k2.  The bound keeps
   * the uint32_t loop counters (which run up to stacks and sectors
   * inclusive) and every index of the source from wrapping.
   */
  method CreateSphere(sectors: nat, stacks: nat) returns (vertices: seq<GridVertex>, indices: seq<nat>)
    requires (stacks + 1) * (sectors + 1) < U32_LIMIT
    ensures vertices == Grid(stacks + 1, sectors)
    ensures indices == SphereIndices(stacks, sectors, stacks)
  {
    vertices := [];
    indices := [];
    var i := 0;
    while i <= stacks
      invariant i <= stacks + 1
      invariant vertices == Grid(i, sectors)
    {
      vertices := AppendRow(vertices, i, sectors);
      i := i + 1;
    }
    i := 0;
    while i < stacks
      invariant i <= stacks
      invariant indices == SphereIndices(i, sectors, stacks)
    {
      indices := AppendRowIndices(indices, i, sectors, stacks);
      i := i + 1;
    }
  }

  /** The inner vertex loop: the sectors + 1 grid points of row i. */
  method AppendRow(vertices: seq<GridVertex>, i: nat, sectors: nat) returns (vertices': seq<GridVertex>)
    ensures vertices' == vertices + Row(i, sectors + 1)
  {
    vertices' := vertices;
    var j := 0;
    while j <= sectors
      invariant j <= sectors + 1
      invariant vertices' == vertices + Row(i, j)
    {
      vertices' := vertices' + [GridVertex(i, j)];
      j := j + 1;
    }
  }

  /** The inner index loop over the sectors cells of row i, advancing k1 and k2 together. */
  method AppendRowIndices(indices: seq<nat>, i: nat, sectors: nat, stacks: nat) returns (indices': seq<nat>)
    ensures indices' == indices + RowIndices(i, sectors, sectors, stacks)
  {
    indices' := indices;
    var k1 := Pos(i, 0, sectors);
    var k2 := k1 + sectors + 1;
    var j := 0;
    while j < sectors
      invariant j <= sectors
      invariant k1 == Pos(i, j, sectors) && k2 == k1 + sectors + 1
      invariant indices' == indices + RowIndices(i, j, sectors, stacks)
    {
      var cell: seq<nat> := [];
      if i != 0 {
        cell := [k1, k2, k1 + 1];
      }
      if i != stacks - 1 {
        cell := cell + [k1 + 1, k2, k2 + 1];
      }
      assert cell == CellIndices(i, j, sectors, stacks);
      indices' := indices' + cell;
      assert indices' == indices + RowIndices(i, j + 1, sectors, stacks) by {
        AppendAssociative(indices, RowIndices(i, j, sectors, stacks), cell);
      }
      j := j + 1;
      k1 := k1 + 1;
      k2 := k2 + 1;
    }
  }

  lemma AppendAssociative(a: seq<nat>, b: seq<nat>, c: seq<nat>)
    ensures a + b + c == a + (b + c)
  {
  }

  /** The vertex array has (stacks + 1) * (sectors + 1) entries, vertex (i, j) at i * (sectors + 1) + j. */
  lemma SphereVertices(sectors: nat, stacks: nat)
    ensures |Grid(stacks + 1, sectors)| == (stacks + 1) * (sectors + 1)
    ensures forall i, j :: 0 <= i <= stacks && 0 <= j <= sectors ==>
      Pos(i, j, sectors) < |Grid(stacks + 1, sectors)| && Grid(stacks + 1, sectors)[Pos(i, j, sectors)] == GridVertex(i, j)
  {
    GridAt(stacks + 1, sectors);
  }

  // ---------------------------------------------------------------------
  // Counting the indices.

  /** Triangles per cell of row i: one in the top and bottom rows, two elsewhere. */
  function TrianglesPerCell(i: nat, stacks: nat): nat {
    (if i != 0 then 1 else 0) + (if i != stacks - 1 then 1 else 0)
  }

  /** Triangles per sector over the first m rows. */
  function TrianglesPerSector(m: nat, stacks: nat): nat {
    if m == 0 then 0 else TrianglesPerSector(m - 1, stacks) + TrianglesPerCell(m - 1, stacks)
  }

  lemma {:induction false} RowIndicesLength(i: nat, n: nat, sectors: nat, stacks: nat)
    ensures |RowIndices(i, n, sectors, stacks)| == 3 * n * TrianglesPerCell(i, stacks)
  {
    if n > 0 {
      RowIndicesLength(i, n - 1, sectors, stacks);
      Distribute(3 * TrianglesPerCell(i, stacks), n - 1, 1);
      assert 3 * n * TrianglesPerCell(i, stacks) == 3 * TrianglesPerCell(i, stacks) * n;
    }
  }

  lemma {:induction false} SphereIndicesLength(m: nat, sectors: nat, stacks: nat)
    ensures |SphereIndices(m, sectors, stacks)| == 3 * sectors * TrianglesPerSector(m, stacks)
  {
    if m > 0 {
      SphereIndicesLength(m - 1, sectors, stacks);
      RowIndicesLength(m - 1, sectors, sectors, stacks);
      Distribute(3 * sectors, TrianglesPerSector(m - 1, stacks), TrianglesPerCell(m - 1, stacks));
    }
  }

  /** Below the bottom row, the first m rows hold 2m - 1 triangles per sector. */
  lemma {:induction false} TrianglesPerSectorAbove(m: nat, stacks: nat)
    requires 1 <= m < stacks
    ensures TrianglesPerSector(m, stacks) == 2 * m - 1
  {
    if m > 1 {
      TrianglesPerSectorAbove(m - 1, stacks);
    }
  }

  lemma TrianglesPerSectorTotal(stacks: nat)
    ensures TrianglesPerSector(stacks, stacks) == if stacks >= 2 then 2 * (stacks - 1) else 0
  {
    if stacks >= 2 {
      TrianglesPerSectorAbove(stacks - 1, stacks);
    }
  }

  /** 6 * sectors * (stacks - 1) indices for stacks >= 2, none for fewer stacks. */
  lemma IndexCount(sectors: nat, stacks: nat)
    ensures |SphereIndices(stacks, sectors, stacks)| == if stacks >= 2 then 6 * sectors * (stacks - 1) else 0
  {
    SphereIndicesLength(stacks, sectors, stacks);
    TrianglesPerSectorTotal(stacks);
    if stacks >= 2 {
      assert 3 * sectors * (2 * (stacks - 1)) == 6 * sectors * (stacks - 1);
    }
  }

  // ---------------------------------------------------------------------
  // Shape of the triangles.

  /** s is a list of triangles over vertices below n, each with three distinct corners. */
  predicate Triangles(s: seq<nat>, n: nat)
    decreases |s|
  {
    || |s| == 0
    || (&& |s| >= 3
        && s[0] < n && s[1] < n && s[2] < n
        && s[0] != s[1] && s[1] != s[2] && s[0] != s[2]
        && Triangles(s[3..], n))
  }

  lemma {:induction false} TrianglesConcat(a: seq<nat>, b: seq<nat>, n: nat)
    requires Triangles(a, n) && Triangles(b, n)
    ensures Triangles(a + b, n)
    decreases |a|
  {
    if |a| > 0 {
      TrianglesConcat(a[3..], b, n);
      assert (a + b)[3..] == a[3..] + b;
    } else {
      assert a + b == b;
    }
  }

  /** A list of triangles has a multiple of three entries. */
  lemma {:induction false} TrianglesLength(s: seq<nat>, n: nat)
    requires Triangles(s, n)
    ensures |s| % 3 == 0
    decreases |s|
  {
    if |s| > 0 {
      TrianglesLength(s[3..], n);
    }
  }

  lemma Distribute(a: int, b: int, c: int)
    ensures a * (b + c) == a * b + a * c
  {
  }

  lemma MulLe(a: nat, b: nat, c: nat)
    requires a <= b
    ensures a * c <= b * c
  {
  }

  lemma CellTriangles(i: nat, j: nat, sectors: nat, stacks: nat)
    requires i < stacks && j < sectors
    ensures Triangles(CellIndices(i, j, sectors, stacks), (stacks + 1) * (sectors + 1))
  {
    var n := (stacks + 1) * (sectors + 1);
    var k1 := Pos(i, j, sectors);
    var k2 := k1 + sectors + 1;
    MulLe(i + 2, stacks + 1, sectors + 1);
    assert k2 + 1 <= (i + 2) * (sectors + 1);
    var up: seq<nat> := if i != 0 then [k1, k2, k1 + 1] else [];
    var down: seq<nat> := if i != stacks - 1 then [k1 + 1, k2, k2 + 1] else [];
    assert Triangles(up, n) by {
      if i != 0 {
        assert up[3..] == [];
      }
    }
    assert Triangles(down, n) by {
      if i != stacks - 1 {
        MulLe(i + 2, stacks, sectors + 1);
        assert down[3..] == [];
      }
    }
    TrianglesConcat(up, down, n);
  }

  lemma {:induction false} RowTriangles(i: nat, m: nat, sectors: nat, stacks: nat)
    requires i < stacks && m <= sectors
    ensures Triangles(RowIndices(i, m, sectors, stacks), (stacks + 1) * (sectors + 1))
  {
    if m > 0 {
      RowTriangles(i, m - 1, sectors, stacks);
      CellTriangles(i, m - 1, sectors, stacks);
      TrianglesConcat(RowIndices(i, m - 1, sectors, stacks), CellIndices(i, m - 1, sectors, stacks),
                      (stacks + 1) * (sectors + 1));
    }
  }

  /**
   * Every triple of the index array is a triangle of three distinct
   * vertices, all of them inside the vertex array; so the index count is a
   * multiple of three.
   */
  lemma {:induction false} SphereTriangles(m: nat, sectors: nat, stacks: nat)
    requires m <= stacks
    ensures Triangles(SphereIndices(m, sectors, stacks), (stacks + 1) * (sectors + 1))
    ensures |SphereIndices(m, sectors, stacks)| % 3 == 0
  {
    if m > 0 {
      SphereTriangles(m - 1, sectors, stacks);
      RowTriangles(m - 1, sectors, sectors, stacks);
      TrianglesConcat(SphereIndices(m - 1, sectors, stacks), RowIndices(m - 1, sectors, sectors, stacks),
                      (stacks + 1) * (sectors + 1));
    }
    TrianglesLength(SphereIndices(m, sectors, stacks), (stacks + 1) * (sectors + 1));
  }
}

=== FILE: material.dfy ===
/**
 * vks::Material: a pipeline name plus the material's own descriptor set
 * (set 1) and the uniform buffer holding its colour.
 */
module Materials {
  import opened Vulkan
  import opened Buffers
  import opened Pipelines
  import Scene

  /** sizeof(MaterialUBO): one 16-byte-aligned glm::vec4. */
  const MATERIAL_UBO_SIZE: nat := 16

  /** The bytes of a glm::vec4 colour; the floats themselves are not interpreted. */
  type Vec4 = s: seq<byte> | |s| == MATERIAL_UBO_SIZE witness seq(MATERIAL_UBO_SIZE, _ => 0)

  /** One DescriptorWriter::writeBuffer call: binding number and buffer info. */
  datatype BufferWrite = BufferWrite(binding: nat, info: DescriptorBufferInfo)

  class Material {
    const pipelineName: string
    /** Where this material keeps its pipeline name: &getPipelineName(). */
    const nameAddress: U64
    var descriptorSet: Handle
    var uboData: Vec4
    var uboBuffer: Buffer?
    /** The set layout and the writes the descriptor set was built from. */
    ghost var setLayout: SetLayout
    ghost var setWrites: seq<BufferWrite>

    ghost predicate Valid()
      reads this, uboBuffer, if uboBuffer == null then {} else {uboBuffer.contents}
    {
      && uboBuffer != null
      && uboBuffer.Valid() && !uboBuffer.mapped
      && uboBuffer.size == MATERIAL_UBO_SIZE
      && uboBuffer.contents[..] == uboData
      && descriptorSet != NULL_HANDLE
    }

    /** The member initialisers: the name, a null descriptor set, no buffer yet. */
    constructor Init(pipelineName: string, nameAddress: U64)
      ensures this.pipelineName == pipelineName && this.nameAddress == nameAddress
      ensures descriptorSet == NULL_HANDLE && uboBuffer == null
    {
      this.pipelineName := pipelineName;
      this.nameAddress := nameAddress;
      descriptorSet := NULL_HANDLE;
      uboData := seq(MATERIAL_UBO_SIZE, _ => 0);
      uboBuffer := null;
      setLayout := SetLayout([]);
      setWrites := [];
    }

    /**
     * The constructor Material(device, pipelineManager, pool, pipelineName,
     * color): fetch the "material" set layout, create a host-visible uniform
     * buffer, map it, write the colour, unmap it, and build the descriptor
     * set with the buffer at binding 0.  `built` is what writer.build
     * reports; when it fails the buffer, already a member, is released.
     */
    static method Create(device: Device, registry: GraphicsPipeline, pipelineName: string, nameAddress: U64,
                         color: Vec4, answers: DriverAnswers, built: bool)
      returns (r: Result<Material>)
      requires device.Valid()
      modifies device
      ensures device.Valid()
      ensures "material" !in registry.setLayouts ==>
        r == Err(NotFound(DescriptorSetLayouts, "material")) && device.live == old(device.live)
      ensures "material" in registry.setLayouts && CreationFailure(device.memoryTypes, UBO_MEMORY, answers).Some? ==>
        r == Err(CreationFailure(device.memoryTypes, UBO_MEMORY, answers).value)
      ensures "material" in registry.setLayouts && CreationFailure(device.memoryTypes, UBO_MEMORY, answers).None? && !built ==>
        r == Err(DescriptorSetBuildFailed) && device.live == old(device.live)
      ensures r.Ok? <==>
        "material" in registry.setLayouts && CreationFailure(device.memoryTypes, UBO_MEMORY, answers).None? && built
      ensures r.Ok? ==> var m := r.value;
        && fresh(m) && fresh(m.uboBuffer) && fresh(m.uboBuffer.contents)
        && m.Valid()
        && m.pipelineName == pipelineName && m.nameAddress == nameAddress
        && m.uboData == color
        && m.uboBuffer.usage == BUFFER_USAGE_UNIFORM_BUFFER && m.uboBuffer.memoryProperties == UBO_MEMORY
        && m.setLayout == registry.setLayouts["material"]
        && m.setWrites == [BufferWrite(0, DescriptorBufferInfo(m.uboBuffer.handle, 0, WHOLE_SIZE))]
        && m.descriptorSet !in old(device.live)
        && device.live == old(device.live) + {m.uboBuffer.handle, m.uboBuffer.memory, m.descriptorSet}
    {
      var m := new Material.Init(pipelineName, nameAddress);
      var layout := registry.GetDescriptorSetLayout("material");
      if layout.Err? {
        return Err(layout.error);
      }
      var created := Buffer.Create(device, MATERIAL_UBO_SIZE, BUFFER_USAGE_UNIFORM_BUFFER, UBO_MEMORY, answers);
      if created.Err? {
        return Err(created.error);
      }
      var buffer := created.value;
      m.uboBuffer := buffer;
      var _ := buffer.Map();
      m.uboData := color;
      buffer.WriteToBuffer(m.uboData);
      buffer.Unmap();
      var info := buffer.DescriptorInfo();
      m.setLayout := layout.value;
      m.setWrites := [BufferWrite(0, info)];
      if !built {
        buffer.Destroy();
        return Err(DescriptorSetBuildFailed);
      }
      m.descriptorSet := device.Create();
      assert buffer.contents[..] == color;
      return Ok(m);
    }

    /** What recording and the sort key read through a pointer to this material. */
    function View(): (v: Scene.MaterialView)
      reads this
      ensures v.pipelineName == pipelineName && v.nameAddress == nameAddress && v.descriptorSet == descriptorSet
    {
      Scene.MaterialView(pipelineName, nameAddress, descriptorSet)
    }
  }

  /** HOST_VISIBLE | HOST_COHERENT. */
  const UBO_MEMORY: bv32 := MEMORY_PROPERTY_HOST_VISIBLE | MEMORY_PROPERTY_HOST_COHERENT
}

=== FILE: model.dfy ===
/**
 * vks::Model: a mesh on the GPU, i.e. a vertex buffer and an index buffer
 * in device-local memory, filled through host-visible staging buffers, and
 * the vertex and index counts.
 */
module Models {
  import opened Vulkan
  import opened Buffers
  import Geometry
  import Scene

  /** The 32 bytes of one vertex as the floats computed for a grid point lay them out. */
  type VertexImage = s: seq<byte> | |s| == Geometry.VERTEX_SIZE witness seq(Geometry.VERTEX_SIZE, _ => 0)

  /** sizeof(uint32_t). */
  const INDEX_SIZE: nat := 4

  /** HOST_VISIBLE | HOST_COHERENT. */
  const STAGING_MEMORY: bv32 := MEMORY_PROPERTY_HOST_VISIBLE | MEMORY_PROPERTY_HOST_COHERENT

  /** The vertex array's bytes. */
  function VertexBytes(vertices: seq<Geometry.GridVertex>, image: Geometry.GridVertex -> VertexImage): (bytes: seq<byte>)
    ensures |bytes| == Geometry.VERTEX_SIZE * |vertices|
  {
    if vertices == [] then []
    else VertexBytes(vertices[..|vertices| - 1], image) + image(vertices[|vertices| - 1])
  }

  /** A uint32_t in little-endian byte order. */
  function Le32(x: nat): (bytes: seq<byte>)
    requires x < U32_LIMIT
    ensures |bytes| == INDEX_SIZE
  {
    var x1 := x / 0x100;
    var x2 := x1 / 0x100;
    var x3 := x2 / 0x100;
    [(x % 0x100) as byte, (x1 % 0x100) as byte, (x2 % 0x100) as byte, x3 as byte]
  }

  function Le32Decode(bytes: seq<byte>): nat
    requires |bytes| == INDEX_SIZE
  {
    bytes[0] as nat + 0x100 * (bytes[1] as nat + 0x100 * (bytes[2] as nat + 0x100 * bytes[3] as nat))
  }

  /** Decoding the four bytes gives the index back. */
  lemma Le32RoundTrip(x: nat)
    requires x < U32_LIMIT
    ensures Le32Decode(Le32(x)) == x
  {
    var x1 := x / 0x100;
    var x2 := x1 / 0x100;
    var x3 := x2 / 0x100;
    assert x == x % 0x100 + 0x100 * x1;
    assert x1 == x1 % 0x100 + 0x100 * x2;
    assert x2 == x2 % 0x100 + 0x100 * x3;
  }

  /** Every entry fits in a uint32_t. */
  predicate Fits32(s: seq<nat>) {
    forall k :: 0 <= k < |s| ==> s[k] < U32_LIMIT
  }

  /** The index array's bytes. */
  function IndexBytes(indices: seq<nat>): (bytes: seq<byte>)
    requires Fits32(indices)
    ensures |bytes| == INDEX_SIZE * |indices|
  {
    if indices == [] then []
    else IndexBytes(indices[..|indices| - 1]) + Le32(indices[|indices| - 1])
  }

  /** Index k of the array sits, little-endian, at bytes 4k .. 4k + 4. */
  lemma {:induction false} IndexBytesAt(indices: seq<nat>, k: nat)
    requires Fits32(indices)
    requires k < |indices|
    ensures Le32Decode(IndexBytes(indices)[INDEX_SIZE * k..INDEX_SIZE * k + INDEX_SIZE]) == indices[k]
    decreases |indices|
  {
    var init := indices[..|indices| - 1];
    assert IndexBytes(indices) == IndexBytes(init) + Le32(indices[|indices| - 1]);
    if k < |init| {
      IndexBytesAt(init, k);
      assert IndexBytes(indices)[INDEX_SIZE * k..INDEX_SIZE * k + INDEX_SIZE]
          == IndexBytes(init)[INDEX_SIZE * k..INDEX_SIZE * k + INDEX_SIZE];
    } else {
      assert IndexBytes(indices)[INDEX_SIZE * k..INDEX_SIZE * k + INDEX_SIZE] == Le32(indices[k]);
      Le32RoundTrip(indices[k]);
    }
  }

  /** VkBufferCopy. */
  datatype BufferCopy = BufferCopy(srcOffset: nat, dstOffset: nat, size: nat)

  /**
   * vkCmdCopyBuffer with one region, taken to have completed once the
   * one-shot command buffer has been submitted and waited for.
   */
  method CopyBuffer(src: Buffer, dst: Buffer, region: BufferCopy)
    requires src.Valid() && dst.Valid() && src.contents != dst.contents
    requires region.srcOffset + region.size <= src.size
    requires region.dstOffset + region.size <= dst.size
    modifies dst.contents
    ensures dst.contents[..] == Spliced(old(dst.contents[..]), region.dstOffset,
                                        src.contents[region.srcOffset..region.srcOffset + region.size])
  {
    var k := 0;
    while k < region.size
      invariant 0 <= k <= region.size
      invariant forall m :: 0 <= m < dst.contents.Length ==>
        dst.contents[m] == if region.dstOffset <= m < region.dstOffset + k
                           then src.contents[region.srcOffset + (m - region.dstOffset)]
                           else old(dst.contents[m])
    {
      dst.contents[region.dstOffset + k] := src.contents[region.srcOffset + k];
      k := k + 1;
    }
    assert dst.contents[..] == Spliced(old(dst.contents[..]), region.dstOffset,
                                       src.contents[region.srcOffset..region.srcOffset + region.size]);
  }

  /** The driver's answers for the staging buffer and for the destination buffer of one upload. */
  datatype UploadAnswers = UploadAnswers(staging: DriverAnswers, destination: DriverAnswers)

  /** The exception an upload throws: the staging buffer's, else the destination's. */
  function UploadFailure(types: seq<bv32>, answers: UploadAnswers): Option<Error>
    requires |types| <= MAX_MEMORY_TYPES
  {
    if CreationFailure(types, STAGING_MEMORY, answers.staging).Some? then CreationFailure(types, STAGING_MEMORY, answers.staging)
    else CreationFailure(types, MEMORY_PROPERTY_DEVICE_LOCAL, answers.destination)
  }

  /**
   * Model::createBufferFromData: a host-visible transfer-source staging
   * buffer is mapped, filled with the first `size` bytes of data and
   * unmapped; a device-local buffer with usage TRANSFER_DST | usage is
   * created; the whole range is copied from offset 0 to offset 0; the
   * staging buffer is released when it goes out of scope, also when
   * creating the destination throws.
   */
  method CreateBufferFromData(device: Device, data: seq<byte>, size: DeviceSize, usage: bv32, answers: UploadAnswers)
    returns (r: Result<Buffer>)
    requires device.Valid()
    requires size <= |data|
    modifies device
    ensures device.Valid()
    ensures r.Err? <==> UploadFailure(device.memoryTypes, answers).Some?
    ensures r.Err? ==> r.error == UploadFailure(device.memoryTypes, answers).value
    ensures r.Err? ==> old(device.live) <= device.live
    ensures r.Ok? ==> var b := r.value;
      && fresh(b) && fresh(b.contents) && b.Valid() && !b.mapped
      && b.device == device && b.size == size
      && b.usage == BUFFER_USAGE_TRANSFER_DST | usage
      && b.memoryProperties == MEMORY_PROPERTY_DEVICE_LOCAL
      && b.contents[..] == data[..size]
      && b.handle !in old(device.live) && b.memory !in old(device.live)
      && device.live == old(device.live) + {b.handle, b.memory}
  {
    var created := Stage(device, data, size, answers.staging);
    if created.Err? {
      return Err(created.error);
    }
    r := CopyToDevice(device, created.value, usage, answers.destination);
  }

  /**
   * The device half of createBufferFromData: create the device-local
   * destination, record the copy of the whole staging buffer into it, and
   * release the staging buffer, on the way out or when the destination's
   * constructor throws.
   */
  method CopyToDevice(device: Device, staging: Buffer, usage: bv32, answers: DriverAnswers)
    returns (r: Result<Buffer>)
    requires device.Valid() && staging.Valid() && !staging.mapped && staging.device == device
    requires staging.handle in device.live && staging.memory in device.live
    modifies device, staging`mapped
    ensures device.Valid()
    ensures r.Err? <==> CreationFailure(device.memoryTypes, MEMORY_PROPERTY_DEVICE_LOCAL, answers).Some?
    ensures r.Err? ==> r.error == CreationFailure(device.memoryTypes, MEMORY_PROPERTY_DEVICE_LOCAL, answers).value
    ensures r.Err? ==> old(device.live) - {staging.handle, staging.memory} <= device.live
    ensures r.Ok? ==> var b := r.value;
      && fresh(b) && fresh(b.contents) && b.Valid() && !b.mapped
      && b.device == device && b.size == staging.size
      && b.usage == BUFFER_USAGE_TRANSFER_DST | usage
      && b.memoryProperties == MEMORY_PROPERTY_DEVICE_LOCAL
      && b.contents[..] == staging.contents[..]
      && b.handle !in old(device.live) && b.memory !in old(device.live)
      && device.live == old(device.live) - {staging.handle, staging.memory} + {b.handle, b.memory}
  {
    var destination := Buffer.Create(device, staging.size, BUFFER_USAGE_TRANSFER_DST | usage,
                                     MEMORY_PROPERTY_DEVICE_LOCAL, answers);
    if destination.Err? {
      staging.Destroy();
      return Err(destination.error);
    }
    var b := destination.value;
    CopyBuffer(staging, b, BufferCopy(0, 0, staging.size));
    assert b.contents[..] == staging.contents[..];
    staging.Destroy();
    return Ok(b);
  }

  /** The staging half of createBufferFromData: create, map, fill with data[..size], unmap. */
  method Stage(device: Device, data: seq<byte>, size: DeviceSize, answers: DriverAnswers)
    returns (r: Result<Buffer>)
    requires device.Valid()
    requires size <= |data|
    modifies device
    ensures device.Valid()
    ensures r.Err? <==> CreationFailure(device.memoryTypes, STAGING_MEMORY, answers).Some?
    ensures r.Err? ==> r.error == CreationFailure(device.memoryTypes, STAGING_MEMORY, answers).value
    ensures r.Err? ==> old(device.live) <= device.live
    ensures r.Ok? ==> var b := r.value;
      && fresh(b) && fresh(b.contents) && b.Valid() && !b.mapped
      && b.device == device && b.size == size
      && b.contents[..] == data[..size]
      && b.handle !in old(device.live) && b.memory !in old(device.live)
      && device.live == old(device.live) + {b.handle, b.memory}
  {
    r := Buffer.Create(device, size, BUFFER_USAGE_TRANSFER_SRC, STAGING_MEMORY, answers);
    if r.Err? {
      return;
    }
    var staging := r.value;
    var _ := staging.Map();
    staging.WriteToBuffer(data);
    staging.Unmap();
  }

  /**
   * createBufferFromData's assignment to the std::unique_ptr it was handed:
   * the buffer that pointer owned, if any, is released once the new one
   * exists, and only then; when the upload fails it is left alone.
   */
  method Replace(device: Device, data: seq<byte>, size: DeviceSize, usage: bv32, answers: UploadAnswers,
                 previous: Buffer?)
    returns (r: Result<Buffer>)
    requires device.Valid()
    requires size <= |data|
    requires previous != null ==> previous.Valid() && previous.device == device
    modifies device, previous
    ensures device.Valid()
    ensures r.Err? <==> UploadFailure(device.memoryTypes, answers).Some?
    ensures r.Err? ==> r.error == UploadFailure(device.memoryTypes, answers).value
    ensures r.Ok? ==> var b := r.value;
      && fresh(b) && fresh(b.contents) && b.Valid() && !b.mapped
      && b.device == device && b.size == size
      && b.usage == BUFFER_USAGE_TRANSFER_DST | usage
      && b.memoryProperties == MEMORY_PROPERTY_DEVICE_LOCAL
      && b.contents[..] == data[..size]
      && b.handle !in old(device.live) && b.memory !in old(device.live)
    ensures r.Ok? && previous == null ==> device.live == old(device.live) + {r.value.handle, r.value.memory}
    ensures r.Ok? && previous != null ==>
      && !previous.mapped
      && device.live == old(device.live) + {r.value.handle, r.value.memory} - {previous.handle, previous.memory}
      && ({previous.handle, previous.memory} <= old(device.live) ==>
            device.live == old(device.live) - {previous.handle, previous.memory} + {r.value.handle, r.value.memory})
    ensures r.Err? ==> old(device.live) <= device.live
    ensures r.Err? && previous != null ==> unchanged(previous)
  {
    r := CreateBufferFromData(device, data, size, usage, answers);
    if r.Ok? && previous != null {
      previous.Destroy();
    }
  }

  /**
   * The first half of createSphere: generate the sphere, take both counts
   * as uint32_t, and lay out the byte images of the two arrays, long enough
   * for the (truncated) sizes uploaded.
   */
  method SphereData(sectors: nat, stacks: nat, image: Geometry.GridVertex -> VertexImage)
    returns (vertexCount: nat, indexCount: nat, vertexSize: DeviceSize, indexSize: DeviceSize,
             vertexBytes: seq<byte>, indexBytes: seq<byte>)
    requires (stacks + 1) * (sectors + 1) < U32_LIMIT
    ensures vertexCount == |Geometry.Grid(stacks + 1, sectors)| % U32_LIMIT
    ensures indexCount == |Geometry.SphereIndices(stacks, sectors, stacks)| % U32_LIMIT
    ensures vertexBytes == VertexBytes(Geometry.Grid(stacks + 1, sectors), image)
    ensures vertexSize == Geometry.VERTEX_SIZE * vertexCount <= |vertexBytes|
    ensures Fits32(Geometry.SphereIndices(stacks, sectors, stacks))
    ensures indexBytes == IndexBytes(Geometry.SphereIndices(stacks, sectors, stacks))
    ensures indexSize == INDEX_SIZE * indexCount <= |indexBytes|
  {
    var vertices, indices := Geometry.CreateSphere(sectors, stacks);
    vertexCount := |vertices| % U32_LIMIT;
    indexCount := |indices| % U32_LIMIT;
    Geometry.SphereVertices(sectors, stacks);
    Geometry.SphereTriangles(stacks, sectors, stacks);
    IndicesBelow(indices, |vertices|);
    vertexBytes := VertexBytes(vertices, image);
    indexBytes := IndexBytes(indices);
    TruncatedSize(|vertices|, Geometry.VERTEX_SIZE);
    TruncatedSize(|indices|, INDEX_SIZE);
    vertexSize := UploadSize(vertexCount, Geometry.VERTEX_SIZE);
    indexSize := UploadSize(indexCount, INDEX_SIZE);
  }

  /** A uint32_t count of elements of at most 32 bytes each, as a VkDeviceSize. */
  function UploadSize(count: nat, width: nat): (size: DeviceSize)
    requires count < U32_LIMIT && width <= 32
    ensures size == width * count
  {
    Geometry.MulLe(width, 32, count);
    width * count
  }

  /** Truncating the count to uint32_t never makes the byte size larger. */
  lemma TruncatedSize(n: nat, width: nat)
    ensures width * (n % U32_LIMIT) <= width * n
  {
    Geometry.MulLe(n % U32_LIMIT, n, width);
  }

  class Model {
    var vertexBuffer: Buffer?
    var indexBuffer: Buffer?
    /** m_vertexCount and m_indexCount, uint32_t. */
    var vertexCount: nat
    var indexCount: nat

    /** The default constructor: no buffers, zero counts. */
    constructor ()
      ensures vertexBuffer == null && indexBuffer == null
      ensures vertexCount == 0 && indexCount == 0
    {
      vertexBuffer := null;
      indexBuffer := null;
      vertexCount := 0;
      indexCount := 0;
    }

    /**
     * Model::createSphere: generate the sphere, record both counts (cast to
     * uint32_t), then upload the vertex array with vertex usage and after
     * it the index array with index usage.  A buffer the model already
     * owned is released when its replacement is stored.
     */
    method CreateSphere(device: Device, sectors: nat, stacks: nat, image: Geometry.GridVertex -> VertexImage,
                        vertexUpload: UploadAnswers, indexUpload: UploadAnswers)
      returns (r: Result<()>)
      requires device.Valid()
      requires (stacks + 1) * (sectors + 1) < U32_LIMIT
      requires vertexBuffer != null ==> vertexBuffer.Valid() && vertexBuffer.device == device
      requires indexBuffer != null ==> indexBuffer.Valid() && indexBuffer.device == device
      requires vertexBuffer != null && indexBuffer != null ==> vertexBuffer != indexBuffer
      modifies this`vertexBuffer, this`indexBuffer, this`vertexCount, this`indexCount, device, vertexBuffer, indexBuffer
      ensures device.Valid()
      ensures vertexCount == |Geometry.Grid(stacks + 1, sectors)| % U32_LIMIT
      ensures indexCount == |Geometry.SphereIndices(stacks, sectors, stacks)| % U32_LIMIT
      ensures r.Err? <==> UploadFailure(device.memoryTypes, vertexUpload).Some?
                          || UploadFailure(device.memoryTypes, indexUpload).Some?
      ensures r.Err? ==> r.error == if UploadFailure(device.memoryTypes, vertexUpload).Some?
                                    then UploadFailure(device.memoryTypes, vertexUpload).value
                                    else UploadFailure(device.memoryTypes, indexUpload).value
      ensures r.Ok? ==>
        && vertexBuffer != null && fresh(vertexBuffer) && vertexBuffer.Valid() && !vertexBuffer.mapped
        && vertexBuffer.size == Geometry.VERTEX_SIZE * vertexCount
        && vertexBuffer.usage == BUFFER_USAGE_TRANSFER_DST | BUFFER_USAGE_VERTEX_BUFFER
        && vertexBuffer.size <= |VertexBytes(Geometry.Grid(stacks + 1, sectors), image)|
        && vertexBuffer.contents[..] == VertexBytes(Geometry.Grid(stacks + 1, sectors), image)[..vertexBuffer.size]
        && indexBuffer != null && fresh(indexBuffer) && indexBuffer.Valid() && !indexBuffer.mapped
        && indexBuffer.size == INDEX_SIZE * indexCount
        && indexBuffer.usage == BUFFER_USAGE_TRANSFER_DST | BUFFER_USAGE_INDEX_BUFFER
        && Fits32(Geometry.SphereIndices(stacks, sectors, stacks))
        && indexBuffer.size <= |IndexBytes(Geometry.SphereIndices(stacks, sectors, stacks))|
        && indexBuffer.contents[..] == IndexBytes(Geometry.SphereIndices(stacks, sectors, stacks))[..indexBuffer.size]
    {
      var vertexSize, indexSize, vertexBytes, indexBytes;
      vertexCount, indexCount, vertexSize, indexSize, vertexBytes, indexBytes := SphereData(sectors, stacks, image);
      r := UploadBoth(device, vertexBytes, vertexSize, indexBytes, indexSize, vertexUpload, indexUpload);
    }

    /** The uploads of createSphere: the vertex bytes, then, if that succeeded, the index bytes. */
    method UploadBoth(device: Device, vertexBytes: seq<byte>, vertexSize: DeviceSize,
                      indexBytes: seq<byte>, indexSize: DeviceSize,
                      vertexUpload: UploadAnswers, indexUpload: UploadAnswers)
      returns (r: Result<()>)
      requires device.Valid()
      requires vertexSize <= |vertexBytes| && indexSize <= |indexBytes|
      requires vertexBuffer != null ==> vertexBuffer.Valid() && vertexBuffer.device == device
      requires indexBuffer != null ==> indexBuffer.Valid() && indexBuffer.device == device
      requires vertexBuffer != null && indexBuffer != null ==> vertexBuffer != indexBuffer
      modifies this`vertexBuffer, this`indexBuffer, device, vertexBuffer, indexBuffer
      ensures device.Valid()
      ensures r.Err? <==> UploadFailure(device.memoryTypes, vertexUpload).Some?
                          || UploadFailure(device.memoryTypes, indexUpload).Some?
      ensures r.Err? ==> r.error == if UploadFailure(device.memoryTypes, vertexUpload).Some?
                                    then UploadFailure(device.memoryTypes, vertexUpload).value
                                    else UploadFailure(device.memoryTypes, indexUpload).value
      ensures r.Ok? ==>
        && vertexBuffer != null && fresh(vertexBuffer) && vertexBuffer.Valid() && !vertexBuffer.mapped
        && vertexBuffer.size == vertexSize
        && vertexBuffer.usage == BUFFER_USAGE_TRANSFER_DST | BUFFER_USAGE_VERTEX_BUFFER
        && vertexBuffer.contents[..] == vertexBytes[..vertexSize]
        && indexBuffer != null && fresh(indexBuffer) && indexBuffer.Valid() && !indexBuffer.mapped
        && indexBuffer.size == indexSize
        && indexBuffer.usage == BUFFER_USAGE_TRANSFER_DST | BUFFER_USAGE_INDEX_BUFFER
        && indexBuffer.contents[..] == indexBytes[..indexSize]
    {
      r := UploadVertices(device, vertexBytes, vertexSize, vertexUpload);
      if r.Err? {
        return;
      }
      r := UploadIndices(device, indexBytes, indexSize, indexUpload);
    }

    /** The vertex half of createSphere: createBufferFromData into m_vertexBuffer. */
    method UploadVertices(device: Device, bytes: seq<byte>, size: DeviceSize, upload: UploadAnswers)
      returns (r: Result<()>)
      requires device.Valid()
      requires size <= |bytes|
      requires vertexBuffer != null ==> vertexBuffer.Valid() && vertexBuffer.device == device
      modifies this`vertexBuffer, device, vertexBuffer
      ensures device.Valid()
      ensures r.Err? <==> UploadFailure(device.memoryTypes, upload).Some?
      ensures r.Err? ==> r.error == UploadFailure(device.memoryTypes, upload).value
      ensures r.Ok? ==>
        && vertexBuffer != null && fresh(vertexBuffer) && vertexBuffer.Valid() && !vertexBuffer.mapped
        && vertexBuffer.device == device && vertexBuffer.size == size
        && vertexBuffer.usage == BUFFER_USAGE_TRANSFER_DST | BUFFER_USAGE_VERTEX_BUFFER
        && vertexBuffer.contents[..] == bytes[..size]
    {
      var uploaded := Replace(device, bytes, size, BUFFER_USAGE_VERTEX_BUFFER, upload, vertexBuffer);
      if uploaded.Err? {
        return Err(uploaded.error);
      }
      vertexBuffer := uploaded.value;
      return Ok(());
    }

    /** The index half of createSphere: createBufferFromData into m_indexBuffer. */
    method UploadIndices(device: Device, bytes: seq<byte>, size: DeviceSize, upload: UploadAnswers)
      returns (r: Result<()>)
      requires device.Valid()
      requires size <= |bytes|
      requires indexBuffer != null ==> indexBuffer.Valid() && indexBuffer.device == device
      modifies this`indexBuffer, device, indexBuffer
      ensures device.Valid()
      ensures r.Err? <==> UploadFailure(device.memoryTypes, upload).Some?
      ensures r.Err? ==> r.error == UploadFailure(device.memoryTypes, upload).value
      ensures r.Ok? ==>
        && indexBuffer != null && fresh(indexBuffer) && indexBuffer.Valid() && !indexBuffer.mapped
        && indexBuffer.device == device && indexBuffer.size == size
        && indexBuffer.usage == BUFFER_USAGE_TRANSFER_DST | BUFFER_USAGE_INDEX_BUFFER
        && indexBuffer.contents[..] == bytes[..size]
    {
      var uploaded := Replace(device, bytes, size, BUFFER_USAGE_INDEX_BUFFER, upload, indexBuffer);
      if uploaded.Err? {
        return Err(uploaded.error);
      }
      indexBuffer := uploaded.value;
      return Ok(());
    }

    /** getVertexBuffer: the owned vertex buffer's handle. */
    function GetVertexBuffer(): (h: Handle)
      requires vertexBuffer != null
      reads this, vertexBuffer
      ensures h == vertexBuffer.handle
    {
      vertexBuffer.handle
    }

    /** getIndexBuffer: the owned index buffer's handle. */
    function GetIndexBuffer(): (h: Handle)
      requires indexBuffer != null
      reads this, indexBuffer
      ensures h == indexBuffer.handle
    {
      indexBuffer.handle
    }

    /** What recording reads through a pointer to this model. */
    function View(): (v: Scene.MeshView)
      requires vertexBuffer != null && indexBuffer != null
      reads this, vertexBuffer, indexBuffer
      ensures v == Scene.MeshView(GetVertexBuffer(), GetIndexBuffer(), indexCount)
    {
      Scene.MeshView(vertexBuffer.handle, indexBuffer.handle, indexCount)
    }
  }

  /** Triangles over n vertices, n within uint32_t, only use indices that fit in uint32_t. */
  lemma IndicesBelow(indices: seq<nat>, n: nat)
    requires Geometry.Triangles(indices, n) && n < U32_LIMIT
    ensures forall k :: 0 <= k < |indices| ==> indices[k] < n
  {
    TrianglesBelow(indices, n);
  }

  lemma {:induction false} TrianglesBelow(indices: seq<nat>, n: nat)
    requires Geometry.Triangles(indices, n)
    ensures forall k :: 0 <= k < |indices| ==> indices[k] < n
    decreases |indices|
  {
    if |indices| > 0 {
      TrianglesBelow(indices[3..], n);
      forall k | 0 <= k < |indices|
        ensures indices[k] < n
      {
        if k >= 3 {
          assert indices[k] == indices[3..][k - 3];
        }
      }
    }
  }

  /** The number of indices createSphere generates. */
  function SphereIndexCount(sectors: nat, stacks: nat): nat {
    if stacks >= 2 then 6 * sectors * (stacks - 1) else 0
  }

  /**
   * Without truncation: when the sphere's index count fits in uint32_t the
   * stored counts are exactly (stacks + 1) * (sectors + 1) and
   * 6 * sectors * (stacks - 1) (none below two stacks).
   */
  lemma SphereCounts(sectors: nat, stacks: nat)
    requires (stacks + 1) * (sectors + 1) < U32_LIMIT
    requires SphereIndexCount(sectors, stacks) < U32_LIMIT
    ensures |Geometry.Grid(stacks + 1, sectors)| % U32_LIMIT == (stacks + 1) * (sectors + 1)
    ensures |Geometry.SphereIndices(stacks, sectors, stacks)| % U32_LIMIT == SphereIndexCount(sectors, stacks)
  {
    Geometry.SphereVertices(sectors, stacks);
    Geometry.IndexCount(sectors, stacks);
    Below(|Geometry.Grid(stacks + 1, sectors)|);
    Below(|Geometry.SphereIndices(stacks, sectors, stacks)|);
  }

  lemma Below(x: nat)
    requires x < U32_LIMIT
    ensures x % U32_LIMIT == x
  {
  }
}

=== FILE: pipelines.dfy ===
/**
 * vks::GraphicsPipeline: a registry of graphics pipelines, pipeline layouts
 * and descriptor-set layouts, each keyed by name, with the fixed
 * configuration of the two pipelines it builds ("base" and "sphere").
 */
module Pipelines {
  import opened Vulkan
  import Geometry

  datatype DescriptorType = UniformBuffer

  datatype SetLayoutBinding = SetLayoutBinding(binding: nat, descriptorType: DescriptorType, stage: ShaderStage)

  /**
   * The bindings a DescriptorSetLayout::Builder was given.  The
   * VkDescriptorSetLayout the built object owns is not modelled as a handle.
   */
  datatype SetLayout = SetLayout(bindings: seq<SetLayoutBinding>)

  datatype PushConstantRange = PushConstantRange(stage: ShaderStage, offset: nat, size: nat)

  datatype Topology = TriangleList
  datatype CullMode = CullBack
  datatype FrontFace = Clockwise | CounterClockwise
  datatype CompareOp = Less

  datatype DepthState = DepthState(testEnable: bool, writeEnable: bool, compareOp: CompareOp)

  /** The parts of VkGraphicsPipelineCreateInfo and its layout that the renderer chooses. */
  datatype PipelineConfig = PipelineConfig(
    vertexBindings: seq<Geometry.BindingDescription>,
    vertexAttributes: seq<Geometry.AttributeDescription>,
    topology: Topology,
    scissor: Extent,
    cullMode: CullMode,
    frontFace: FrontFace,
    samples: nat,
    blendEnable: bool,
    depth: DepthState,
    setLayouts: seq<SetLayout>,
    pushConstants: seq<PushConstantRange>)

  /** sizeof(glm::mat4): sixteen floats. */
  const MAT4_SIZE: nat := 64

  const PIPELINE_NAMES: set<string> := {"base", "sphere"}
  const SET_LAYOUT_NAMES: set<string> := {"global", "material"}

  /** The "global" layout (set 0): the camera uniform buffer, read by the vertex stage. */
  const GLOBAL_LAYOUT: SetLayout := SetLayout([SetLayoutBinding(0, UniformBuffer, VertexStage)])

  /** The "material" layout (set 1): the material uniform buffer, read by the fragment stage. */
  const MATERIAL_LAYOUT: SetLayout := SetLayout([SetLayoutBinding(0, UniformBuffer, FragmentStage)])

  /** createBasePipeline: a full-screen pass with no vertex input, no sets and no depth. */
  function BaseConfig(extent: Extent): PipelineConfig {
    PipelineConfig(
      [], [], TriangleList, extent, CullBack, Clockwise, 1, false,
      DepthState(false, false, Less),
      [], [])
  }

  /** createSpherePipeline: mesh vertex input, [global, material] sets, a mat4 push constant, depth on. */
  function SphereConfig(extent: Extent, global: SetLayout, material: SetLayout): PipelineConfig {
    PipelineConfig(
      [Geometry.VertexBinding()], Geometry.VertexAttributes(), TriangleList, extent, CullBack, CounterClockwise, 1, false,
      DepthState(true, true, Less),
      [global, material],
      [PushConstantRange(VertexStage, 0, MAT4_SIZE)])
  }

  lemma BaseConfigFacts(extent: Extent)
    ensures BaseConfig(extent).vertexBindings == [] && BaseConfig(extent).vertexAttributes == []
    ensures BaseConfig(extent).setLayouts == [] && BaseConfig(extent).pushConstants == []
    ensures !BaseConfig(extent).depth.testEnable && !BaseConfig(extent).depth.writeEnable
    ensures BaseConfig(extent).frontFace == Clockwise
  {
  }

  lemma SphereConfigFacts(extent: Extent)
    ensures SphereConfig(extent, GLOBAL_LAYOUT, MATERIAL_LAYOUT).setLayouts == [GLOBAL_LAYOUT, MATERIAL_LAYOUT]
    ensures SphereConfig(extent, GLOBAL_LAYOUT, MATERIAL_LAYOUT).pushConstants == [PushConstantRange(VertexStage, 0, MAT4_SIZE)]
    ensures SphereConfig(extent, GLOBAL_LAYOUT, MATERIAL_LAYOUT).depth == DepthState(true, true, Less)
    ensures SphereConfig(extent, GLOBAL_LAYOUT, MATERIAL_LAYOUT).frontFace == CounterClockwise
    ensures SphereConfig(extent, GLOBAL_LAYOUT, MATERIAL_LAYOUT).vertexBindings[0].stride == Geometry.VERTEX_SIZE
    ensures |SphereConfig(extent, GLOBAL_LAYOUT, MATERIAL_LAYOUT).vertexAttributes| == 3
  {
  }

  /** Both pipelines: triangle lists, scissor = swapchain extent, back-face culling, one sample, no blending. */
  lemma SharedConfig(extent: Extent, global: SetLayout, material: SetLayout)
    ensures forall c :: c in {BaseConfig(extent), SphereConfig(extent, global, material)} ==>
      && c.topology == TriangleList && c.scissor == extent && c.cullMode == CullBack
      && c.samples == 1 && !c.blendEnable
  {
  }

  /** std::map::at, with the out_of_range turned into the registry's own error naming the key. */
  function Lookup<V>(m: map<string, V>, registry: Registry, name: string): (r: Result<V>)
    ensures r.Ok? <==> name in m
    ensures r.Ok? ==> r.value == m[name]
    ensures r.Err? ==> r.error == NotFound(registry, name)
  {
    if name in m then Ok(m[name]) else Err(NotFound(registry, name))
  }

  class GraphicsPipeline {
    const device: Device
    var pipelines: map<string, Handle>
    var layouts: map<string, Handle>
    var setLayouts: map<string, SetLayout>
    /** The swapchain extent the pipelines were last built for, and what each was built with. */
    ghost var extent: Extent
    ghost var configs: map<string, PipelineConfig>

    ghost predicate Valid()
      reads this, device
    {
      && pipelines.Keys == PIPELINE_NAMES && layouts.Keys == PIPELINE_NAMES && configs.Keys == PIPELINE_NAMES
      && setLayouts == map["global" := GLOBAL_LAYOUT, "material" := MATERIAL_LAYOUT]
      && configs["base"] == BaseConfig(extent)
      && configs["sphere"] == SphereConfig(extent, GLOBAL_LAYOUT, MATERIAL_LAYOUT)
      && pipelines.Values + layouts.Values <= device.live
    }

    /** The pipeline and layout handles this registry owns (its set layouts are values). */
    ghost function Owned(): set<Handle>
      reads this
    {
      pipelines.Values + layouts.Values
    }

    /** The constructor: createPipelines for the current swapchain extent. */
    constructor (device: Device, extent: Extent)
      requires device.Valid()
      modifies device
      ensures Valid() && device.Valid() && this.device == device && this.extent == extent
      ensures Owned() !! old(device.live)
      ensures device.live == old(device.live) + Owned()
    {
      this.device := device;
      pipelines := map[];
      layouts := map[];
      setLayouts := map[];
      configs := map[];
      this.extent := extent;
      new;
      CreatePipelines(extent);
    }

    /** getPipeline. */
    function GetPipeline(name: string): (r: Result<Handle>)
      reads this
      ensures r == Lookup(pipelines, Pipelines, name)
    {
      Lookup(pipelines, Pipelines, name)
    }

    /** getLayout. */
    function GetLayout(name: string): (r: Result<Handle>)
      reads this
      ensures r == Lookup(layouts, PipelineLayouts, name)
    {
      Lookup(layouts, PipelineLayouts, name)
    }

    /** getDescriptorSetLayout. */
    function GetDescriptorSetLayout(name: string): (r: Result<SetLayout>)
      reads this
      ensures r == Lookup(setLayouts, DescriptorSetLayouts, name)
    {
      Lookup(setLayouts, DescriptorSetLayouts, name)
    }

    /**
     * createBasePipeline / createSpherePipeline: create both shader
     * modules, the layout and the pipeline, store the pipeline and the
     * layout under the name, then destroy the shader modules.
     */
    method CreatePipeline(name: string, config: PipelineConfig)
      requires device.Valid()
      modifies this`pipelines, this`layouts, this`configs, device
      ensures device.Valid()
      ensures name in pipelines && name in layouts
      ensures pipelines == old(pipelines)[name := pipelines[name]]
      ensures layouts == old(layouts)[name := layouts[name]]
      ensures configs == old(configs)[name := config]
      ensures pipelines[name] != layouts[name]
      ensures pipelines[name] !in old(device.live) && layouts[name] !in old(device.live)
      ensures device.live == old(device.live) + {pipelines[name], layouts[name]}
    {
      var vertexShader := device.Create();
      var fragmentShader := device.Create();
      var layout := device.Create();
      var pipeline := device.Create();
      pipelines := pipelines[name := pipeline];
      layouts := layouts[name := layout];
      configs := configs[name := config];
      device.Destroy(vertexShader);
      device.Destroy(fragmentShader);
    }

    /** createPipelines: the two set layouts, then the base and the sphere pipeline. */
    method CreatePipelines(extent: Extent)
      requires device.Valid()
      requires pipelines == map[] && layouts == map[] && setLayouts == map[] && configs == map[]
      modifies this, device
      ensures Valid() && device.Valid() && this.extent == extent
      ensures Owned() !! old(device.live)
      ensures device.live == old(device.live) + Owned()
    {
      setLayouts := setLayouts["global" := GLOBAL_LAYOUT];
      setLayouts := setLayouts["material" := MATERIAL_LAYOUT];
      this.extent := extent;
      CreatePipeline("base", BaseConfig(extent));
      ghost var afterBase := device.live;
      CreatePipeline("sphere", SphereConfig(extent, setLayouts["global"], setLayouts["material"]));
      assert pipelines.Values == {pipelines["base"], pipelines["sphere"]} by {
        assert pipelines.Keys == {"base", "sphere"};
      }
      assert layouts.Values == {layouts["base"], layouts["sphere"]} by {
        assert layouts.Keys == {"base", "sphere"};
      }
    }

    /**
     * recreate: destroy every pipeline and layout, empty all three maps,
     * and build everything again for the new extent.  Nothing is promised
     * about the new handles differing from the destroyed ones.
     */
    method Recreate(extent: Extent)
      requires Valid() && device.Valid()
      modifies this, device
      ensures Valid() && device.Valid() && this.extent == extent
      ensures pipelines.Keys == old(pipelines).Keys && layouts.Keys == old(layouts).Keys
      ensures setLayouts.Keys == old(setLayouts).Keys
      ensures Owned() !! (old(device.live) - old(Owned()))
      ensures device.live == old(device.live) - old(Owned()) + Owned()
    {
      device.DestroyAll(pipelines.Values);
      pipelines := map[];
      device.DestroyAll(layouts.Values);
      layouts := map[];
      setLayouts := map[];
      configs := map[];
      CreatePipelines(extent);
    }

    /** The destructor: destroy every pipeline and layout, drop the set layouts. */
    method Destroy()
      requires Valid() && device.Valid()
      modifies this`setLayouts, device
      ensures device.Valid()
      ensures setLayouts == map[]
      ensures device.live == old(device.live) - Owned()
    {
      device.DestroyAll(pipelines.Values);
      device.DestroyAll(layouts.Values);
      setLayouts := map[];
    }
  }
}

=== FILE: recording.dfy ===
/**
 * BasicCommandBuffers::recordCommands: sort a copy of the scene list by
 * sort key, then walk it inside one render pass, binding a pipeline or a
 * material set only when it differs from the last one bound, pushing the
 * transform of every meshed object and issuing one draw per object.
 */
module Recording {
  import opened Vulkan
  import opened Scene
  import opened Pipelines

  /** The vkCmd* calls recordCommands makes, with the arguments that vary. */
  datatype Command =
    | BeginRenderPass(framebuffer: nat)
    | BindPipeline(pipeline: Handle)
    | BindDescriptorSet(layout: Handle, firstSet: nat, descriptorSet: Handle)
    | PushConstants(layout: Handle, stage: ShaderStage, offset: nat, size: nat, transform: Mat4)
    | BindVertexBuffer(buffer: Handle)
    | BindIndexBuffer(buffer: Handle)
    | DrawIndexed(indexCount: nat)
    | Draw(vertexCount: nat)
    | EndRenderPass

  /** The vertex count of the mesh-less draw (a full-screen triangle). */
  const FULL_SCREEN_VERTICES: nat := 3

  /** The set index of the camera set and of a material's set. */
  const GLOBAL_SET: nat := 0
  const MATERIAL_SET: nat := 1

  /** The kinds of command counted below. */
  datatype Kind = IsDraw | IsPipelineBind | IsGlobalBind | IsMaterialBind | IsPush

  predicate Of(c: Command, kind: Kind) {
    match kind
    case IsDraw => c.DrawIndexed? || c.Draw?
    case IsPipelineBind => c.BindPipeline?
    case IsGlobalBind => c.BindDescriptorSet? && c.firstSet == GLOBAL_SET
    case IsMaterialBind => c.BindDescriptorSet? && c.firstSet == MATERIAL_SET
    case IsPush => c.PushConstants?
  }

  /** The commands of cmds of the given kind, in order. */
  function Filter(cmds: seq<Command>, p: Kind): (r: seq<Command>)
    ensures |r| <= |cmds|
  {
    if cmds == [] then []
    else Filter(cmds[..|cmds| - 1], p) + (if Of(cmds[|cmds| - 1], p) then [cmds[|cmds| - 1]] else [])
  }

  lemma {:induction false} FilterConcat(a: seq<Command>, b: seq<Command>, p: Kind)
    ensures Filter(a + b, p) == Filter(a, p) + Filter(b, p)
    decreases |b|
  {
    if b == [] {
      assert a + b == a;
    } else {
      var init := b[..|b| - 1];
      assert (a + b)[..|a + b| - 1] == a + init;
      FilterConcat(a, init, p);
    }
  }

  lemma FilterFour(a: seq<Command>, b: seq<Command>, c: seq<Command>, d: seq<Command>, p: Kind)
    ensures Filter(a + b + c + d, p) == Filter(a, p) + Filter(b, p) + Filter(c, p) + Filter(d, p)
  {
    FilterConcat(a + b + c, d, p);
    FilterConcat(a + b, c, p);
    FilterConcat(a, b, p);
  }

  /** Commands of other kinds around m leave its filtered commands as they are. */
  lemma FilterFrame(x: Command, m: seq<Command>, y: Command, p: Kind)
    requires !Of(x, p) && !Of(y, p)
    ensures Filter([x] + m + [y], p) == Filter(m, p)
  {
    FilterConcat([x] + m, [y], p);
    FilterConcat([x], m, p);
    FilterOne(x, p);
    FilterOne(y, p);
    assert [] + Filter(m, p) + [] == Filter(m, p);
  }

  lemma FilterOne(x: Command, p: Kind)
    ensures Filter([x], p) == if Of(x, p) then [x] else []
  {
    assert [x][..0] == [];
  }

  lemma FilterTwo(x: Command, y: Command, p: Kind)
    ensures Filter([x, y], p) == Filter([x], p) + Filter([y], p)
  {
    FilterConcat([x], [y], p);
    assert [x] + [y] == [x, y];
  }

  lemma FilterThree(x: Command, y: Command, z: Command, p: Kind)
    ensures Filter([x, y, z], p) == Filter([x], p) + Filter([y], p) + Filter([z], p)
  {
    FilterConcat([x, y], [z], p);
    assert [x, y] + [z] == [x, y, z];
    FilterTwo(x, y, p);
  }

  // ---------------------------------------------------------------------
  // Name lookups.

  /** The name the recorder looks up for an object: its material's pipeline name. */
  function NameOf(o: RenderObject): string {
    o.material.pipelineName
  }

  /** Every object's pipeline name is registered both as a pipeline and as a layout. */
  predicate Resolves(objs: seq<RenderObject>, pipelines: map<string, Handle>, layouts: map<string, Handle>) {
    forall k :: 0 <= k < |objs| ==> NameOf(objs[k]) in pipelines && NameOf(objs[k]) in layouts
  }

  /** getPipeline, then getLayout, for one object: the error the first failing lookup raises. */
  function LookupFailure(o: RenderObject, pipelines: map<string, Handle>, layouts: map<string, Handle>): Option<Error> {
    if NameOf(o) !in pipelines then Some(NotFound(Pipelines, NameOf(o)))
    else if NameOf(o) !in layouts then Some(NotFound(PipelineLayouts, NameOf(o)))
    else None
  }

  /** The error of the first object in the walk whose lookups fail. */
  function WalkFailure(objs: seq<RenderObject>, pipelines: map<string, Handle>, layouts: map<string, Handle>): Option<Error> {
    if objs == [] then None
    else if WalkFailure(objs[..|objs| - 1], pipelines, layouts).Some? then WalkFailure(objs[..|objs| - 1], pipelines, layouts)
    else LookupFailure(objs[|objs| - 1], pipelines, layouts)
  }

  /** An object together with the pipeline and layout its name looked up. */
  datatype Step = Step(obj: RenderObject, pipeline: Handle, layout: Handle)

  function Resolve(objs: seq<RenderObject>, pipelines: map<string, Handle>, layouts: map<string, Handle>): (steps: seq<Step>)
    requires Resolves(objs, pipelines, layouts)
    ensures |steps| == |objs|
    ensures forall k :: 0 <= k < |objs| ==>
      steps[k] == Step(objs[k], pipelines[NameOf(objs[k])], layouts[NameOf(objs[k])])
  {
    seq(|objs|, k requires 0 <= k < |objs| => Step(objs[k], pipelines[NameOf(objs[k])], layouts[NameOf(objs[k])]))
  }

  // ---------------------------------------------------------------------
  // The walk over the sorted objects, as a specification.

  /** lastPipeline after a walk: the pipeline of the last step, VK_NULL_HANDLE before any. */
  function LastPipeline(steps: seq<Step>): Handle {
    if steps == [] then NULL_HANDLE else steps[|steps| - 1].pipeline
  }

  /** lastMaterialSet after a walk: the most recent non-null material set, VK_NULL_HANDLE before any. */
  function LastMaterialSet(steps: seq<Step>): Handle {
    if steps == [] then NULL_HANDLE
    else if steps[|steps| - 1].obj.material.descriptorSet != NULL_HANDLE then steps[|steps| - 1].obj.material.descriptorSet
    else LastMaterialSet(steps[..|steps| - 1])
  }

  /** The draw an object gets: an indexed draw of its mesh, or a three-vertex draw without one. */
  function DrawOf(o: RenderObject): Command {
    if o.mesh.Some? then DrawIndexed(o.mesh.value.indexCount) else Draw(FULL_SCREEN_VERTICES)
  }

  /** A pipeline change: bind the pipeline, and the camera set again with the new layout. */
  function PipelinePart(s: Step, camera: Handle, lastPipeline: Handle): seq<Command> {
    if s.pipeline != lastPipeline
    then [BindPipeline(s.pipeline)] + (if camera != NULL_HANDLE then [BindDescriptorSet(s.layout, GLOBAL_SET, camera)] else [])
    else []
  }

  /** A new non-null material set: bind it at set 1. */
  function MaterialPart(s: Step, lastMaterialSet: Handle): seq<Command> {
    var materialSet := s.obj.material.descriptorSet;
    if materialSet != lastMaterialSet && materialSet != NULL_HANDLE then [BindDescriptorSet(s.layout, MATERIAL_SET, materialSet)] else []
  }

  /** A meshed object's transform, as a 64-byte vertex-stage push constant at offset 0. */
  function PushPart(s: Step): seq<Command> {
    if s.obj.mesh.Some? then [PushConstants(s.layout, VertexStage, 0, MAT4_SIZE, s.obj.transform)] else []
  }

  /** The geometry binds and the draw. */
  function DrawPart(s: Step): seq<Command> {
    if s.obj.mesh.Some?
    then [BindVertexBuffer(s.obj.mesh.value.vertexBuffer), BindIndexBuffer(s.obj.mesh.value.indexBuffer), DrawOf(s.obj)]
    else [DrawOf(s.obj)]
  }

  /** The commands one loop iteration appends. */
  function StepCommands(s: Step, camera: Handle, lastPipeline: Handle, lastMaterialSet: Handle): seq<Command> {
    PipelinePart(s, camera, lastPipeline) + MaterialPart(s, lastMaterialSet) + PushPart(s) + DrawPart(s)
  }

  /** The commands the loop appends for a walk. */
  function Walk(steps: seq<Step>, camera: Handle): seq<Command> {
    if steps == [] then []
    else
      var init := steps[..|steps| - 1];
      Walk(init, camera) + StepCommands(steps[|steps| - 1], camera, LastPipeline(init), LastMaterialSet(init))
  }

  /** Walking one more step appends that step's commands and moves the remembered handles on. */
  lemma WalkAppend(steps: seq<Step>, s: Step, camera: Handle)
    ensures Walk(steps + [s], camera) == Walk(steps, camera) + StepCommands(s, camera, LastPipeline(steps), LastMaterialSet(steps))
    ensures LastPipeline(steps + [s]) == s.pipeline
    ensures LastMaterialSet(steps + [s])
         == if s.obj.material.descriptorSet != NULL_HANDLE then s.obj.material.descriptorSet else LastMaterialSet(steps)
  {
    assert (steps + [s])[..|steps + [s]| - 1] == steps;
  }

  /** The camera set bound once before the loop, with the first object's layout. */
  function Prologue(steps: seq<Step>, camera: Handle): seq<Command> {
    if camera != NULL_HANDLE && steps != [] then [BindDescriptorSet(steps[0].layout, GLOBAL_SET, camera)] else []
  }

  /**
   * What recording the already sorted list objs into the command buffer of
   * framebuffer `image` yields: the commands, or the first exception.
   * `began` and `ended` are what vkBeginCommandBuffer and
   * vkEndCommandBuffer report.
   */
  function Record(objs: seq<RenderObject>, pipelines: map<string, Handle>, layouts: map<string, Handle>,
                  camera: Handle, image: nat, began: bool, ended: bool): (r: Result<seq<Command>>)
    ensures r.Ok? ==> |r.value| >= 2 && r.value[0] == BeginRenderPass(image) && r.value[|r.value| - 1] == EndRenderPass
  {
    if !began then Err(BeginRecordingFailed)
    else if camera != NULL_HANDLE && objs != [] && NameOf(objs[0]) !in layouts then Err(NotFound(PipelineLayouts, NameOf(objs[0])))
    else if WalkFailure(objs, pipelines, layouts).Some? then Err(WalkFailure(objs, pipelines, layouts).value)
    else if !ended then Err(EndRecordingFailed)
    else
      WalkFailureNone(objs, pipelines, layouts);
      var steps := Resolve(objs, pipelines, layouts);
      Ok([BeginRenderPass(image)] + Prologue(steps, camera) + Walk(steps, camera) + [EndRenderPass])
  }

  // ---------------------------------------------------------------------
  // Lookup failures.

  /** No lookup fails exactly when every name resolves. */
  lemma {:induction false} WalkFailureNone(objs: seq<RenderObject>, pipelines: map<string, Handle>, layouts: map<string, Handle>)
    ensures WalkFailure(objs, pipelines, layouts).None? <==> Resolves(objs, pipelines, layouts)
    decreases |objs|
  {
    if objs != [] {
      var init := objs[..|objs| - 1];
      WalkFailureNone(init, pipelines, layouts);
      assert forall k :: 0 <= k < |init| ==> init[k] == objs[k];
    }
  }

  /** A failure in a prefix is the failure of the whole walk. */
  lemma {:induction false} WalkFailurePrefix(objs: seq<RenderObject>, n: nat, pipelines: map<string, Handle>, layouts: map<string, Handle>)
    requires n <= |objs|
    requires WalkFailure(objs[..n], pipelines, layouts).Some?
    ensures WalkFailure(objs, pipelines, layouts) == WalkFailure(objs[..n], pipelines, layouts)
    decreases |objs| - n
  {
    if n < |objs| {
      var init := objs[..|objs| - 1];
      assert init[..n] == objs[..n];
      WalkFailurePrefix(init, n, pipelines, layouts);
    } else {
      assert objs[..n] == objs;
    }
  }

  /** The failure of a walk names one of its objects. */
  lemma {:induction false} FailingObject(objs: seq<RenderObject>, pipelines: map<string, Handle>, layouts: map<string, Handle>)
    returns (k: nat)
    requires WalkFailure(objs, pipelines, layouts).Some?
    ensures k < |objs|
    ensures WalkFailure(objs, pipelines, layouts).value.NotFound?
    ensures WalkFailure(objs, pipelines, layouts).value.name == NameOf(objs[k])
    decreases |objs|
  {
    var init := objs[..|objs| - 1];
    if WalkFailure(init, pipelines, layouts).Some? {
      k := FailingObject(init, pipelines, layouts);
      assert init[k] == objs[k];
    } else {
      k := |objs| - 1;
    }
  }

  /** When the objects before k resolve and object k does not, the walk fails with object k's lookup error. */
  lemma FirstFailure(objs: seq<RenderObject>, k: nat, pipelines: map<string, Handle>, layouts: map<string, Handle>)
    requires k < |objs|
    requires forall j :: 0 <= j < k ==> NameOf(objs[j]) in pipelines && NameOf(objs[j]) in layouts
    requires LookupFailure(objs[k], pipelines, layouts).Some?
    ensures WalkFailure(objs, pipelines, layouts) == LookupFailure(objs[k], pipelines, layouts)
  {
    var prefix := objs[..k + 1];
    assert prefix[..|prefix| - 1] == objs[..k];
    WalkFailureNone(objs[..k], pipelines, layouts);
    WalkFailurePrefix(objs, k + 1, pipelines, layouts);
  }

  /**
   * Recording succeeds exactly when both Vulkan calls succeed and every
   * pipeline name is registered; an unregistered name fails it with a
   * lookup error naming one of the objects' pipeline names.
   */
  lemma RecordSucceeds(objs: seq<RenderObject>, pipelines: map<string, Handle>, layouts: map<string, Handle>,
                       camera: Handle, image: nat, began: bool, ended: bool)
    ensures Record(objs, pipelines, layouts, camera, image, began, ended).Ok?
        <==> began && ended && Resolves(objs, pipelines, layouts)
    ensures began && !Resolves(objs, pipelines, layouts) ==>
      var r := Record(objs, pipelines, layouts, camera, image, began, ended);
      r.Err? && r.error.NotFound? && exists k :: 0 <= k < |objs| && r.error.name == NameOf(objs[k])
  {
    WalkFailureNone(objs, pipelines, layouts);
    if began && !Resolves(objs, pipelines, layouts) {
      if camera != NULL_HANDLE && objs != [] && NameOf(objs[0]) !in layouts {
      } else {
        var k := FailingObject(objs, pipelines, layouts);
      }
    }
  }

  /** An empty scene records only the render pass: no binds and no draws. */
  lemma RecordEmpty(pipelines: map<string, Handle>, layouts: map<string, Handle>, camera: Handle, image: nat)
    ensures Record([], pipelines, layouts, camera, image, true, true) == Ok([BeginRenderPass(image), EndRenderPass])
  {
    var steps := Resolve([], pipelines, layouts);
    assert steps == [];
    assert Walk(steps, camera) == [];
    assert Prologue(steps, camera) == [];
    assert [BeginRenderPass(image)] + [] + [] + [EndRenderPass] == [BeginRenderPass(image), EndRenderPass];
  }

  // ---------------------------------------------------------------------
  // What the walk emits, kind by kind.

  /** One draw per step, in order. */
  function Draws(steps: seq<Step>): (r: seq<Command>)
    ensures |r| == |steps|
    ensures forall k :: 0 <= k < |steps| ==> r[k] == DrawOf(steps[k].obj)
  {
    if steps == [] then [] else Draws(steps[..|steps| - 1]) + [DrawOf(steps[|steps| - 1].obj)]
  }

  /** The push constants of the meshed steps, in order. */
  function Pushes(steps: seq<Step>): seq<Command> {
    if steps == [] then [] else Pushes(steps[..|steps| - 1]) + PushPart(steps[|steps| - 1])
  }

  /** The number of meshed steps. */
  function Meshed(steps: seq<Step>): nat {
    if steps == [] then 0 else Meshed(steps[..|steps| - 1]) + (if steps[|steps| - 1].obj.mesh.Some? then 1 else 0)
  }

  /** The pipeline handle of each step. */
  function PipelineHandles(steps: seq<Step>): (hs: seq<Handle>)
    ensures |hs| == |steps|
    ensures forall k :: 0 <= k < |steps| ==> hs[k] == steps[k].pipeline
  {
    seq(|steps|, k requires 0 <= k < |steps| => steps[k].pipeline)
  }

  /** The number of positions whose handle differs from the one before it (from VK_NULL_HANDLE at the start). */
  function Changes(hs: seq<Handle>): nat {
    if hs == [] then 0
    else Changes(hs[..|hs| - 1])
         + (if hs[|hs| - 1] != (if |hs| == 1 then NULL_HANDLE else hs[|hs| - 2]) then 1 else 0)
  }

  /** The number of steps whose material set is non-null and differs from the last non-null set before it. */
  function NewMaterialSets(steps: seq<Step>): nat {
    if steps == [] then 0
    else
      var materialSet := steps[|steps| - 1].obj.material.descriptorSet;
      NewMaterialSets(steps[..|steps| - 1])
      + (if materialSet != NULL_HANDLE && materialSet != LastMaterialSet(steps[..|steps| - 1]) then 1 else 0)
  }

  lemma StepFilter(s: Step, camera: Handle, lastPipeline: Handle, lastMaterialSet: Handle, p: Kind)
    ensures Filter(StepCommands(s, camera, lastPipeline, lastMaterialSet), p)
         == Filter(PipelinePart(s, camera, lastPipeline), p) + Filter(MaterialPart(s, lastMaterialSet), p)
            + Filter(PushPart(s), p) + Filter(DrawPart(s), p)
  {
    FilterFour(PipelinePart(s, camera, lastPipeline), MaterialPart(s, lastMaterialSet), PushPart(s), DrawPart(s), p);
  }

  lemma PipelinePartFilter(s: Step, camera: Handle, lastPipeline: Handle, p: Kind)
    ensures Filter(PipelinePart(s, camera, lastPipeline), p)
         == if s.pipeline == lastPipeline then []
            else (if Of(BindPipeline(s.pipeline), p) then [BindPipeline(s.pipeline)] else [])
                 + (if camera != NULL_HANDLE && Of(BindDescriptorSet(s.layout, GLOBAL_SET, camera), p)
                    then [BindDescriptorSet(s.layout, GLOBAL_SET, camera)] else [])
  {
    assert Filter([], p) == [];
    FilterOne(BindPipeline(s.pipeline), p);
    if s.pipeline != lastPipeline && camera != NULL_HANDLE {
      FilterOne(BindDescriptorSet(s.layout, GLOBAL_SET, camera), p);
      FilterTwo(BindPipeline(s.pipeline), BindDescriptorSet(s.layout, GLOBAL_SET, camera), p);
      assert [BindPipeline(s.pipeline)] + [BindDescriptorSet(s.layout, GLOBAL_SET, camera)]
          == [BindPipeline(s.pipeline), BindDescriptorSet(s.layout, GLOBAL_SET, camera)];
    } else if s.pipeline != lastPipeline {
      assert PipelinePart(s, camera, lastPipeline) == [BindPipeline(s.pipeline)];
    }
  }

  lemma MaterialPartFilter(s: Step, lastMaterialSet: Handle, p: Kind)
    ensures Filter(MaterialPart(s, lastMaterialSet), p)
         == if s.obj.material.descriptorSet != lastMaterialSet && s.obj.material.descriptorSet != NULL_HANDLE
               && Of(BindDescriptorSet(s.layout, MATERIAL_SET, s.obj.material.descriptorSet), p)
            then MaterialPart(s, lastMaterialSet) else []
  {
    assert Filter([], p) == [];
    FilterOne(BindDescriptorSet(s.layout, MATERIAL_SET, s.obj.material.descriptorSet), p);
  }

  lemma PushPartFilter(s: Step, p: Kind)
    ensures Filter(PushPart(s), p) == if Of(PushConstants(s.layout, VertexStage, 0, MAT4_SIZE, s.obj.transform), p) then PushPart(s) else []
  {
    assert Filter([], p) == [];
    FilterOne(PushConstants(s.layout, VertexStage, 0, MAT4_SIZE, s.obj.transform), p);
  }

  lemma DrawPartFilter(s: Step, p: Kind)
    ensures Filter(DrawPart(s), p)
         == (if s.obj.mesh.Some? && Of(BindVertexBuffer(s.obj.mesh.value.vertexBuffer), p) then [BindVertexBuffer(s.obj.mesh.value.vertexBuffer)] else [])
            + (if s.obj.mesh.Some? && Of(BindIndexBuffer(s.obj.mesh.value.indexBuffer), p) then [BindIndexBuffer(s.obj.mesh.value.indexBuffer)] else [])
            + (if Of(DrawOf(s.obj), p) then [DrawOf(s.obj)] else [])
  {
    FilterOne(DrawOf(s.obj), p);
    if s.obj.mesh.Some? {
      FilterOne(BindVertexBuffer(s.obj.mesh.value.vertexBuffer), p);
      FilterOne(BindIndexBuffer(s.obj.mesh.value.indexBuffer), p);
      FilterThree(BindVertexBuffer(s.obj.mesh.value.vertexBuffer), BindIndexBuffer(s.obj.mesh.value.indexBuffer), DrawOf(s.obj), p);
    }
  }

  /** One more step appends the filtered commands of its iteration. */
  lemma WalkStep(steps: seq<Step>, camera: Handle, p: Kind)
    requires steps != []
    ensures var init := steps[..|steps| - 1];
            Filter(Walk(steps, camera), p)
            == Filter(Walk(init, camera), p)
               + Filter(StepCommands(steps[|steps| - 1], camera, LastPipeline(init), LastMaterialSet(init)), p)
  {
    var init := steps[..|steps| - 1];
    FilterConcat(Walk(init, camera), StepCommands(steps[|steps| - 1], camera, LastPipeline(init), LastMaterialSet(init)), p);
  }

  lemma StepDraws(s: Step, camera: Handle, lastPipeline: Handle, lastMaterialSet: Handle)
    ensures Filter(StepCommands(s, camera, lastPipeline, lastMaterialSet), IsDraw) == [DrawOf(s.obj)]
  {
    StepFilter(s, camera, lastPipeline, lastMaterialSet, IsDraw);
    assert Filter(PipelinePart(s, camera, lastPipeline), IsDraw) == [] by {
      PipelinePartFilter(s, camera, lastPipeline, IsDraw);
    }
    assert Filter(MaterialPart(s, lastMaterialSet), IsDraw) == [] by {
      MaterialPartFilter(s, lastMaterialSet, IsDraw);
    }
    assert Filter(PushPart(s), IsDraw) == [] by {
      PushPartFilter(s, IsDraw);
    }
    assert Filter(DrawPart(s), IsDraw) == [DrawOf(s.obj)] by {
      DrawPartFilter(s, IsDraw);
    }
  }

  lemma StepPipelineBinds(s: Step, camera: Handle, lastPipeline: Handle, lastMaterialSet: Handle)
    ensures |Filter(StepCommands(s, camera, lastPipeline, lastMaterialSet), IsPipelineBind)| == if s.pipeline != lastPipeline then 1 else 0
  {
    StepFilter(s, camera, lastPipeline, lastMaterialSet, IsPipelineBind);
    assert Filter(PipelinePart(s, camera, lastPipeline), IsPipelineBind) == if s.pipeline != lastPipeline then [BindPipeline(s.pipeline)] else [] by {
      PipelinePartFilter(s, camera, lastPipeline, IsPipelineBind);
    }
    assert Filter(MaterialPart(s, lastMaterialSet), IsPipelineBind) == [] by {
      MaterialPartFilter(s, lastMaterialSet, IsPipelineBind);
    }
    assert Filter(PushPart(s), IsPipelineBind) == [] by {
      PushPartFilter(s, IsPipelineBind);
    }
    assert Filter(DrawPart(s), IsPipelineBind) == [] by {
      DrawPartFilter(s, IsPipelineBind);
    }
  }

  lemma StepGlobalBinds(s: Step, camera: Handle, lastPipeline: Handle, lastMaterialSet: Handle)
    ensures |Filter(StepCommands(s, camera, lastPipeline, lastMaterialSet), IsGlobalBind)|
         == if s.pipeline != lastPipeline && camera != NULL_HANDLE then 1 else 0
  {
    StepFilter(s, camera, lastPipeline, lastMaterialSet, IsGlobalBind);
    assert Filter(PipelinePart(s, camera, lastPipeline), IsGlobalBind) == if s.pipeline != lastPipeline && camera != NULL_HANDLE then [BindDescriptorSet(s.layout, GLOBAL_SET, camera)] else [] by {
      PipelinePartFilter(s, camera, lastPipeline, IsGlobalBind);
    }
    assert Filter(MaterialPart(s, lastMaterialSet), IsGlobalBind) == [] by {
      MaterialPartFilter(s, lastMaterialSet, IsGlobalBind);
    }
    assert Filter(PushPart(s), IsGlobalBind) == [] by {
      PushPartFilter(s, IsGlobalBind);
    }
    assert Filter(DrawPart(s), IsGlobalBind) == [] by {
      DrawPartFilter(s, IsGlobalBind);
    }
  }

  lemma StepMaterialBinds(s: Step, camera: Handle, lastPipeline: Handle, lastMaterialSet: Handle)
    ensures |Filter(StepCommands(s, camera, lastPipeline, lastMaterialSet), IsMaterialBind)|
         == if s.obj.material.descriptorSet != NULL_HANDLE && s.obj.material.descriptorSet != lastMaterialSet then 1 else 0
  {
    StepFilter(s, camera, lastPipeline, lastMaterialSet, IsMaterialBind);
    assert Filter(PipelinePart(s, camera, lastPipeline), IsMaterialBind) == [] by {
      PipelinePartFilter(s, camera, lastPipeline, IsMaterialBind);
    }
    assert Filter(MaterialPart(s, lastMaterialSet), IsMaterialBind) == MaterialPart(s, lastMaterialSet) by {
      MaterialPartFilter(s, lastMaterialSet, IsMaterialBind);
    }
    assert Filter(PushPart(s), IsMaterialBind) == [] by {
      PushPartFilter(s, IsMaterialBind);
    }
    assert Filter(DrawPart(s), IsMaterialBind) == [] by {
      DrawPartFilter(s, IsMaterialBind);
    }
    assert |MaterialPart(s, lastMaterialSet)| <= 1;
  }

  lemma StepPushes(s: Step, camera: Handle, lastPipeline: Handle, lastMaterialSet: Handle)
    ensures Filter(StepCommands(s, camera, lastPipeline, lastMaterialSet), IsPush) == PushPart(s)
  {
    StepFilter(s, camera, lastPipeline, lastMaterialSet, IsPush);
    assert Filter(PipelinePart(s, camera, lastPipeline), IsPush) == [] by {
      PipelinePartFilter(s, camera, lastPipeline, IsPush);
    }
    assert Filter(MaterialPart(s, lastMaterialSet), IsPush) == [] by {
      MaterialPartFilter(s, lastMaterialSet, IsPush);
    }
    assert Filter(PushPart(s), IsPush) == PushPart(s) by {
      PushPartFilter(s, IsPush);
    }
    assert Filter(DrawPart(s), IsPush) == [] by {
      DrawPartFilter(s, IsPush);
    }
  }

  /** Exactly one draw per object, in walk order. */
  lemma {:induction false} WalkDraws(steps: seq<Step>, camera: Handle)
    ensures Filter(Walk(steps, camera), IsDraw) == Draws(steps)
    decreases |steps|
  {
    if steps != [] {
      var init := steps[..|steps| - 1];
      WalkStep(steps, camera, IsDraw);
      WalkDraws(init, camera);
      StepDraws(steps[|steps| - 1], camera, LastPipeline(init), LastMaterialSet(init));
    }
  }

  /** A pipeline is bound at each change of pipeline handle along the walk, starting from VK_NULL_HANDLE. */
  lemma {:induction false} WalkPipelineBinds(steps: seq<Step>, camera: Handle)
    ensures |Filter(Walk(steps, camera), IsPipelineBind)| == Changes(PipelineHandles(steps))
    decreases |steps|
  {
    if steps != [] {
      var init := steps[..|steps| - 1];
      WalkStep(steps, camera, IsPipelineBind);
      WalkPipelineBinds(init, camera);
      StepPipelineBinds(steps[|steps| - 1], camera, LastPipeline(init), LastMaterialSet(init));
      ChangesStep(steps);
    }
  }

  /** One more step adds a change exactly when its pipeline differs from the last one. */
  lemma ChangesStep(steps: seq<Step>)
    requires steps != []
    ensures Changes(PipelineHandles(steps))
         == Changes(PipelineHandles(steps[..|steps| - 1]))
            + (if steps[|steps| - 1].pipeline != LastPipeline(steps[..|steps| - 1]) then 1 else 0)
  {
    var hs := PipelineHandles(steps);
    assert hs[..|hs| - 1] == PipelineHandles(steps[..|steps| - 1]);
  }

  /** With a camera set, it is bound again at every pipeline change; without one, never. */
  lemma {:induction false} WalkGlobalBinds(steps: seq<Step>, camera: Handle)
    ensures |Filter(Walk(steps, camera), IsGlobalBind)| == if camera != NULL_HANDLE then Changes(PipelineHandles(steps)) else 0
    decreases |steps|
  {
    if steps != [] {
      var init := steps[..|steps| - 1];
      WalkStep(steps, camera, IsGlobalBind);
      WalkGlobalBinds(init, camera);
      StepGlobalBinds(steps[|steps| - 1], camera, LastPipeline(init), LastMaterialSet(init));
      ChangesStep(steps);
    }
  }

  /** A material set is bound, at set 1, for each new non-null set along the walk. */
  lemma {:induction false} WalkMaterialBinds(steps: seq<Step>, camera: Handle)
    ensures |Filter(Walk(steps, camera), IsMaterialBind)| == NewMaterialSets(steps)
    decreases |steps|
  {
    if steps != [] {
      var init := steps[..|steps| - 1];
      WalkStep(steps, camera, IsMaterialBind);
      WalkMaterialBinds(init, camera);
      StepMaterialBinds(steps[|steps| - 1], camera, LastPipeline(init), LastMaterialSet(init));
    }
  }

  /** Exactly the meshed objects push their transform, in walk order. */
  lemma {:induction false} WalkPushes(steps: seq<Step>, camera: Handle)
    ensures Filter(Walk(steps, camera), IsPush) == Pushes(steps)
    decreases |steps|
  {
    if steps != [] {
      var init := steps[..|steps| - 1];
      WalkStep(steps, camera, IsPush);
      WalkPushes(init, camera);
      StepPushes(steps[|steps| - 1], camera, LastPipeline(init), LastMaterialSet(init));
    }
  }

  /** There are as many pushes as meshed objects, each the 64-byte vertex-stage range at offset 0. */
  lemma {:induction false} PushesCount(steps: seq<Step>)
    ensures |Pushes(steps)| == Meshed(steps)
    ensures forall k :: 0 <= k < |Pushes(steps)| ==>
      Pushes(steps)[k].PushConstants? && Pushes(steps)[k].stage == VertexStage
      && Pushes(steps)[k].offset == 0 && Pushes(steps)[k].size == MAT4_SIZE
    decreases |steps|
  {
    if steps != [] {
      PushesCount(steps[..|steps| - 1]);
    }
  }

  // ---------------------------------------------------------------------
  // The whole recording.

  /** A recording whose names all resolve: the render pass around the prologue and the walk. */
  lemma RecordValue(objs: seq<RenderObject>, pipelines: map<string, Handle>, layouts: map<string, Handle>,
                    camera: Handle, image: nat)
    requires Resolves(objs, pipelines, layouts)
    ensures var steps := Resolve(objs, pipelines, layouts);
      Record(objs, pipelines, layouts, camera, image, true, true)
      == Ok([BeginRenderPass(image)] + (Prologue(steps, camera) + Walk(steps, camera)) + [EndRenderPass])
  {
    WalkFailureNone(objs, pipelines, layouts);
    var steps := Resolve(objs, pipelines, layouts);
    assert [BeginRenderPass(image)] + Prologue(steps, camera) + Walk(steps, camera)
        == [BeginRenderPass(image)] + (Prologue(steps, camera) + Walk(steps, camera));
  }

  lemma RecordFilter(objs: seq<RenderObject>, pipelines: map<string, Handle>, layouts: map<string, Handle>,
                     camera: Handle, image: nat, p: Kind)
    requires Resolves(objs, pipelines, layouts)
    ensures Record(objs, pipelines, layouts, camera, image, true, true).Ok?
    ensures var steps := Resolve(objs, pipelines, layouts);
      Filter(Record(objs, pipelines, layouts, camera, image, true, true).value, p)
      == Filter(Prologue(steps, camera), p) + Filter(Walk(steps, camera), p)
  {
    var steps := Resolve(objs, pipelines, layouts);
    RecordValue(objs, pipelines, layouts, camera, image);
    FilterFrame(BeginRenderPass(image), Prologue(steps, camera) + Walk(steps, camera), EndRenderPass, p);
    FilterConcat(Prologue(steps, camera), Walk(steps, camera), p);
  }

  /** A successful recording draws every object once, in the walk's order. */
  lemma RecordDraws(objs: seq<RenderObject>, pipelines: map<string, Handle>, layouts: map<string, Handle>,
                    camera: Handle, image: nat)
    requires Resolves(objs, pipelines, layouts)
    ensures Record(objs, pipelines, layouts, camera, image, true, true).Ok?
    ensures var cmds := Record(objs, pipelines, layouts, camera, image, true, true).value;
      && |Filter(cmds, IsDraw)| == |objs|
      && forall k :: 0 <= k < |objs| ==> Filter(cmds, IsDraw)[k] == DrawOf(objs[k])
  {
    var steps := Resolve(objs, pipelines, layouts);
    RecordFilter(objs, pipelines, layouts, camera, image, IsDraw);
    WalkDraws(steps, camera);
    PrologueFilter(steps, camera, IsDraw);
    var cmds := Record(objs, pipelines, layouts, camera, image, true, true).value;
    assert Filter(cmds, IsDraw) == Draws(steps);
    forall k | 0 <= k < |objs|
      ensures Filter(cmds, IsDraw)[k] == DrawOf(objs[k])
    {
      assert steps[k].obj == objs[k];
    }
  }

  /** The prologue holds at most the one camera bind. */
  lemma PrologueFilter(steps: seq<Step>, camera: Handle, p: Kind)
    ensures Filter(Prologue(steps, camera), p) == if p == IsGlobalBind then Prologue(steps, camera) else []
  {
    assert Filter([], p) == [];
    if camera != NULL_HANDLE && steps != [] {
      FilterOne(BindDescriptorSet(steps[0].layout, GLOBAL_SET, camera), p);
    }
  }

  /**
   * Pipeline binds number the changes of pipeline handle along the walk;
   * the camera set is bound before the loop and at each of those changes
   * when it is non-null and there are objects, never otherwise; material
   * sets are bound once per new non-null set.
   */
  lemma RecordBinds(objs: seq<RenderObject>, pipelines: map<string, Handle>, layouts: map<string, Handle>,
                    camera: Handle, image: nat)
    requires Resolves(objs, pipelines, layouts)
    ensures Record(objs, pipelines, layouts, camera, image, true, true).Ok?
    ensures var cmds := Record(objs, pipelines, layouts, camera, image, true, true).value;
            var steps := Resolve(objs, pipelines, layouts);
      && |Filter(cmds, IsPipelineBind)| == Changes(PipelineHandles(steps))
      && |Filter(cmds, IsGlobalBind)|
         == (if camera != NULL_HANDLE && objs != [] then 1 + Changes(PipelineHandles(steps)) else 0)
      && |Filter(cmds, IsMaterialBind)| == NewMaterialSets(steps)
  {
    var steps := Resolve(objs, pipelines, layouts);
    RecordValue(objs, pipelines, layouts, camera, image);
    var cmds := Record(objs, pipelines, layouts, camera, image, true, true).value;
    assert |Filter(cmds, IsPipelineBind)| == Changes(PipelineHandles(steps)) by {
      RecordFilter(objs, pipelines, layouts, camera, image, IsPipelineBind);
      WalkPipelineBinds(steps, camera);
      PrologueFilter(steps, camera, IsPipelineBind);
    }
    assert |Filter(cmds, IsGlobalBind)|
        == (if camera != NULL_HANDLE && objs != [] then 1 + Changes(PipelineHandles(steps)) else 0) by {
      RecordFilter(objs, pipelines, layouts, camera, image, IsGlobalBind);
      WalkGlobalBinds(steps, camera);
      PrologueFilter(steps, camera, IsGlobalBind);
    }
    assert |Filter(cmds, IsMaterialBind)| == NewMaterialSets(steps) by {
      RecordFilter(objs, pipelines, layouts, camera, image, IsMaterialBind);
      WalkMaterialBinds(steps, camera);
      PrologueFilter(steps, camera, IsMaterialBind);
    }
  }

  /** Only meshed objects push constants: their transform, in walk order. */
  lemma RecordPushes(objs: seq<RenderObject>, pipelines: map<string, Handle>, layouts: map<string, Handle>,
                     camera: Handle, image: nat)
    requires Resolves(objs, pipelines, layouts)
    ensures Record(objs, pipelines, layouts, camera, image, true, true).Ok?
    ensures var cmds := Record(objs, pipelines, layouts, camera, image, true, true).value;
            var steps := Resolve(objs, pipelines, layouts);
      Filter(cmds, IsPush) == Pushes(steps) && |Filter(cmds, IsPush)| == Meshed(steps)
  {
    var steps := Resolve(objs, pipelines, layouts);
    RecordFilter(objs, pipelines, layouts, camera, image, IsPush);
    WalkPushes(steps, camera);
    PushesCount(steps);
    PrologueFilter(steps, camera, IsPush);
  }

  // ---------------------------------------------------------------------
  // std::sort by sort key.

  /** s is in non-decreasing order of key. */
  predicate SortedBy(s: seq<RenderObject>, key: RenderObject -> nat) {
    forall p, q :: 0 <= p < q < |s| ==> key(s[p]) <= key(s[q])
  }

  /**
   * std::sort with the comparator key(a) < key(b): the result is ordered by
   * key and is a permutation of the input; nothing is promised about the
   * relative order of equal keys.
   */
  method SortBy(a: array<RenderObject>, key: RenderObject -> nat)
    modifies a
    ensures SortedBy(a[..], key)
    ensures multiset(a[..]) == multiset(old(a[..]))
  {
    var i := 0;
    while i < a.Length
      invariant 0 <= i <= a.Length
      invariant SortedBy(a[..i], key)
      invariant multiset(a[..]) == multiset(old(a[..]))
    {
      Insert(a, i, key);
      i := i + 1;
    }
  }

  /** One insertion-sort pass: sink a[i] into the sorted prefix a[..i]. */
  method Insert(a: array<RenderObject>, i: nat, key: RenderObject -> nat)
    requires i < a.Length && SortedBy(a[..i], key)
    modifies a
    ensures SortedBy(a[..i + 1], key)
    ensures multiset(a[..]) == multiset(old(a[..]))
  {
    var j := i;
    while j > 0 && key(a[j - 1]) > key(a[j])
      invariant 0 <= j <= i
      invariant multiset(a[..]) == multiset(old(a[..]))
      invariant forall p, q :: 0 <= p < q <= i && p != j && q != j ==> key(a[p]) <= key(a[q])
      invariant forall q :: j < q <= i ==> key(a[j]) <= key(a[q])
    {
      Swap(a, j - 1, j);
      j := j - 1;
    }
  }

  method Swap(a: array<RenderObject>, i: nat, j: nat)
    requires i < j < a.Length
    modifies a
    ensures a[..] == old(a[..])[i := old(a[j])][j := old(a[i])]
    ensures multiset(a[..]) == multiset(old(a[..]))
  {
    a[i], a[j] := a[j], a[i];
  }

  // ---------------------------------------------------------------------
  // BasicCommandBuffers.

  /** RenderObject::getSortKey as the comparator's key. */
  function KeyOf(r: RenderObject): nat {
    SortKey(r)
  }

  /**
   * The body of recordCommands' loop for one object whose pipeline and
   * layout have been looked up: the commands it appends and the new
   * lastPipeline, lastLayout and lastMaterialSet.
   */
  method Emit(cmds: seq<Command>, obj: RenderObject, pipeline: Handle, layout: Handle, camera: Handle,
              lastPipeline: Handle, lastLayout: Handle, lastMaterialSet: Handle)
    returns (cmds': seq<Command>, lastPipeline': Handle, lastLayout': Handle, lastMaterialSet': Handle)
    ensures cmds' == cmds + StepCommands(Step(obj, pipeline, layout), camera, lastPipeline, lastMaterialSet)
    ensures lastPipeline' == pipeline
    ensures lastMaterialSet' == if obj.material.descriptorSet != NULL_HANDLE then obj.material.descriptorSet else lastMaterialSet
  {
    lastPipeline', lastLayout', lastMaterialSet' := lastPipeline, lastLayout, lastMaterialSet;
    ghost var step := Step(obj, pipeline, layout);
    var pipelineCmds: seq<Command> := [];
    if pipeline != lastPipeline {
      pipelineCmds := [BindPipeline(pipeline)];
      lastPipeline' := pipeline;
      lastLayout' := layout;
      if camera != NULL_HANDLE {
        pipelineCmds := pipelineCmds + [BindDescriptorSet(layout, GLOBAL_SET, camera)];
      }
    }
    assert pipelineCmds == PipelinePart(step, camera, lastPipeline);
    var materialSet := obj.material.descriptorSet;
    var materialCmds: seq<Command> := [];
    if materialSet != lastMaterialSet && materialSet != NULL_HANDLE {
      materialCmds := [BindDescriptorSet(layout, MATERIAL_SET, materialSet)];
      lastMaterialSet' := materialSet;
    }
    var pushCmds: seq<Command> := [];
    var drawCmds: seq<Command>;
    if obj.mesh.Some? {
      pushCmds := [PushConstants(layout, VertexStage, 0, MAT4_SIZE, obj.transform)];
      drawCmds := [BindVertexBuffer(obj.mesh.value.vertexBuffer), BindIndexBuffer(obj.mesh.value.indexBuffer),
                   DrawIndexed(obj.mesh.value.indexCount)];
    } else {
      drawCmds := [Draw(FULL_SCREEN_VERTICES)];
    }
    cmds' := cmds + pipelineCmds + materialCmds + pushCmds + drawCmds;
    AppendFour(cmds, pipelineCmds, materialCmds, pushCmds, drawCmds);
  }

  lemma AppendFour(c: seq<Command>, a: seq<Command>, b: seq<Command>, x: seq<Command>, d: seq<Command>)
    ensures c + a + b + x + d == c + (a + b + x + d)
  {
  }

  /** Whether every name resolves does not depend on the order of the list. */
  lemma ResolvesPermutation(a: seq<RenderObject>, b: seq<RenderObject>, pipelines: map<string, Handle>, layouts: map<string, Handle>)
    requires multiset(a) == multiset(b)
    ensures Resolves(a, pipelines, layouts) <==> Resolves(b, pipelines, layouts)
  {
    forall a, b | multiset(a) == multiset(b) && Resolves(b, pipelines, layouts)
      ensures Resolves(a, pipelines, layouts)
    {
      forall k | 0 <= k < |a|
        ensures NameOf(a[k]) in pipelines && NameOf(a[k]) in layouts
      {
        assert a[k] in multiset(b);
        var j :| 0 <= j < |b| && b[j] == a[k];
      }
    }
  }

  /** The sorted copy recordCommands walks: a copy of the list, sorted by getSortKey. */
  method SortedCopy(objects: seq<RenderObject>) returns (sorted: seq<RenderObject>)
    ensures SortedBy(sorted, KeyOf) && multiset(sorted) == multiset(objects)
  {
    var a := new RenderObject[|objects|](k requires 0 <= k < |objects| => objects[k]);
    assert a[..] == objects;
    SortBy(a, KeyOf);
    sorted := a[..];
  }

  /**
   * recordCommands' loop over the sorted copy: look up each object's
   * pipeline and layout (the first failing lookup throws) and append what
   * Emit appends, starting with no pipeline and no material set bound.
   */
  method WalkSorted(sorted: seq<RenderObject>, registry: GraphicsPipeline, camera: Handle) returns (r: Result<seq<Command>>)
    ensures r.Ok? <==> Resolves(sorted, registry.pipelines, registry.layouts)
    ensures r.Err? ==> WalkFailure(sorted, registry.pipelines, registry.layouts) == Some(r.error)
    ensures r.Ok? ==> Resolves(sorted, registry.pipelines, registry.layouts)
                      && r.value == Walk(Resolve(sorted, registry.pipelines, registry.layouts), camera)
  {
    var cmds := [];
    var lastPipeline, lastLayout, lastMaterialSet := NULL_HANDLE, NULL_HANDLE, NULL_HANDLE;
    ghost var pipelines, layouts := registry.pipelines, registry.layouts;
    ghost var steps: seq<Step> := [];
    var k := 0;
    while k < |sorted|
      invariant 0 <= k <= |sorted|
      invariant Resolves(sorted[..k], pipelines, layouts)
      invariant steps == Resolve(sorted[..k], pipelines, layouts)
      invariant cmds == Walk(steps, camera)
      invariant lastPipeline == LastPipeline(steps) && lastMaterialSet == LastMaterialSet(steps)
    {
      var obj := sorted[k];
      var pipeline := registry.GetPipeline(NameOf(obj));
      var layout := registry.GetLayout(NameOf(obj));
      if pipeline.Err? || layout.Err? {
        PrefixFailure(sorted, k, pipelines, layouts);
        return Err(if pipeline.Err? then pipeline.error else layout.error);
      }
      ghost var step := Step(obj, pipeline.value, layout.value);
      cmds, lastPipeline, lastLayout, lastMaterialSet :=
        Emit(cmds, obj, pipeline.value, layout.value, camera, lastPipeline, lastLayout, lastMaterialSet);
      WalkAppend(steps, step, camera);
      ResolveAppend(sorted, k, pipelines, layouts);
      steps := steps + [step];
      k := k + 1;
    }
    assert sorted[..k] == sorted;
    return Ok(cmds);
  }

  /** Resolving one more object appends its step. */
  lemma ResolveAppend(objs: seq<RenderObject>, k: nat, pipelines: map<string, Handle>, layouts: map<string, Handle>)
    requires k < |objs| && Resolves(objs[..k], pipelines, layouts)
    requires NameOf(objs[k]) in pipelines && NameOf(objs[k]) in layouts
    ensures Resolves(objs[..k + 1], pipelines, layouts)
    ensures Resolve(objs[..k + 1], pipelines, layouts)
         == Resolve(objs[..k], pipelines, layouts)
            + [Step(objs[k], pipelines[NameOf(objs[k])], layouts[NameOf(objs[k])])]
  {
    assert forall j :: 0 <= j < k ==> objs[..k + 1][j] == objs[..k][j];
  }

  /** When the objects before k resolve and object k does not, the walk fails there and not everything resolves. */
  lemma PrefixFailure(objs: seq<RenderObject>, k: nat, pipelines: map<string, Handle>, layouts: map<string, Handle>)
    requires k < |objs| && Resolves(objs[..k], pipelines, layouts)
    requires NameOf(objs[k]) !in pipelines || NameOf(objs[k]) !in layouts
    ensures !Resolves(objs, pipelines, layouts)
    ensures WalkFailure(objs, pipelines, layouts)
         == Some(if NameOf(objs[k]) !in pipelines then NotFound(Pipelines, NameOf(objs[k]))
                 else NotFound(PipelineLayouts, NameOf(objs[k])))
  {
    assert forall j :: 0 <= j < k ==> objs[..k][j] == objs[j];
    FirstFailure(objs, k, pipelines, layouts);
  }

  /**
   * The render pass recordCommands records between vkBeginCommandBuffer
   * and vkEndCommandBuffer: begin the pass, bind the camera set with the
   * first object's layout, walk the sorted objects, end the pass.
   */
  method RecordPass(sorted: seq<RenderObject>, registry: GraphicsPipeline, camera: Handle, imageIndex: nat)
    returns (r: Result<seq<Command>>)
    ensures r == Record(sorted, registry.pipelines, registry.layouts, camera, imageIndex, true, true)
  {
    var cmds := [BeginRenderPass(imageIndex)];
    if camera != NULL_HANDLE && |sorted| > 0 {
      var layout := registry.GetLayout(NameOf(sorted[0]));
      if layout.Err? {
        return Err(layout.error);
      }
      cmds := cmds + [BindDescriptorSet(layout.value, GLOBAL_SET, camera)];
    }
    var walked := WalkSorted(sorted, registry, camera);
    if walked.Err? {
      return Err(walked.error);
    }
    WalkFailureNone(sorted, registry.pipelines, registry.layouts);
    ghost var steps := Resolve(sorted, registry.pipelines, registry.layouts);
    assert cmds == [BeginRenderPass(imageIndex)] + Prologue(steps, camera);
    return Ok(cmds + walked.value + [EndRenderPass]);
  }

  /** A failed vkEndCommandBuffer only matters once the pass itself has been recorded. */
  lemma RecordEnded(objs: seq<RenderObject>, pipelines: map<string, Handle>, layouts: map<string, Handle>,
                    camera: Handle, image: nat, ended: bool)
    ensures var pass := Record(objs, pipelines, layouts, camera, image, true, true);
      Record(objs, pipelines, layouts, camera, image, true, ended) == if pass.Err? || ended then pass else Err(EndRecordingFailed)
  {
  }

  class CommandBuffers {
    /** What the command buffer of each framebuffer holds. */
    var buffers: seq<seq<Command>>

    /** createCommandBuffers: one empty primary command buffer per framebuffer. */
    constructor (framebuffers: nat)
      ensures buffers == seq(framebuffers, _ => [])
    {
      buffers := seq(framebuffers, _ => []);
    }

    /** recreate: destroy the command buffers and allocate one per framebuffer again. */
    method Recreate(framebuffers: nat)
      modifies this
      ensures buffers == seq(framebuffers, _ => [])
    {
      buffers := seq(framebuffers, _ => []);
    }

    /**
     * recordCommands(imageIndex): the scene list `objects` is copied and the
     * copy sorted by sort key (`order` is the order the sort produced); the
     * commands Record yields for that order go into the image's command
     * buffer.  The registry and the caller's list are only read.
     */
    method RecordCommands(imageIndex: nat, objects: seq<RenderObject>, camera: Handle, registry: GraphicsPipeline,
                          began: bool, ended: bool)
      returns (r: Result<()>, ghost order: seq<RenderObject>)
      requires imageIndex < |buffers|
      modifies this
      ensures SortedBy(order, KeyOf) && multiset(order) == multiset(objects)
      ensures r.Ok? <==> Record(order, registry.pipelines, registry.layouts, camera, imageIndex, began, ended).Ok?
      ensures r.Err? ==> r.error == Record(order, registry.pipelines, registry.layouts, camera, imageIndex, began, ended).error
      ensures r.Ok? <==> began && ended && Resolves(objects, registry.pipelines, registry.layouts)
      ensures |buffers| == |old(buffers)|
      ensures forall k :: 0 <= k < |buffers| && k != imageIndex ==> buffers[k] == old(buffers)[k]
      ensures r.Ok? ==> buffers[imageIndex] == Record(order, registry.pipelines, registry.layouts, camera, imageIndex, began, ended).value
      ensures !began ==> buffers == old(buffers)
    {
      var sorted := SortedCopy(objects);
      order := sorted;
      RecordSucceeds(order, registry.pipelines, registry.layouts, camera, imageIndex, began, ended);
      ResolvesPermutation(order, objects, registry.pipelines, registry.layouts);
      if !began {
        return Err(BeginRecordingFailed), order;
      }
      var pass := RecordPass(sorted, registry, camera, imageIndex);
      RecordEnded(order, registry.pipelines, registry.layouts, camera, imageIndex, ended);
      if pass.Err? {
        return Err(pass.error), order;
      }
      buffers := buffers[imageIndex := pass.value];
      if !ended {
        return Err(EndRecordingFailed), order;
      }
      return Ok(()), order;
    }
  }
}

=== FILE: scene.dfy ===
/**
 * vks::RenderObject and its sort key.  A render object points at a Model
 * (possibly null) and a Material; recording only reads a few values through
 * those pointers, so the object carries them as value snapshots.
 */
module Scene {
  import opened Vulkan

  /** What recording reads through RenderObject::model. */
  datatype MeshView = MeshView(vertexBuffer: Handle, indexBuffer: Handle, indexCount: nat)

  /**
   * What recording and the sort key read through RenderObject::material:
   * the pipeline name, the address of the material's own copy of that name
   * (&material->getPipelineName()), and the material's descriptor set.
   */
  datatype MaterialView = MaterialView(pipelineName: string, nameAddress: U64, descriptorSet: Handle)

  /** glm::mat4, column-major; its entries are not interpreted here. */
  datatype Mat4 = Mat4(entries: seq<real>)

  /** glm::translate(glm::mat4(1.0f), (x, y, z)). */
  function Translation(x: real, y: real, z: real): (m: Mat4)
    ensures |m.entries| == 16
    ensures m.entries[12..15] == [x, y, z]
  {
    Mat4([1.0, 0.0, 0.0, 0.0,
          0.0, 1.0, 0.0, 0.0,
          0.0, 0.0, 1.0, 0.0,
          x, y, z, 1.0])
  }

  datatype RenderObject = RenderObject(mesh: Option<MeshView>, material: MaterialView, transform: Mat4)

  // ---------------------------------------------------------------------
  // uint64_t shift-and-or, written out on naturals.

  /** 2^32: one half of a 64-bit key. */
  const HALF: nat := U32_LIMIT

  function Pow2(k: nat): (r: nat)
    ensures r >= 1
  {
    if k == 0 then 1 else 2 * Pow2(k - 1)
  }

  /** Bitwise or of two naturals, bit by bit from the least significant. */
  function BitOr(a: nat, b: nat): nat
    decreases a + b
  {
    if a == 0 then b
    else if b == 0 then a
    else 2 * BitOr(a / 2, b / 2) + (if a % 2 == 1 || b % 2 == 1 then 1 else 0)
  }

  /** x << 32 in uint64_t: the upper 32 bits of x fall off. */
  function ShiftLeft32(x: U64): U64 {
    (x * HALF) % U64_LIMIT
  }

  /** pipelineKey: the address of the material's pipeline-name string. */
  function PipelineKey(r: RenderObject): U64 {
    r.material.nameAddress
  }

  /** materialKey: the descriptor-set handle as a 64-bit integer. */
  function MaterialKey(r: RenderObject): U64 {
    r.material.descriptorSet % U64_LIMIT
  }

  /** (pipelineKey << 32) | materialKey, which stays a uint64_t. */
  function Key(pipelineKey: U64, materialKey: U64): U64 {
    Pow2Of64();
    BitOrBelow(ShiftLeft32(pipelineKey), materialKey, 64);
    BitOr(ShiftLeft32(pipelineKey), materialKey)
  }

  /**
   * RenderObject::getSortKey.  With a material key below 2^32 the key
   * splits cleanly: its low half is the material key and its high half the
   * pipeline key mod 2^32.
   */
  function SortKey(r: RenderObject): (key: U64)
    ensures MaterialKey(r) < HALF ==> key % HALF == MaterialKey(r) && key / HALF == PipelineKey(r) % HALF
  {
    if MaterialKey(r) < HALF then
      KeyUnderBound(PipelineKey(r), MaterialKey(r));
      Key(PipelineKey(r), MaterialKey(r))
    else
      Key(PipelineKey(r), MaterialKey(r))
  }

  /** Or-ing two k-bit numbers gives a k-bit number. */
  lemma {:induction false} BitOrBelow(a: nat, b: nat, k: nat)
    requires a < Pow2(k) && b < Pow2(k)
    ensures BitOr(a, b) < Pow2(k)
    decreases k
  {
    if a != 0 && b != 0 {
      BitOrBelow(a / 2, b / 2, k - 1);
    }
  }

  lemma ShiftLeft32Keeps32(x: U64)
    ensures ShiftLeft32(x) == (x % HALF) * HALF
  {
    var q := x / HALF;
    var low := x % HALF;
    assert x * HALF == q * U64_LIMIT + low * HALF;
    assert low * HALF < U64_LIMIT;
  }

  /** Or-ing a number below 2^k into a multiple of 2^k is adding it. */
  lemma {:induction false} BitOrDisjoint(h: nat, m: nat, k: nat)
    requires m < Pow2(k)
    ensures BitOr(h * Pow2(k), m) == h * Pow2(k) + m
  {
    if h == 0 || m == 0 {
    } else {
      assert k > 0;
      var a := h * Pow2(k);
      assert a == 2 * (h * Pow2(k - 1));
      assert a / 2 == h * Pow2(k - 1) && a % 2 == 0;
      BitOrDisjoint(h, m / 2, k - 1);
    }
  }

  lemma Pow2Of64()
    ensures Pow2(64) == U64_LIMIT
  {
    Pow2Of32();
    Pow2Add(32, 32);
  }

  lemma Pow2Of32()
    ensures Pow2(32) == HALF
  {
    assert Pow2(8) == 256;
    assert Pow2(16) == 256 * Pow2(8) by { Pow2Add(8, 8); }
    assert Pow2(32) == Pow2(16) * Pow2(16) by { Pow2Add(16, 16); }
  }

  lemma {:induction false} Pow2Add(i: nat, j: nat)
    ensures Pow2(i + j) == Pow2(i) * Pow2(j)
  {
    if j > 0 {
      Pow2Add(i, j - 1);
      assert Pow2(i + j) == 2 * Pow2(i + j - 1);
    }
  }

  /** Below 2^32 the material key does not reach into the pipeline half. */
  lemma KeyUnderBound(p: U64, m: U64)
    requires m < HALF
    ensures Key(p, m) == (p % HALF) * HALF + m
  {
    ShiftLeft32Keeps32(p);
    Pow2Of32();
    BitOrDisjoint(p % HALF, m, 32);
  }

  /** The shift discards the pipeline key's upper 32 bits. */
  lemma SortKeyDropsHighBits(a: RenderObject, b: RenderObject)
    requires PipelineKey(a) % HALF == PipelineKey(b) % HALF
    requires MaterialKey(a) == MaterialKey(b)
    ensures SortKey(a) == SortKey(b)
  {
    ShiftLeft32Keeps32(PipelineKey(a));
    ShiftLeft32Keeps32(PipelineKey(b));
  }

  /**
   * With both material keys below 2^32, keys compare lexicographically by
   * (pipeline key mod 2^32, material key).
   */
  lemma SortKeyOrder(a: RenderObject, b: RenderObject)
    requires MaterialKey(a) < HALF && MaterialKey(b) < HALF
    ensures SortKey(a) < SortKey(b) <==>
      || PipelineKey(a) % HALF < PipelineKey(b) % HALF
      || (PipelineKey(a) % HALF == PipelineKey(b) % HALF && MaterialKey(a) < MaterialKey(b))
  {
    KeyUnderBound(PipelineKey(a), MaterialKey(a));
    KeyUnderBound(PipelineKey(b), MaterialKey(b));
  }

  /**
   * Without the bound the halves overlap: an object whose pipeline key is
   * lower can still sort after one whose pipeline key is higher.
   */
  lemma SortKeyOverlap()
    ensures var a := RenderObject(None, MaterialView("sphere", 0, 0x2_0000_0000), Mat4([]));
            var b := RenderObject(None, MaterialView("sphere", 1, 0), Mat4([]));
            PipelineKey(a) < PipelineKey(b) && SortKey(b) < SortKey(a)
  {
    var a := RenderObject(None, MaterialView("sphere", 0, 0x2_0000_0000), Mat4([]));
    var b := RenderObject(None, MaterialView("sphere", 1, 0), Mat4([]));
    assert ShiftLeft32(0) == 0;
    assert ShiftLeft32(1) == HALF;
    assert SortKey(a) == 0x2_0000_0000;
    assert SortKey(b) == HALF;
  }

  /**
   * The key looks at where each material keeps its own copy of the
   * pipeline name, not at the name: two materials naming the same pipeline
   * whose copies lie at addresses that differ mod 2^32 get different keys,
   * so sorting need not group the objects of one pipeline together.
   */
  lemma SortKeyGroupsByMaterialNotName(a: RenderObject, b: RenderObject)
    requires a.material.pipelineName == b.material.pipelineName
    requires a.material.nameAddress % HALF != b.material.nameAddress % HALF
    requires MaterialKey(a) < HALF && MaterialKey(b) < HALF
    ensures SortKey(a) != SortKey(b)
  {
  }

  /**
   * Two objects on the same pipeline whose materials keep the name at
   * different addresses, and a third object on another pipeline, sort in
   * between them.
   */
  lemma SortKeySplitsPipeline()
    ensures var a := RenderObject(None, MaterialView("sphere", 0, 1), Mat4([]));
            var b := RenderObject(None, MaterialView("sphere", 2, 1), Mat4([]));
            var c := RenderObject(None, MaterialView("base", 1, 1), Mat4([]));
            SortKey(a) < SortKey(c) < SortKey(b)
  {
    var a := RenderObject(None, MaterialView("sphere", 0, 1), Mat4([]));
    var b := RenderObject(None, MaterialView("sphere", 2, 1), Mat4([]));
    var c := RenderObject(None, MaterialView("base", 1, 1), Mat4([]));
    SortKeyOrder(a, c);
    SortKeyOrder(c, b);
  }
}

=== FILE: vulkan.dfy ===
/**
 * The slice of the Vulkan API the renderer relies on, reduced to values:
 * opaque handles (with VK_NULL_HANDLE as 0), result codes, flag masks,
 * the error conditions the renderer raises, and a Device that hands out
 * and takes back handles.  Nothing here talks to a GPU.
 */
module Vulkan {

  /** A non-dispatchable Vulkan handle; 0 plays the part of VK_NULL_HANDLE. */
  type Handle = nat

  const NULL_HANDLE: Handle := 0

  /** One byte of host or device memory. */
  newtype byte = b: int | 0 <= b < 256

  /** uint64_t. */
  const U64_LIMIT: int := 0x1_0000_0000_0000_0000
  type U64 = n: nat | n < U64_LIMIT

  /** VkDeviceSize is an unsigned 64-bit integer. */
  type DeviceSize = U64

  /** VK_WHOLE_SIZE, i.e. ~0ULL: "up to the end of the buffer". */
  const WHOLE_SIZE: DeviceSize := 0xFFFF_FFFF_FFFF_FFFF

  /** uint32_t arithmetic, for the casts the source performs. */
  const U32_LIMIT: int := 0x1_0000_0000

  /** VkBufferUsageFlagBits used by the renderer. */
  const BUFFER_USAGE_TRANSFER_SRC: bv32 := 0x1
  const BUFFER_USAGE_TRANSFER_DST: bv32 := 0x2
  const BUFFER_USAGE_UNIFORM_BUFFER: bv32 := 0x10
  const BUFFER_USAGE_INDEX_BUFFER: bv32 := 0x40
  const BUFFER_USAGE_VERTEX_BUFFER: bv32 := 0x80

  /** VkMemoryPropertyFlagBits used by the renderer. */
  const MEMORY_PROPERTY_DEVICE_LOCAL: bv32 := 0x1
  const MEMORY_PROPERTY_HOST_VISIBLE: bv32 := 0x2
  const MEMORY_PROPERTY_HOST_COHERENT: bv32 := 0x4

  /** VK_MAX_MEMORY_TYPES: a physical device reports at most this many memory types. */
  const MAX_MEMORY_TYPES: nat := 32

  /** The shader stages the renderer names. */
  datatype ShaderStage = VertexStage | FragmentStage

  /** VkResult codes that the frame loop distinguishes. */
  datatype VkResult = Success | Suboptimal | ErrorOutOfDate | OtherError(code: int)

  /** A two-dimensional extent in pixels (VkExtent2D, glm::ivec2). */
  datatype Extent = Extent(width: nat, height: nat)

  predicate IsNonZero(e: Extent) {
    e.width != 0 && e.height != 0
  }

  /** Which registry a failed name lookup went to. */
  datatype Registry = Pipelines | PipelineLayouts | DescriptorSetLayouts | Models | Materials

  /** Every condition on which the renderer throws. */
  datatype Error =
    | NotFound(registry: Registry, name: string)
    | BufferCreationFailed
    | NoSuitableMemoryType
    | MemoryAllocationFailed
    | MemoryBindFailed
    | DescriptorSetBuildFailed
    | BeginRecordingFailed
    | EndRecordingFailed
    | AcquireFailed
    | SubmitFailed
    | PresentFailed

  datatype Result<T> = Ok(value: T) | Err(error: Error)

  datatype Option<T> = None | Some(value: T)

  /** A number strictly above every element of s. */
  ghost function Above(s: set<nat>): (b: nat)
    ensures forall x :: x in s ==> x < b
    decreases s
  {
    if s == {} then 1
    else
      var x :| x in s;
      var rest := Above(s - {x});
      var b := if rest <= x then x + 1 else rest;
      assert forall y :: y in s ==> y == x || y in s - {x};
      b
  }

  /**
   * The logical device, seen only through the handles it has created and
   * not yet destroyed, plus the property flags of the memory types its
   * physical device reports.  Destroying VK_NULL_HANDLE is a no-op, as in
   * Vulkan.
   */
  class Device {
    const memoryTypes: seq<bv32>
    var live: set<Handle>

    ghost predicate Valid()
      reads this
    {
      && |memoryTypes| <= MAX_MEMORY_TYPES
      && NULL_HANDLE !in live
    }

    constructor (memoryTypes: seq<bv32>)
      requires |memoryTypes| <= MAX_MEMORY_TYPES
      ensures Valid() && this.memoryTypes == memoryTypes && live == {}
    {
      this.memoryTypes := memoryTypes;
      live := {};
    }

    /** vkCreate* / vkAllocate* that succeeded: a new, non-null handle. */
    method Create() returns (h: Handle)
      requires Valid()
      modifies this
      ensures Valid()
      ensures h != NULL_HANDLE && h !in old(live)
      ensures live == old(live) + {h}
    {
      ghost var b := Above(live);
      assert b + 1 !in live && b + 1 != NULL_HANDLE;
      h :| h !in live && h != NULL_HANDLE;
      live := live + {h};
    }

    /** vkDestroy* / vkFree*. */
    method Destroy(h: Handle)
      requires Valid()
      modifies this
      ensures Valid()
      ensures live == old(live) - {h}
    {
      live := live - {h};
    }

    /** Destroys every handle of hs, one at a time, in no particular order. */
    method DestroyAll(hs: set<Handle>)
      requires Valid()
      modifies this
      ensures Valid()
      ensures live == old(live) - hs
    {
      var todo := hs;
      while todo != {}
        invariant todo <= hs
        invariant Valid()
        invariant live == old(live) - (hs - todo)
        decreases todo
      {
        var h :| h in todo;
        Destroy(h);
        todo := todo - {h};
      }
    }
  }
}
